=== FILE: README.md ===
# F.O.C.U.S learning assistant — a Dafny model of its core

This project models the pure logic of the F.O.C.U.S learning assistant (a Next.js
application) and proves properties of it. It covers:

- the **knowledge base** that answers a learner's question from a tagged catalogue of
  answers (`lib/knowledgeBase.ts`): text normalisation, tag relevance, the best answer,
  the ranked top answers and the context block passed to the chat model;
- the **resource helper** that turns a profession title into grouped learning
  resources (`lib/resourcesHelper.ts`): the profession → directions table and its
  keyword fallback, direction and difficulty filtering, the typed selection, padding
  to five, the numbered topic groups, the content-type labels and the list of all
  directions;
- the **translation hook** (`hooks/useTranslation.ts`): `t` walks a dotted key through
  the current language's locale tree and falls back to the key, and `tf` fills
  `{name}` placeholders;
- the **quiz panel** (`components/QuizSection.tsx`): answer selection, submission and
  score, reset, previous/next navigation and the import of saved answers.

Modules:

| file | module | contents |
|---|---|---|
| Optional.dfy | `Optional` | `Option<T>` |
| Seqs.dfy | `Seqs` | filter, take, slice-with-negative-end, duplicate-freedom and order-preserving dedup, with their lemmas |
| Text.dfy | `Text` | lower-casing, trimming, punctuation stripping, whitespace collapsing, `split`/`join`, `indexOf`/`includes`, first-occurrence `replace` (with the `$` replacement patterns), decimal numerals |
| KnowledgeBase.dfy | `KnowledgeBase` | `normalizeText` … `getContextForAI` |
| Resources.dfy | `Resources` | `PROFESSION_MAPPING` … `getAllDirections` |
| Translation.dfy | `Translation` | `t`, `tf` |
| Quiz.dfy | `Quiz` | the quiz panel's state and transitions |

Everything is a pure function of its inputs. The JSON catalogues the code reads from
disk (`knowledge-base.json`, `data/deep-json`, the locale files) are parameters: a
catalogue is a sequence of records and a locale file a JSON tree. Scores are exact
`real`s. Catalogue records are paired with their position (`Resources.Ref`) so that
the object identity the code relies on in `!selectedResources.includes(r)` is
modelled exactly.

Where the prose design notes and the code differ, the model follows the code:

- `findBestAnswer` defaults to the threshold 0.3, not 0.5.
- `normalizeText` trims **before** it strips punctuation, so a normalised text can end
  in a space (`"ok !"` → `"ok "`, proved as `Text.NormalizeKeepsTrailingSpace`).
- `calculateRelevance` divides the summed tag scores (10, 5 or up to 3 per tag) by the
  number of tags, so a relevance lies in 0..10, not 0..1.

## Model

Members without a contract of their own are stated by the lemma rows about them:
`Resources.DifficultyLevels` by `Resources.DifficultyPolicy`; `Resources.TypeLabel` by
`Resources.TypeLabelPassThrough` and `Resources.TypeLabelsDistinct`; `Translation.T` by
`Translation.TFindsLeaf`, `Translation.TFallsBack` and `Translation.Translate`; and
`Translation.Fill` and `Translation.Tf` by `Translation.FillAbsent`, `Translation.FillOne`
and `Translation.FillKeepsSecond`.

| member | source | states |
|---|---|---|
| Text.Lower | lib/knowledgeBase.ts:31-31 | lower-casing keeps the length, leaves no upper-case letter and changes no other character |
| Text.Trim | lib/knowledgeBase.ts:32-32 | the trimmed text neither starts nor ends with white space, and a text that already does neither is unchanged |
| Text.TrimPiece | lib/knowledgeBase.ts:32-32 | the trimmed text is one contiguous piece of the input, and everything before and after that piece is white space |
| Text.TrimFilter | lib/knowledgeBase.ts:32-32 | trimming removes only white space: any character filter that rejects white space keeps the same characters before and after the trim |
| Text.TrimIdempotent | lib/knowledgeBase.ts:32-32 | trimming a second time changes nothing |
| Text.StripPunctuation | lib/knowledgeBase.ts:34-34 | no character of the class `[.,/#!$%^&*;:{}=\-_`~()]` survives, every character kept comes from the input, and every input character outside the class is kept |
| Text.StripPunctuationChars | lib/knowledgeBase.ts:34-34 | the global replace works character by character in order: stripping a concatenation is concatenating the stripped parts, and one character is dropped exactly when it is in the class |
| Text.CollapseSpaces | lib/knowledgeBase.ts:36-36 | no two white-space characters are adjacent afterwards, every remaining one is a plain space, a leading space stays a leading space, only the empty text collapses to the empty text, and the non-space characters are exactly those of the input in order |
| Text.WordsAreWords | lib/knowledgeBase.ts:36-36 | every word of a text, that is every maximal run of non-space characters, is non-empty and holds no white space |
| Text.CollapseIsJoin | lib/knowledgeBase.ts:36-36 | collapsing gives exactly the text's words joined by single spaces, with one space in front when the text starts with white space and one at the end when white space follows the last word |
| Text.CollapseKeepsWords | lib/knowledgeBase.ts:36-36 | collapsing keeps the words of the text, the same and in the same order |
| Text.Normalize | lib/knowledgeBase.ts:29-37 | a normalised text has no upper-case letter, none of the stripped punctuation, no run of white space and no white space other than a plain space. Its non-space characters are exactly the lower-cased input's characters that are neither white space nor stripped punctuation, in order, and its words are those of the lower-cased, trimmed and stripped text |
| Text.NormalizeIsJoin | lib/knowledgeBase.ts:29-37 | the normalised text is the words of the lower-cased, trimmed and stripped text joined by single spaces, with at most one space in front and one at the end |
| Text.NormalizeWords | lib/knowledgeBase.ts:29-37 | lower-casing, trimming, stripping and collapsing together keep exactly the lower-cased word characters, in order |
| Text.NormalizeTwice | lib/knowledgeBase.ts:29-37 | normalising an already normalised text only trims it: the pipeline is idempotent up to the trailing space left by trimming before stripping |
| Text.NormalizeKeepsTrailingSpace | lib/knowledgeBase.ts:29-37 | `"ok !"` normalises to `"ok "`, because the trim runs before the `!` is removed |
| Text.Split | lib/knowledgeBase.ts:42-42 | `split(sep)` yields at least one piece, no piece contains the separator, and joining the pieces with the separator gives back the text |
| Text.SplitJoin | lib/knowledgeBase.ts:49-49 | splitting a join of separator-free pieces gives back exactly those pieces |
| Text.Utf16Length | lib/knowledgeBase.ts:42-42 | `w.length` counts UTF-16 code units: between one and two per character, exactly one each when no character lies above U+FFFF |
| Text.Utf16LengthConcat | lib/knowledgeBase.ts:42-42 | the code-unit length of a concatenation is the sum of the parts' lengths |
| Text.Utf16LengthExample | lib/knowledgeBase.ts:42-42 | one emoji has length 2 and a word of two emoji length 4, so such a word passes the `length > 2` filter |
| Text.Includes | lib/knowledgeBase.ts:52-52 | `includes` holds exactly when the pattern occurs at some position |
| Text.IndexOf | hooks/useTranslation.ts:35-35 | the index found is the first position where the pattern occurs, and none is found exactly when it occurs nowhere |
| Text.ReplaceFirst | hooks/useTranslation.ts:35-35 | a string `replace` with a `$`-free replacement cuts out the first occurrence and splices the replacement in; a text without the pattern is unchanged |
| Text.Substitute | hooks/useTranslation.ts:35-35 | a replacement text without `$` is inserted as it is |
| Text.SubstituteLiteral | hooks/useTranslation.ts:35-35 | a `$`-free part of the replacement text is copied as it is, whatever follows it |
| Text.SubstitutePatterns | hooks/useTranslation.ts:35-35 | in the replacement text `$$` gives `$`, `$&` the matched text, `` $` `` the text before the match and `$'` the text after it |
| Text.SubstituteLoneDollar | hooks/useTranslation.ts:35-35 | a `$` that begins none of the four patterns, or ends the replacement text, is kept literally |
| Text.SubstituteMatched | hooks/useTranslation.ts:35-35 | a `$&` between two `$`-free parts becomes the matched text between those parts |
| Text.ReplaceFirstMatched | hooks/useTranslation.ts:35-35 | replacing a pattern by a text containing one `$&` wraps the first occurrence of the pattern in the literal parts around the `$&` |
| Text.ReplaceFirstExample | hooks/useTranslation.ts:35-35 | `"a{x}b".replace("{x}", "[$&]")` is `"a[{x}]b"` |
| Text.ReplaceFirstKeepsLater | hooks/useTranslation.ts:35-35 | an occurrence after the first survives the replacement, shifted by the difference in length |
| Text.NatToString | lib/resourcesHelper.ts:239-239 | the decimal numeral of `n` is all digits, has no leading zero and reads back as `n` |
| KnowledgeBase.TagScore | lib/knowledgeBase.ts:47-75 | a tag earns 10 exactly when the normalised question contains the normalised tag, and 5 exactly when it does not but every tag word fuzzily matches a question word of more than two letters. Otherwise it earns `(m / n) * 3`, where `m` of its `n` words match; that is below 3, and positive exactly when some tag word matches |
| KnowledgeBase.PartialScore | lib/knowledgeBase.ts:67-74 | the partial score of a non-empty word list is `(m / n) * 3` for the `m` matching words among `n`. It is positive exactly when some word matches, and below 3 when not every word matches |
| KnowledgeBase.FractionOf | lib/knowledgeBase.ts:73-73 | `(m / n) * 3` times `n` is `3 * m`; it is 0 exactly when `m` is 0, and below 3 when `m < n` |
| KnowledgeBase.Relevance | lib/knowledgeBase.ts:40-79 | a relevance lies between 0 and 10 and is 0 for an entry without tags |
| KnowledgeBase.TotalScoreAppend | lib/knowledgeBase.ts:47-75 | one more tag adds exactly its own score to `matchScore` |
| KnowledgeBase.TotalIsSum | lib/knowledgeBase.ts:44-75 | `matchScore` after the loop is the sum of the per-tag scores, in tag order |
| KnowledgeBase.RelevanceIsMean | lib/knowledgeBase.ts:40-79 | the relevance is the arithmetic mean of the per-tag scores (10, 5 or the partial fraction), and 0 without tags |
| KnowledgeBase.RelevanceSingleTag | lib/knowledgeBase.ts:40-79 | with a single tag, the relevance is that tag's score |
| KnowledgeBase.EmptyTagIsExact | lib/knowledgeBase.ts:51-55 | an empty tag is contained in every question and so always scores the full 10 |
| KnowledgeBase.ShortQuestionRelevance | lib/knowledgeBase.ts:41-74 | for a question whose words are all at most two letters long, only exact tag matches count: the relevance is 10 times the fraction of tags contained in it |
| KnowledgeBase.AllExactScoresTen | lib/knowledgeBase.ts:51-78 | an entry every one of whose tags occurs in the question scores the maximum 10 |
| KnowledgeBase.BestOf | lib/knowledgeBase.ts:89-101 | the loop finds nothing exactly when no score exceeds the threshold; otherwise its pick scores above the threshold, at least as high as every other entry, and strictly higher than every earlier entry |
| KnowledgeBase.FindBestAnswer | lib/knowledgeBase.ts:82-102 | `null` exactly when no entry's relevance exceeds the threshold, otherwise the earliest entry of maximal relevance |
| KnowledgeBase.FindBestAnswerByDefault | lib/knowledgeBase.ts:82-82 | with the default threshold 0.3: `null` exactly when no relevance exceeds 0.3, otherwise an earliest entry of maximal relevance |
| KnowledgeBase.SortByScore | lib/knowledgeBase.ts:118-118 | the sort by descending score is a permutation of its input and non-increasing in score |
| KnowledgeBase.SortStable | lib/knowledgeBase.ts:118-118 | entries of equal score keep their catalogue order (the sort is stable) |
| KnowledgeBase.Rank | lib/knowledgeBase.ts:112-119 | exactly `min(topN, number passing the threshold)` entries, each scoring above the threshold and taken from the input, in non-increasing score; empty exactly when nothing passes the threshold |
| KnowledgeBase.RankLeavesLower | lib/knowledgeBase.ts:117-119 | an entry above the threshold that the cut to `topN` left out scores no higher than the last entry kept |
| KnowledgeBase.FindRelevantAnswers | lib/knowledgeBase.ts:105-122 | the answers are catalogue entries above the threshold, exactly `min(topN, number of entries above it)` of them, in non-increasing relevance, and none exactly when no entry passes |
| KnowledgeBase.PassingCount | lib/knowledgeBase.ts:112-119 | the ranked list is as long as `topN` and the number of catalogue entries above the threshold allow |
| KnowledgeBase.RelevantLeavesLower | lib/knowledgeBase.ts:105-122 | an entry above the threshold that is not among the answers scores no higher than the last answer returned |
| KnowledgeBase.FindRelevantAnswersByDefault | lib/knowledgeBase.ts:105-105 | with the defaults `topN = 3` and threshold 0.2: `min(3, number above 0.2)` catalogue entries above 0.2, and none exactly when no entry passes |
| KnowledgeBase.FindRelevantMonotone | lib/knowledgeBase.ts:112-119 | raising the threshold can only shorten the answer list, which stays a prefix of the one for the lower threshold |
| KnowledgeBase.RankKeepsOrder | lib/knowledgeBase.ts:112-119 | among answers of equal score, those returned are the first of them in catalogue order |
| KnowledgeBase.BestHeadsRanking | lib/knowledgeBase.ts:82-122 | with the same threshold, the best answer is the first of the relevant answers |
| KnowledgeBase.ContextForAI | lib/knowledgeBase.ts:125-137 | the context is empty exactly when no entry's relevance exceeds 0.15 |
| KnowledgeBase.ContextSections | lib/knowledgeBase.ts:125-137 | a non-empty context starts with the knowledge-base heading and contains one numbered section per relevant answer, at most three, in ranking order |
| Resources.DirectionsFor | lib/resourcesHelper.ts:111-165 | the directions are never empty; a title that is a key of the table gets the table's list verbatim, any other title exactly one direction |
| Resources.FirstKeywordWins | lib/resourcesHelper.ts:118-161 | without a table hit the first keyword rule, in source order, that the lower-cased title mentions decides the direction |
| Resources.NoKeywordIsFrontend | lib/resourcesHelper.ts:163-164 | a title that is not in the table and mentions no keyword gets the Frontend direction |
| Resources.PythonOutranksReact | lib/resourcesHelper.ts:120-122 | a lower-cased title mentioning "python" is a Python title, whatever else it mentions |
| Resources.Matching | lib/resourcesHelper.ts:177-179 | the direction filter keeps each catalogue record at most once, and only records whose direction is one of the directions |
| Resources.MatchingComplete | lib/resourcesHelper.ts:177-179 | every catalogue record whose direction is one of the directions is kept by the direction filter |
| Resources.DifficultyPolicy | lib/resourcesHelper.ts:186-194 | beginner material for every level but the advanced one, advanced material only for the middle and advanced levels, intermediate material for the four named levels, and beginner material alone for any other level |
| Resources.Pool | lib/resourcesHelper.ts:197-202 | the pool is drawn from the direction match, is empty only when the match is, and keeps every matched record at an admitted level |
| Resources.PoolPolicy | lib/resourcesHelper.ts:197-202 | when some matched record is at an admitted level the pool is exactly the matched records at admitted levels, in match order; when none is, the pool is the whole match |
| Resources.KindOf | lib/resourcesHelper.ts:205-208 | a content type is a video, course, article or book exactly when it is the string "video", "course", "article" or "book" |
| Resources.CeilDiv | lib/resourcesHelper.ts:230-230 | `Math.ceil(a / b)` is the least multiple count that reaches `a` |
| Resources.TypedSelectionBuckets | lib/resourcesHelper.ts:205-218 | the records of each of the four content types in the typed selection are exactly the first `cap` of that type in the pool (the first one, for books), in pool order |
| Resources.TypedSelection | lib/resourcesHelper.ts:205-218 | at most `3 * cap + 1` records, listing videos first, then courses, then articles, then the book, and nothing of another type |
| Resources.TypedSelectionNoDup | lib/resourcesHelper.ts:205-218 | a duplicate-free pool gives a duplicate-free typed selection |
| Resources.Pad | lib/resourcesHelper.ts:221-224 | padding keeps the selection as a prefix, leaves a selection of five or more alone, never goes beyond five, and appends a prefix of the not-yet-selected pool records in pool order |
| Resources.PadFills | lib/resourcesHelper.ts:221-224 | a selection of fewer than five is filled up to five or to the size of the pool, whichever is smaller, without repeating a record |
| Resources.TopicLabelsDistinct | lib/resourcesHelper.ts:239-239 | every topic label is "Тема " followed by the topic's number, which can be read back from it, so different topics get different labels |
| Resources.Groups | lib/resourcesHelper.ts:230-251 | at most `topicsCount` groups, each non-empty and of at most `ceil(length / topicsCount)` records |
| Resources.GroupsProperties | lib/resourcesHelper.ts:230-251 | the groups put back together are the whole selection in order, and they are numbered 1, 2, 3, … without gaps |
| Resources.Partition | lib/resourcesHelper.ts:232-237 | the loop keeps at most one group per remaining iteration, each non-empty and of at most `per` records |
| Resources.PartitionItems | lib/resourcesHelper.ts:232-237 | the loop from any start gives, as its `k`-th kept group, the slice of `per` records at the `k`-th step |
| Resources.GroupsItems | lib/resourcesHelper.ts:230-237 | group `k` is `slice(k * per, (k + 1) * per)` with `per = ceil(length / topicsCount)` |
| Resources.GroupSelection | lib/resourcesHelper.ts:226-251 | at most `topicsCount` topics, none exactly for an empty selection, numbered 1, 2, 3, …, each non-empty and of at most `ceil(length / topicsCount)` items, and together the items of the whole selection in order |
| Resources.GroupSelectionSlices | lib/resourcesHelper.ts:230-248 | topic `k` holds the items of `selectedResources.slice(k * per, (k + 1) * per)` |
| Resources.Selection | lib/resourcesHelper.ts:177-224 | the selection repeats no record, holds only catalogue records of the profession's directions, and is empty exactly when no catalogue record belongs to them |
| Resources.ResourcesFor | lib/resourcesHelper.ts:176-253 | no topics exactly when nothing matches or the loop does not run; otherwise at most `topicsCount` topics that are the grouping of the selection, whose items are the selection in order |
| Resources.GetResourcesForProfession | lib/resourcesHelper.ts:168-254 | at most `topicsCount` topics, none of them empty |
| Resources.GetResourcesByDefault | lib/resourcesHelper.ts:168-172 | with the defaults (beginner level, three topics): at most three non-empty topics, and none exactly when no catalogue record belongs to the profession's directions |
| Resources.ResultEmpty | lib/resourcesHelper.ts:168-253 | the result is empty exactly when `topicsCount` is not positive or no catalogue record belongs to the profession's directions |
| Resources.ResultFromCatalog | lib/resourcesHelper.ts:168-253 | every returned item describes a catalogue record of one of the profession's directions |
| Resources.TypeLabelPassThrough | lib/resourcesHelper.ts:257-265 | "video", "article", "book" and "course" are labelled "YouTube", "Статья", "Книга" and "Курс"; the label is the content type itself exactly when the type is none of the four |
| Resources.TypeLabelsDistinct | lib/resourcesHelper.ts:258-263 | no two of the four content types share a label |
| Resources.AllDirections | lib/resourcesHelper.ts:268-272 | each direction is listed once, comes from the catalogue, and the list follows the order of first occurrence |
| Resources.AllDirectionsComplete | lib/resourcesHelper.ts:268-272 | no direction of the catalogue is missing from the list |
| Resources.ResourcesAsWritten | lib/resourcesHelper.ts:111-183 | the code as written agrees with the corrected model for every title that is not an inherited property name, and returns nothing for an empty catalogue |
| Resources.InheritedNameThrows | lib/resourcesHelper.ts:113-115 | a title such as "constructor" makes the table lookup return an inherited member, and the direction filter then throws on a non-empty catalogue, where the keyword rules were evidently meant to apply |
| Translation.TreeFor | hooks/useTranslation.ts:6-17 | each language selects its own locale tree |
| Translation.Member | hooks/useTranslation.ts:20-21 | a step into an object finds a value exactly for its own keys; a step into an array finds one of its elements |
| Translation.ResolveLeaf | hooks/useTranslation.ts:16-27 | the segment walk ends on a string exactly when that string is stored in the tree under the key's path |
| Translation.TFindsLeaf | hooks/useTranslation.ts:15-28 | when the dotted key leads to a string, `t` returns that string |
| Translation.TFallsBack | hooks/useTranslation.ts:19-27 | when the dotted key leads to no string, `t` returns the key itself |
| Translation.Translate | hooks/useTranslation.ts:15-28 | `t` returns either the key or a string stored under the key's path in the current language's tree |
| Translation.ParamString | hooks/useTranslation.ts:35-35 | `String(value)` is the text itself, or the decimal numeral of the number, with a minus sign for a negative one and never a `$` |
| Translation.FillAbsent | hooks/useTranslation.ts:30-39 | parameters whose placeholders do not occur leave the translation unchanged, so `tf` without parameters is `t` |
| Translation.FillOne | hooks/useTranslation.ts:34-36 | one parameter replaces the first `{name}` by its value and keeps the rest of the text |
| Translation.FillKeepsSecond | hooks/useTranslation.ts:34-36 | only the first `{name}` is filled: a later one survives, shifted by the difference in length |
| Quiz.Initial | components/QuizSection.tsx:32-37 | a fresh quiz is at the first question, not submitted, and has one unanswered slot per question |
| Quiz.Assign | components/QuizSection.tsx:63-65 | writing a slot sets that slot, keeps every other one, and extends a shorter array with holes up to it |
| Quiz.SelectAnswer | components/QuizSection.tsx:61-67 | after submission nothing changes; before it only the current question's slot changes, to the chosen option |
| Quiz.Score | components/QuizSection.tsx:136-140 | the score is defined exactly when there are no more answers than questions, and then is the number of questions whose chosen option is the correct one |
| Quiz.CorrectCountsIndices | components/QuizSection.tsx:136-140 | the score is the number of questions whose chosen option is the correct one |
| Quiz.ScoreExtremes | components/QuizSection.tsx:136-140 | an unanswered question never counts, and answering every question correctly scores the number of answers |
| Quiz.Submit | components/QuizSection.tsx:69-81 | submitting locks the quiz, shows the explanations, keeps the answers and reports the number of correctly answered questions |
| Quiz.Reset | components/QuizSection.tsx:83-89 | reset returns to the first question, unsubmitted, with one unanswered slot per question |
| Quiz.Prev | components/QuizSection.tsx:340-340 | "previous" moves back one question but never below the first, and changes nothing else |
| Quiz.Next | components/QuizSection.tsx:352-357 | "next" moves forward one question but never beyond the last, and changes nothing else |
| Quiz.SelectingCompletes | components/QuizSection.tsx:61-67 | selecting an option before submission makes the quiz submittable exactly when every other question is already answered |
| Quiz.BlankCannotSubmit | components/QuizSection.tsx:146-146 | a fresh or reset quiz counts as all answered only when it has no questions |
| Quiz.TransitionsKeepValid | components/QuizSection.tsx:61-89 | selecting, submitting, resetting and moving back or forward keep the current question within the quiz |
| Quiz.SubmittedIsLocked | components/QuizSection.tsx:61-76 | once submitted, selecting an answer changes neither the answers nor the score |
| Quiz.FindQuestion | components/QuizSection.tsx:124-124 | `find` returns the first question with the given text, and nothing exactly when none has it |
| Quiz.OptionIndex | components/QuizSection.tsx:124-124 | `indexOf` returns the first position of the option, and nothing exactly when the option is absent |
| Quiz.ImportAnswers | components/QuizSection.tsx:114-128 | a file without an answers array, or one with a `null` entry (whose property read throws inside the `try`), changes nothing; otherwise slot `i` becomes the imported entry `i`'s option index, found by question text and option text |
| Quiz.ImportSlotMeaning | components/QuizSection.tsx:123-126 | an imported entry becomes option `o` exactly when its question text is found and `o` is the first position of its option text there, and an unanswered slot otherwise |
| Quiz.ImportKeepsValid | components/QuizSection.tsx:114-128 | importing leaves no holes in the answer sheet |

## Left out

- File and network I/O: `loadKnowledgeBase`, `loadResourcesDatabase` and the locale
  imports become parameters; a catalogue that fails to load is the empty catalogue,
  which is what the code returns on error. The knowledge base's cache is not modelled.
- The chat, generation and translation API routes, the React rendering, `localStorage`,
  theme handling and the answer export are presentation or I/O, not logic of the core.
- Floating point: relevances are exact reals, so rounding in `(m / n) * 3` and in the
  final division is not modelled.
- Text.Lower: `toLowerCase` is modelled for ASCII and the basic Cyrillic capitals
  (U+0410–U+042F and U+0400–U+040F) only; other scripts are left unchanged.
- Text.Utf16Length: a Dafny string holds Unicode scalar values, so a JavaScript string
  with a lone surrogate code unit has no counterpart in the model.
- Text.Substitute: the `$1`…`$99` and `$<name>` patterns refer to capture groups, which a
  string pattern never has; the model keeps them literally, as
  JavaScript engines do for a pattern without groups.
- KnowledgeBase.FindRelevantAnswers: `topN` and the thresholds are integers and reals;
  a fractional `topN` (which `slice` truncates) is not modelled.
- Resources.ResourcesFor: `topicsCount` is an integer; a fractional count (which
  changes how many loop iterations run) is not modelled.
- The result's `topic` field is represented by the topic's number; `Topic.Label()`
  (proved about in `Resources.TopicLabelsDistinct`) gives the string "Тема n".
- The grouping maps records to items after partitioning the selection, instead of per
  group; mapping commutes with slicing, so the result is the same.
- Resources.TypeLabel: `labels[contentType]` on the label table can also hit an
  inherited `Object.prototype` member (content type "constructor"); the model returns
  the content type itself there.
- Translation.ParamString: numbers are integers; `String` of a fractional or
  exponent-notation number is not modelled.
- `Object.keys(params)` order is taken as the order of the parameter list given to `Tf`.
- Translation.Member: an inherited `__proto__` (one the object does not own) and
  inherited members such as `toString` are treated as missing; none of them is a string,
  so `t` falls back to the key either way. A `__proto__` key the object owns is found
  like any other key.
- Quiz.Score: `answer === correctAnswer` compares numbers; the model compares integers.
  With more saved answers than questions the code throws, which the model reports as
  `None`.
- Resources.InheritedNameThrows: the list of inherited names is the twelve names of
  `Object.prototype`; that "constructor" is not a key of the table is stated as a
  hypothesis.

## Findings

| source | as written | input that shows it | evidently intended | confidence | as-written member | corrected member |
|---|---|---|---|---|---|---|
| lib/resourcesHelper.ts:113-115 | `PROFESSION_MAPPING[profession]` also finds members every object inherits, so the table lookup succeeds with a function or `Object.prototype`, and `directions.includes` then throws | profession `"constructor"` with a non-empty resource catalogue: a `TypeError` instead of the Frontend resources | look only at the table's own keys and fall through to the keyword rules otherwise | not executed | Resources.InheritedNameThrows | Resources.GetResourcesForProfession |

=== FILE: KnowledgeBase.dfy ===
/** The knowledge-base relevance matcher of lib/knowledgeBase.ts: tag scoring against a
    normalized question, the strict best match above a threshold, the stable top-N ranking,
    and the context block handed to the text generator. The catalog is a parameter; a catalog
    that failed to load is the empty catalog. */
module KnowledgeBase {
  import opened Optional
  import opened Seqs
  import opened Text

  datatype KnowledgeEntry = KnowledgeEntry(tags: seq<string>, answer: string)

  /** Contribution of a tag whose normalized text occurs in the normalized question. */
  const ExactWeight: real := 10.0
  /** Contribution of a tag all of whose words fuzzily match some question word. */
  const AllWordsWeight: real := 5.0
  /** Scale of the partial contribution, a fraction of matching tag words. */
  const PartialWeight: real := 3.0

  /** Default threshold of `findBestAnswer`. */
  const BestAnswerThreshold: real := 0.3
  /** Defaults of `findRelevantAnswers`. */
  const RelevantTopN: int := 3
  const RelevantThreshold: real := 0.2
  /** The arguments `getContextForAI` passes to `findRelevantAnswers`. */
  const ContextTopN: int := 3
  const ContextThreshold: real := 0.15

  // ---------------------------------------------------------------------------
  // calculateRelevance
  // ---------------------------------------------------------------------------

  /** `w.length > 2`, where `length` counts UTF-16 code units. */
  predicate LongWord(w: string)
  {
    Utf16Length(w) > 2
  }

  /** `normalizedQuestion.split(' ').filter(w => w.length > 2)`. */
  function QuestionWords(nq: string): seq<string>
  {
    Filter(Split(nq, ' '), LongWord)
  }

  /** One word fuzzily matches another when either includes the other. */
  predicate FuzzyMatch(tagWord: string, questionWord: string)
  {
    Includes(questionWord, tagWord) || Includes(tagWord, questionWord)
  }

  predicate MatchesSome(tagWord: string, questionWords: seq<string>)
  {
    exists q :: q in questionWords && FuzzyMatch(tagWord, q)
  }

  function Matcher(questionWords: seq<string>): string -> bool
  {
    w => MatchesSome(w, questionWords)
  }

  function NonMatcher(questionWords: seq<string>): string -> bool
  {
    w => !MatchesSome(w, questionWords)
  }

  /** `matchingWords.length > 0`: some tag word matches a question word. */
  predicate SomeWordMatches(tagWords: seq<string>, questionWords: seq<string>)
  {
    exists i :: 0 <= i < |tagWords| && MatchesSome(tagWords[i], questionWords)
  }

  /** `tagWords.every(...)` together with the `tagWords.length > 0` guard. */
  predicate AllWordsMatch(tagWords: seq<string>, questionWords: seq<string>)
  {
    |tagWords| > 0 && forall i :: 0 <= i < |tagWords| ==> MatchesSome(tagWords[i], questionWords)
  }

  /** One iteration of the tag loop: 10 for an exact phrase (nothing else is consulted),
      otherwise 5 when every tag word matches, otherwise the partial score. */
  function TagScore(nq: string, questionWords: seq<string>, tag: string): (c: real)
    ensures c == ExactWeight <==> Includes(nq, Normalize(tag))
    ensures c == AllWordsWeight <==>
      !Includes(nq, Normalize(tag)) && AllWordsMatch(Split(Normalize(tag), ' '), questionWords)
    ensures c == ExactWeight || c == AllWordsWeight || 0.0 <= c < PartialWeight
    ensures var tagWords := Split(Normalize(tag), ' ');
      !Includes(nq, Normalize(tag)) && !AllWordsMatch(tagWords, questionWords) ==>
        && c == Fraction(|Filter(tagWords, Matcher(questionWords))|, |tagWords|)
        && (c > 0.0 <==> SomeWordMatches(tagWords, questionWords))
  {
    var nt := Normalize(tag);
    var tagWords := Split(nt, ' ');
    if Includes(nq, nt) then ExactWeight
    else if AllWordsMatch(tagWords, questionWords) then AllWordsWeight
    else PartialScore(tagWords, questionWords)
  }

  /** `(matchingWords.length / tagWords.length) * 3` when some tag word matches, 0 when none
      does: in both cases the matching fraction of the tag words times 3; it is positive
      exactly when some tag word matches, and it stays below 3 unless every tag word
      matches. */
  function PartialScore(tagWords: seq<string>, questionWords: seq<string>): (c: real)
    requires |tagWords| > 0
    ensures c == Fraction(|Filter(tagWords, Matcher(questionWords))|, |tagWords|)
    ensures c > 0.0 <==> SomeWordMatches(tagWords, questionWords)
    ensures !AllWordsMatch(tagWords, questionWords) ==> 0.0 <= c < PartialWeight
  {
    SomeWordMatching(tagWords, questionWords);
    var m := |Filter(tagWords, Matcher(questionWords))|;
    FractionOf(m, |tagWords|);
    if m > 0 then Fraction(m, |tagWords|) else 0.0
  }

  /** `(m / n) * 3`: the share of `m` out of `n` of the partial weight. */
  function Fraction(m: nat, n: nat): real
    requires n > 0
  {
    (m as real / n as real) * PartialWeight
  }

  /** Multiplied back by `n` the fraction is `3 m`; it is 0 for `m = 0`, positive for
      positive `m`, and below 3 for `m < n`. */
  lemma FractionOf(m: nat, n: nat)
    requires 0 < n && m <= n
    ensures Fraction(m, n) * n as real == PartialWeight * m as real
    ensures m == 0 ==> Fraction(m, n) == 0.0
    ensures m > 0 ==> Fraction(m, n) > 0.0
    ensures m < n ==> 0.0 <= Fraction(m, n) < PartialWeight
  {
    var x, y := m as real, n as real;
    assert x / y * y == x;
    if m > 0 {
      assert x / y > 0.0;
    }
  }

  /** Some tag word is kept by the matcher exactly when some tag word matches, and a word
      is dropped unless all of them match. */
  lemma SomeWordMatching(tagWords: seq<string>, questionWords: seq<string>)
    ensures |Filter(tagWords, Matcher(questionWords))| > 0 <==> SomeWordMatches(tagWords, questionWords)
    ensures |tagWords| > 0 && !AllWordsMatch(tagWords, questionWords) ==>
      |Filter(tagWords, Matcher(questionWords))| < |tagWords|
  {
    if |tagWords| > 0 && !AllWordsMatch(tagWords, questionWords) {
      var i :| 0 <= i < |tagWords| && !MatchesSome(tagWords[i], questionWords);
      FilterDropsFailing(tagWords, Matcher(questionWords), i);
    }
    var matching := Filter(tagWords, Matcher(questionWords));
    if |matching| > 0 {
      assert matching[0] in tagWords && MatchesSome(matching[0], questionWords);
    }
    FilterKeepsAll(tagWords, Matcher(questionWords));
  }

  /** Sum of the tag contributions (`matchScore` after the loop). */
  function TotalScore(nq: string, questionWords: seq<string>, tags: seq<string>): (t: real)
    ensures 0.0 <= t <= ExactWeight * |tags| as real
  {
    if |tags| == 0 then 0.0
    else TotalScore(nq, questionWords, tags[..|tags| - 1]) + TagScore(nq, questionWords, tags[|tags| - 1])
  }

  /** `calculateRelevance`: the tag contributions averaged over the number of tags, so a
      relevance always lies in [0, 10], and an entry without tags scores 0. */
  function Relevance(question: string, tags: seq<string>): (r: real)
    ensures 0.0 <= r <= ExactWeight
    ensures |tags| == 0 ==> r == 0.0
  {
    RelevanceFor(Normalize(question), tags)
  }

  /** The relevance computed from the normalized question `nq`. */
  function RelevanceFor(nq: string, tags: seq<string>): (r: real)
    ensures 0.0 <= r <= ExactWeight
    ensures |tags| == 0 ==> r == 0.0
  {
    Average(TotalScore(nq, QuestionWords(nq), tags), |tags|)
  }

  /** `matchScore / tags.length` for a non-empty tag list, 0 for an empty one: a sum of
      `count` contributions of at most 10 each averages to at most 10. */
  function Average(total: real, count: nat): (r: real)
    requires 0.0 <= total <= ExactWeight * count as real
    ensures 0.0 <= r <= ExactWeight
    ensures count == 0 ==> r == 0.0
  {
    if count == 0 then 0.0
    else
      var n := count as real;
      assert total / n * n == total;
      total / n
  }

  /** The loop adds each tag's contribution once: one more tag adds its score. */
  lemma TotalScoreAppend(nq: string, questionWords: seq<string>, tags: seq<string>, tag: string)
    ensures TotalScore(nq, questionWords, tags + [tag])
      == TotalScore(nq, questionWords, tags) + TagScore(nq, questionWords, tag)
  {
    assert (tags + [tag])[..|tags|] == tags;
  }

  /** Sum of a list of reals, from the front. */
  function Sum(xs: seq<real>): real
  {
    if |xs| == 0 then 0.0 else xs[0] + Sum(xs[1..])
  }

  /** Arithmetic mean, 0 for the empty list. */
  function Mean(xs: seq<real>): real
  {
    if |xs| == 0 then 0.0 else Sum(xs) / |xs| as real
  }

  lemma {:induction false} SumSnoc(xs: seq<real>, x: real)
    ensures Sum(xs + [x]) == Sum(xs) + x
    decreases |xs|
  {
    if |xs| == 0 {
      assert xs + [x] == [x];
    } else {
      assert (xs + [x])[1..] == xs[1..] + [x];
      SumSnoc(xs[1..], x);
    }
  }

  /** The score of each tag, in tag order. */
  function TagScores(nq: string, questionWords: seq<string>, tags: seq<string>): (scores: seq<real>)
    ensures |scores| == |tags|
    ensures forall i :: 0 <= i < |tags| ==> scores[i] == TagScore(nq, questionWords, tags[i])
  {
    Map(tags, Scorer(nq, questionWords))
  }

  function Scorer(nq: string, questionWords: seq<string>): string -> real
  {
    tag => TagScore(nq, questionWords, tag)
  }

  /** `matchScore` after the loop is the sum of the tag scores. */
  lemma {:induction false} TotalIsSum(nq: string, questionWords: seq<string>, tags: seq<string>)
    ensures TotalScore(nq, questionWords, tags) == Sum(TagScores(nq, questionWords, tags))
    decreases |tags|
  {
    if |tags| > 0 {
      var init := tags[..|tags| - 1];
      var last := tags[|tags| - 1];
      TotalIsSum(nq, questionWords, init);
      MapSnoc(tags, Scorer(nq, questionWords));
      SumSnoc(TagScores(nq, questionWords, init), TagScore(nq, questionWords, last));
    }
  }

  /** `calculateRelevance` is the mean of the per-tag scores (10, 5 or the partial fraction
      times 3) over the tags, in whatever way each tag scored. */
  lemma RelevanceIsMean(question: string, tags: seq<string>)
    ensures var nq := Normalize(question);
      Relevance(question, tags) == Mean(TagScores(nq, QuestionWords(nq), tags))
  {
    var nq := Normalize(question);
    var qw := QuestionWords(nq);
    assert Relevance(question, tags) == Average(TotalScore(nq, qw, tags), |tags|);
    TotalIsSum(nq, qw, tags);
  }

  /** With a single tag, the relevance is that tag's score. */
  lemma RelevanceSingleTag(question: string, tag: string)
    ensures var nq := Normalize(question);
      Relevance(question, [tag]) == TagScore(nq, QuestionWords(nq), tag)
  {
    var nq := Normalize(question);
    var qw := QuestionWords(nq);
    RelevanceIsMean(question, [tag]);
    MapSingle(tag, Scorer(nq, qw));
    MeanSingle(TagScore(nq, qw, tag));
  }

  lemma MeanSingle(x: real)
    ensures Mean([x]) == x
  {
    assert [x][1..] == [];
    assert Sum([x]) == x + Sum([]) == x;
    assert |[x]| as real == 1.0;
  }

  function Score(question: string, entry: KnowledgeEntry): real
  {
    Relevance(question, entry.tags)
  }

  /** An empty tag normalizes to the empty string, which `includes` always finds: it
      contributes the full 10 whatever the question. */
  lemma EmptyTagIsExact(nq: string, questionWords: seq<string>)
    ensures TagScore(nq, questionWords, "") == ExactWeight
  {
    assert Normalize("") == "";
    IncludesEmpty(nq);
  }

  predicate IsExactFor(nq: string, tag: string)
  {
    Includes(nq, Normalize(tag))
  }

  function ExactFor(nq: string): string -> bool
  {
    tag => IsExactFor(nq, tag)
  }

  /** No word of the normalized question is longer than two UTF-16 code units. */
  ghost predicate OnlyShortWords(question: string)
  {
    var words := Split(Normalize(question), ' ');
    forall i :: 0 <= i < |words| ==> Utf16Length(words[i]) <= 2
  }

  /** A question without words longer than two characters has no question words. */
  lemma ShortQuestionNoWords(question: string)
    requires OnlyShortWords(question)
    ensures QuestionWords(Normalize(question)) == []
  {
    FilterNone(Split(Normalize(question), ' '), LongWord);
  }

  /** Without question words, a tag scores 10 if it is an exact phrase of the question and
      0 otherwise: no tag word can match. */
  lemma NoWordsTagScore(nq: string, tag: string)
    ensures TagScore(nq, [], tag) == if IsExactFor(nq, tag) then ExactWeight else 0.0
  {
    FilterNone(Split(Normalize(tag), ' '), Matcher([]));
  }

  /** ... and so only exact-phrase tags count: the total is 10 per exact tag. */
  lemma {:induction false} NoWordsTotal(nq: string, tags: seq<string>)
    ensures TotalScore(nq, [], tags) == ExactWeight * |Filter(tags, ExactFor(nq))| as real
    decreases |tags|
  {
    if |tags| > 0 {
      var init := tags[..|tags| - 1];
      var last := tags[|tags| - 1];
      Snoc(tags);
      FilterSnoc(init, last, ExactFor(nq));
      NoWordsTotal(nq, init);
      NoWordsTagScore(nq, last);
    }
  }

  /** When the question has no word longer than two characters, only tags that are exact
      phrases of it count, 10 each: the relevance is 10 times the fraction of exact tags. */
  lemma ShortQuestionRelevance(question: string, tags: seq<string>)
    requires OnlyShortWords(question)
    requires |tags| > 0
    ensures Relevance(question, tags)
      == ExactWeight * |Filter(tags, ExactFor(Normalize(question)))| as real / |tags| as real
  {
    ShortQuestionNoWords(question);
    NoWordsQuestionRelevance(question, tags);
  }

  lemma NoWordsQuestionRelevance(question: string, tags: seq<string>)
    requires QuestionWords(Normalize(question)) == []
    requires |tags| > 0
    ensures Relevance(question, tags)
      == ExactWeight * |Filter(tags, ExactFor(Normalize(question)))| as real / |tags| as real
  {
    NoWordsRelevance(Normalize(question), tags);
  }

  lemma NoWordsRelevance(nq: string, tags: seq<string>)
    requires QuestionWords(nq) == []
    requires |tags| > 0
    ensures RelevanceFor(nq, tags) == ExactWeight * |Filter(tags, ExactFor(nq))| as real / |tags| as real
  {
    NoWordsTotal(nq, tags);
  }

  /** An entry every one of whose tags is an exact phrase of the question scores exactly 10. */
  lemma AllExactScoresTen(question: string, tags: seq<string>)
    requires |tags| > 0
    requires forall i :: 0 <= i < |tags| ==> IsExactFor(Normalize(question), tags[i])
    ensures Relevance(question, tags) == ExactWeight
  {
    AllExactRelevance(Normalize(question), tags);
  }

  lemma AllExactRelevance(nq: string, tags: seq<string>)
    requires |tags| > 0
    requires forall i :: 0 <= i < |tags| ==> IsExactFor(nq, tags[i])
    ensures RelevanceFor(nq, tags) == ExactWeight
  {
    AllExactTotal(nq, QuestionWords(nq), tags);
    FullAverage(TotalScore(nq, QuestionWords(nq), tags), |tags|);
  }

  /** Averaging the top score over every tag gives the top score back. */
  lemma FullAverage(total: real, count: nat)
    requires count > 0 && total == ExactWeight * count as real
    ensures Average(total, count) == ExactWeight
  {
    var n := count as real;
    assert ExactWeight * n / n == ExactWeight;
  }

  lemma {:induction false} AllExactTotal(nq: string, questionWords: seq<string>, tags: seq<string>)
    requires forall i :: 0 <= i < |tags| ==> IsExactFor(nq, tags[i])
    ensures TotalScore(nq, questionWords, tags) == ExactWeight * |tags| as real
    decreases |tags|
  {
    if |tags| > 0 {
      AllExactTotal(nq, questionWords, tags[..|tags| - 1]);
    }
  }

  // ---------------------------------------------------------------------------
  // Scored entries: `knowledgeBase.map(entry => ({ entry, score: calculateRelevance(...) }))`.
  // Selection and ranking below are stated over any scored list, so that their proofs do
  // not depend on how a score is computed; the catalog-level operations instantiate them.
  // ---------------------------------------------------------------------------

  datatype Scored = Scored(entry: KnowledgeEntry, score: real)

  function ScoreEntries(kb: seq<KnowledgeEntry>, question: string): (s: seq<Scored>)
    ensures |s| == |kb|
    ensures forall i :: 0 <= i < |kb| ==> s[i].entry == kb[i] && s[i].score == Score(question, kb[i])
  {
    seq(|kb|, i requires 0 <= i < |kb| => Scored(kb[i], Score(question, kb[i])))
  }

  // ---------------------------------------------------------------------------
  // findBestAnswer
  // ---------------------------------------------------------------------------

  /** `s[k]` clears the threshold, nothing scores higher, and everything before it scores
      strictly lower: the element the strict `>` comparison keeps. */
  ghost predicate IsBest(s: seq<Scored>, threshold: real, k: int)
  {
    && 0 <= k < |s|
    && s[k].score > threshold
    && (forall j :: 0 <= j < |s| ==> s[j].score <= s[k].score)
    && (forall j :: 0 <= j < k ==> s[j].score < s[k].score)
  }

  /** The loop of `findBestAnswer` over scored entries: `bestMatch` is replaced only by a
      relevance above the threshold that is strictly above the best so far. */
  method BestOf(s: seq<Scored>, threshold: real) returns (best: Option<KnowledgeEntry>)
    ensures best.None? <==> forall j :: 0 <= j < |s| ==> s[j].score <= threshold
    ensures best.Some? ==> exists k :: IsBest(s, threshold, k) && s[k].entry == best.value
  {
    best := None;
    var bestIndex := -1;
    var bestScore := 0.0;
    var i := 0;
    while i < |s|
      invariant 0 <= i <= |s|
      invariant best.None? <==> bestIndex == -1
      invariant bestIndex == -1 ==> forall j :: 0 <= j < i ==> s[j].score <= threshold
      invariant bestIndex != -1 ==>
        && 0 <= bestIndex < i
        && best == Some(s[bestIndex].entry)
        && bestScore == s[bestIndex].score
        && bestScore > threshold
        && (forall j :: 0 <= j < i ==> s[j].score <= bestScore)
        && (forall j :: 0 <= j < bestIndex ==> s[j].score < bestScore)
    {
      var relevance := s[i].score;
      if relevance > threshold {
        if bestIndex == -1 || relevance > bestScore {
          best := Some(s[i].entry);
          bestIndex := i;
          bestScore := relevance;
        }
      }
      i := i + 1;
    }
    if bestIndex != -1 {
      assert IsBest(s, threshold, bestIndex);
    }
  }

  /** `kb[k]` is the best catalog entry for the question: `IsBest` on the scored catalog. */
  ghost predicate IsBestIndex(kb: seq<KnowledgeEntry>, question: string, threshold: real, k: int)
  {
    && 0 <= k < |kb|
    && Score(question, kb[k]) > threshold
    && (forall j :: 0 <= j < |kb| ==> Score(question, kb[j]) <= Score(question, kb[k]))
    && (forall j :: 0 <= j < k ==> Score(question, kb[j]) < Score(question, kb[k]))
  }

  /** `findBestAnswer`: `null` exactly when no entry scores above the threshold (including
      the empty catalog); otherwise an entry of maximal score, the earliest one on ties. */
  method FindBestAnswer(kb: seq<KnowledgeEntry>, question: string, threshold: real)
    returns (best: Option<KnowledgeEntry>)
    ensures best.None? <==> forall j :: 0 <= j < |kb| ==> Score(question, kb[j]) <= threshold
    ensures best.Some? ==> exists k :: IsBestIndex(kb, question, threshold, k) && kb[k] == best.value
  {
    if |kb| == 0 {
      return None;
    }
    var s := ScoreEntries(kb, question);
    best := BestOf(s, threshold);
    if best.Some? {
      ghost var k :| IsBest(s, threshold, k) && s[k].entry == best.value;
      assert IsBestIndex(kb, question, threshold, k);
    }
  }

  /** `findBestAnswer(question)`: the default threshold 0.3. */
  method FindBestAnswerByDefault(kb: seq<KnowledgeEntry>, question: string)
    returns (best: Option<KnowledgeEntry>)
    ensures best.None? <==> forall j :: 0 <= j < |kb| ==> Score(question, kb[j]) <= 0.3
    ensures best.Some? ==> exists k :: IsBestIndex(kb, question, 0.3, k) && kb[k] == best.value
  {
    best := FindBestAnswer(kb, question, BestAnswerThreshold);
  }

  // ---------------------------------------------------------------------------
  // findRelevantAnswers: filter, stable sort by descending score, slice
  // ---------------------------------------------------------------------------

  function Above(t: real): Scored -> bool
  {
    (x: Scored) => x.score > t
  }

  function AtMost(t: real): Scored -> bool
  {
    (x: Scored) => x.score <= t
  }

  function HasScore(v: real): Scored -> bool
  {
    (x: Scored) => x.score == v
  }

  ghost predicate NonIncreasing(s: seq<Scored>)
  {
    forall i, j :: 0 <= i < j < |s| ==> s[i].score >= s[j].score
  }

  /** Insert `x` after every element scoring at least as much as it. */
  function Insert(s: seq<Scored>, x: Scored): (r: seq<Scored>)
    ensures |r| == |s| + 1
    ensures multiset(r) == multiset(s) + multiset{x}
  {
    if |s| == 0 then [x]
    else if s[0].score >= x.score then
      assert s == [s[0]] + s[1..];
      [s[0]] + Insert(s[1..], x)
    else [x] + s
  }

  /** Inserting into a sorted list keeps it sorted; the head is `x` or the old head. */
  lemma {:induction false} InsertSorted(s: seq<Scored>, x: Scored)
    requires NonIncreasing(s)
    ensures NonIncreasing(Insert(s, x))
    ensures Insert(s, x)[0] == x || (|s| > 0 && Insert(s, x)[0] == s[0])
    decreases |s|
  {
    if |s| == 0 {
      assert Insert(s, x) == [x];
    } else if s[0].score >= x.score {
      var rest := Insert(s[1..], x);
      InsertSorted(s[1..], x);
      ConsSorted(s[0], rest);
      assert Insert(s, x) == [s[0]] + rest;
    } else {
      ConsSorted(x, s);
    }
  }

  /** Putting an element that scores at least as much as the head in front keeps a list sorted. */
  lemma ConsSorted(h: Scored, s: seq<Scored>)
    requires NonIncreasing(s)
    requires |s| > 0 ==> h.score >= s[0].score
    ensures NonIncreasing([h] + s)
  {
  }

  /** `Array.prototype.sort` with comparator `b.score - a.score` (a stable sort): scores
      descending, a permutation of the input. */
  function SortByScore(s: seq<Scored>): (r: seq<Scored>)
    ensures |r| == |s|
    ensures multiset(r) == multiset(s)
    ensures NonIncreasing(r)
  {
    if |s| == 0 then []
    else
      var init := s[..|s| - 1];
      assert s == init + [s[|s| - 1]];
      InsertSorted(SortByScore(init), s[|s| - 1]);
      Insert(SortByScore(init), s[|s| - 1])
  }

  /** Every element of the sorted list comes from the input. */
  lemma SortMember(s: seq<Scored>, i: int)
    requires 0 <= i < |s|
    ensures SortByScore(s)[i] in s
  {
    var r := SortByScore(s);
    assert r[i] in multiset(r);
  }

  lemma SortSnoc(s: seq<Scored>, x: Scored)
    ensures SortByScore(s + [x]) == Insert(SortByScore(s), x)
  {
    assert (s + [x])[..|s|] == s;
  }

  lemma {:induction false} InsertHasScore(s: seq<Scored>, x: Scored, v: real)
    requires NonIncreasing(s)
    ensures Filter(Insert(s, x), HasScore(v)) == Filter(s, HasScore(v)) + (if x.score == v then [x] else [])
    decreases |s|
  {
    var p := HasScore(v);
    if |s| == 0 {
      FilterSingleton(x, p);
    } else if s[0].score >= x.score {
      InsertHasScore(s[1..], x, v);
      InsertAfterHead(s, x, v);
    } else {
      InsertFrontHasScore(s, x, v);
    }
  }

  /** `x` goes behind the head when the head scores at least as much: the head's
      contribution to the filter stays in front. */
  lemma InsertAfterHead(s: seq<Scored>, x: Scored, v: real)
    requires |s| > 0 && s[0].score >= x.score
    requires Filter(Insert(s[1..], x), HasScore(v)) == Filter(s[1..], HasScore(v)) + (if x.score == v then [x] else [])
    ensures Filter(Insert(s, x), HasScore(v)) == Filter(s, HasScore(v)) + (if x.score == v then [x] else [])
  {
    assert Insert(s, x) == [s[0]] + Insert(s[1..], x);
    assert s == [s[0]] + s[1..];
    FilterConsShift(s[0], Insert(s[1..], x), s[1..], if x.score == v then [x] else [], HasScore(v));
  }

  /** `x` goes in front when it outscores the head of the (sorted) list. */
  lemma InsertFrontHasScore(s: seq<Scored>, x: Scored, v: real)
    requires NonIncreasing(s)
    requires |s| > 0 && s[0].score < x.score
    ensures Filter([x] + s, HasScore(v)) == Filter(s, HasScore(v)) + (if x.score == v then [x] else [])
  {
    var p := HasScore(v);
    FilterCons(x, s, p);
    if x.score == v {
      NoneAtTop(s, x.score);
      assert Filter([x] + s, p) == [x] + Filter(s, p);
    } else {
      assert Filter([x] + s, p) == [] + Filter(s, p);
    }
  }

  /** Nothing in a sorted list whose head scores below `v` scores exactly `v`. */
  lemma NoneAtTop(s: seq<Scored>, v: real)
    requires NonIncreasing(s)
    requires |s| > 0 && s[0].score < v
    ensures Filter(s, HasScore(v)) == []
  {
    assert forall i :: 0 <= i < |s| ==> s[i].score <= s[0].score;
    FilterNone(s, HasScore(v));
  }

  /** Stability: among entries of equal score the sort keeps their original order. */
  lemma {:induction false} SortStable(s: seq<Scored>, v: real)
    ensures Filter(SortByScore(s), HasScore(v)) == Filter(s, HasScore(v))
    decreases |s|
  {
    if |s| > 0 {
      var init := s[..|s| - 1];
      var x := s[|s| - 1];
      assert s == init + [x];
      SortStable(init, v);
      SortSnoc(init, x);
      InsertHasScore(SortByScore(init), x, v);
      FilterSnoc(init, x, HasScore(v));
    }
  }

  lemma {:induction false} InsertBeforeLower(a: seq<Scored>, b: seq<Scored>, x: Scored)
    requires forall i :: 0 <= i < |b| ==> b[i].score < x.score
    ensures Insert(a + b, x) == Insert(a, x) + b
    decreases |a|
  {
    if |a| == 0 {
      assert a + b == b;
    } else {
      assert (a + b)[1..] == a[1..] + b;
      InsertBeforeLower(a[1..], b, x);
    }
  }

  lemma {:induction false} InsertAfterHigher(a: seq<Scored>, b: seq<Scored>, x: Scored)
    requires forall i :: 0 <= i < |a| ==> a[i].score >= x.score
    ensures Insert(a + b, x) == a + Insert(b, x)
    decreases |a|
  {
    if |a| == 0 {
      assert a + b == b;
    } else {
      assert (a + b)[1..] == a[1..] + b;
      InsertAfterHigher(a[1..], b, x);
    }
  }

  /** The sorted list is the sorted part above `t` followed by the sorted part at or below `t`. */
  lemma {:induction false} SortSplit(s: seq<Scored>, t: real)
    ensures SortByScore(s) == SortByScore(Filter(s, Above(t))) + SortByScore(Filter(s, AtMost(t)))
    decreases |s|
  {
    if |s| > 0 {
      var init := s[..|s| - 1];
      var x := s[|s| - 1];
      assert s == init + [x];
      SortSplit(init, t);
      SortSnoc(init, x);
      var hi := Filter(init, Above(t));
      var lo := Filter(init, AtMost(t));
      var a := SortByScore(hi);
      var b := SortByScore(lo);
      FilterSnoc(init, x, Above(t));
      FilterSnoc(init, x, AtMost(t));
      if x.score > t {
        forall i | 0 <= i < |b|
          ensures b[i].score < x.score
        {
          SortMember(lo, i);
        }
        InsertBeforeLower(a, b, x);
        SortSnoc(hi, x);
        assert Above(t)(x) && !AtMost(t)(x);
        assert Filter(s, Above(t)) == hi + [x];
        assert Filter(s, AtMost(t)) == lo;
        calc {
          SortByScore(s);
          Insert(a + b, x);
          Insert(a, x) + b;
          SortByScore(hi + [x]) + b;
          SortByScore(Filter(s, Above(t))) + SortByScore(Filter(s, AtMost(t)));
        }
      } else {
        forall i | 0 <= i < |a|
          ensures a[i].score >= x.score
        {
          SortMember(hi, i);
        }
        InsertAfterHigher(a, b, x);
        SortSnoc(lo, x);
        assert !Above(t)(x) && AtMost(t)(x);
        assert Filter(s, Above(t)) == hi;
        assert Filter(s, AtMost(t)) == lo + [x];
        calc {
          SortByScore(s);
          Insert(a + b, x);
          a + Insert(b, x);
          a + SortByScore(lo + [x]);
          SortByScore(Filter(s, Above(t))) + SortByScore(Filter(s, AtMost(t)));
        }
      }
    }
  }

  /** The ranked matches of a scored list: filtered by `score > threshold`, sorted, sliced
      to `topN` (JavaScript `slice` semantics, so a negative `topN` drops entries from the
      end). With a positive `topN` the result is empty exactly when nothing clears the
      threshold. */
  function Rank(s: seq<Scored>, topN: int, threshold: real): (r: seq<Scored>)
    ensures topN >= 0 ==> |r| <= topN
    ensures topN >= 0 ==> |r| == Min(topN, |Filter(s, Above(threshold))|)
    ensures forall i :: 0 <= i < |r| ==> r[i].score > threshold && r[i] in s
    ensures NonIncreasing(r)
    ensures topN > 0 ==> (|r| == 0 <==> forall j :: 0 <= j < |s| ==> s[j].score <= threshold)
  {
    var sorted := SortByScore(Filter(s, Above(threshold)));
    SortedPassing(s, threshold);
    NonePassing(s, threshold);
    SlicePrefixOf(sorted, topN);
    SliceTo(sorted, topN)
  }

  /** The cut-off of the ranked list: an element above the threshold that did not make it
      scores no higher than the last one that did. */
  lemma RankLeavesLower(s: seq<Scored>, topN: int, threshold: real, j: int)
    requires 0 <= j < |s| && s[j].score > threshold
    requires s[j] !in Rank(s, topN, threshold) && |Rank(s, topN, threshold)| > 0
    ensures s[j].score <= Rank(s, topN, threshold)[|Rank(s, topN, threshold)| - 1].score
  {
    var passing := Filter(s, Above(threshold));
    var sorted := SortByScore(passing);
    FilterKeeps(s, Above(threshold), j);
    InSorted(passing, s[j]);
    PrefixLeavesLower(sorted, Rank(s, topN, threshold), s[j]);
  }

  lemma InSorted(s: seq<Scored>, x: Scored)
    requires x in s
    ensures x in SortByScore(s)
  {
    assert x in multiset(s);
    assert x in multiset(SortByScore(s));
  }

  lemma PrefixLeavesLower(sorted: seq<Scored>, r: seq<Scored>, x: Scored)
    requires NonIncreasing(sorted) && r <= sorted
    requires x in sorted && x !in r && |r| > 0
    ensures x.score <= r[|r| - 1].score
  {
    var k :| 0 <= k < |sorted| && sorted[k] == x;
    assert forall i :: 0 <= i < |r| ==> sorted[i] in r;
    assert k >= |r|;
    assert sorted[|r| - 1] == r[|r| - 1];
  }

  /** A slice's elements sit at the same positions in the sliced list. */
  lemma SlicePrefixOf(s: seq<Scored>, end: int)
    ensures forall i :: 0 <= i < |SliceTo(s, end)| ==> SliceTo(s, end)[i] == s[i]
    ensures NonIncreasing(s) ==> NonIncreasing(SliceTo(s, end))
  {
  }

  /** The sorted passing elements score above the threshold and come from the input. */
  lemma SortedPassing(s: seq<Scored>, threshold: real)
    ensures forall i :: 0 <= i < |s| && i < |SortByScore(Filter(s, Above(threshold)))| ==>
      SortByScore(Filter(s, Above(threshold)))[i].score > threshold
      && SortByScore(Filter(s, Above(threshold)))[i] in s
  {
    var passing := Filter(s, Above(threshold));
    var sorted := SortByScore(passing);
    forall i | 0 <= i < |sorted|
      ensures sorted[i].score > threshold && sorted[i] in s
    {
      SortMember(passing, i);
    }
  }

  /** Nothing passes the threshold filter exactly when nothing scores above the threshold. */
  lemma NonePassing(s: seq<Scored>, threshold: real)
    ensures |Filter(s, Above(threshold))| == 0 <==> forall j :: 0 <= j < |s| ==> s[j].score <= threshold
  {
    var passing := Filter(s, Above(threshold));
    if |passing| > 0 {
      assert Above(threshold)(passing[0]);
      var j :| 0 <= j < |s| && s[j] == passing[0];
    } else {
      forall j | 0 <= j < |s|
        ensures s[j].score <= threshold
      {
        if s[j].score > threshold {
          FilterKeeps(s, Above(threshold), j);
        }
      }
    }
  }

  function Entries(s: seq<Scored>): (es: seq<KnowledgeEntry>)
    ensures |es| == |s|
    ensures forall i :: 0 <= i < |s| ==> es[i] == s[i].entry
  {
    seq(|s|, i requires 0 <= i < |s| => s[i].entry)
  }

  /** `findRelevantAnswers(question, topN, threshold)`: at most `topN` catalog entries, each
      scoring above the threshold, by descending score; with a positive `topN`, empty exactly
      when no entry scores above the threshold. */
  function FindRelevantAnswers(kb: seq<KnowledgeEntry>, question: string, topN: int, threshold: real): (es: seq<KnowledgeEntry>)
    ensures topN >= 0 ==> |es| <= topN
    ensures topN >= 0 ==> |es| == Min(topN, |Filter(kb, Passes(question, threshold))|)
    ensures forall i :: 0 <= i < |es| ==> es[i] in kb && Score(question, es[i]) > threshold
    ensures forall i, j :: 0 <= i < j < |es| ==> Score(question, es[i]) >= Score(question, es[j])
    ensures topN > 0 ==> (|es| == 0 <==> forall j :: 0 <= j < |kb| ==> Score(question, kb[j]) <= threshold)
  {
    if |kb| == 0 then []
    else
      var s := ScoreEntries(kb, question);
      var r := Rank(s, topN, threshold);
      RankedEntries(kb, question, topN, threshold, r);
      RankedEmpty(kb, question, topN, threshold, r);
      PassingCount(kb, question, topN, threshold);
      Entries(r)
  }

  /** The entries of the ranked list come from the catalog, score above the threshold and
      are ordered by score. */
  lemma RankedEntries(kb: seq<KnowledgeEntry>, question: string, topN: int, threshold: real, r: seq<Scored>)
    requires r == Rank(ScoreEntries(kb, question), topN, threshold)
    ensures forall i :: 0 <= i < |Entries(r)| ==> Entries(r)[i] in kb && Score(question, Entries(r)[i]) > threshold
    ensures forall i, j :: 0 <= i < j < |Entries(r)| ==> Score(question, Entries(r)[i]) >= Score(question, Entries(r)[j])
  {
    ScoredFromCatalog(kb, question, r);
  }

  /** With a positive `topN` the ranked list is empty exactly when no entry clears the
      threshold. */
  lemma RankedEmpty(kb: seq<KnowledgeEntry>, question: string, topN: int, threshold: real, r: seq<Scored>)
    requires r == Rank(ScoreEntries(kb, question), topN, threshold)
    ensures topN > 0 ==> (|Entries(r)| == 0 <==> forall j :: 0 <= j < |kb| ==> Score(question, kb[j]) <= threshold)
  {
    var s := ScoreEntries(kb, question);
    assert forall j :: 0 <= j < |kb| ==> s[j].score == Score(question, kb[j]);
  }

  /** `score > threshold` on a catalog entry. */
  function Passes(question: string, threshold: real): KnowledgeEntry -> bool
  {
    e => Score(question, e) > threshold
  }

  /** The ranked list is as long as `topN` allows and as many catalog entries pass. */
  lemma PassingCount(kb: seq<KnowledgeEntry>, question: string, topN: int, threshold: real)
    ensures topN >= 0 ==> |Rank(ScoreEntries(kb, question), topN, threshold)| == Min(topN, |Filter(kb, Passes(question, threshold))|)
  {
    var s := ScoreEntries(kb, question);
    FilterLengthAlike(s, kb, Above(threshold), Passes(question, threshold));
  }

  /** `findRelevantAnswers(question)`: the defaults `topN = 3` and `threshold = 0.2`. */
  function FindRelevantAnswersByDefault(kb: seq<KnowledgeEntry>, question: string): (es: seq<KnowledgeEntry>)
    ensures |es| == Min(3, |Filter(kb, Passes(question, 0.2))|)
    ensures forall i :: 0 <= i < |es| ==> es[i] in kb && Score(question, es[i]) > 0.2
    ensures |es| == 0 <==> forall j :: 0 <= j < |kb| ==> Score(question, kb[j]) <= 0.2
  {
    FindRelevantAnswers(kb, question, RelevantTopN, RelevantThreshold)
  }

  /** The cut-off of the relevant answers: an entry above the threshold that was not
      returned scores no higher than the last answer returned. */
  lemma RelevantLeavesLower(kb: seq<KnowledgeEntry>, question: string, topN: int, threshold: real, j: int)
    requires 0 <= j < |kb| && Score(question, kb[j]) > threshold
    requires kb[j] !in FindRelevantAnswers(kb, question, topN, threshold)
    requires |FindRelevantAnswers(kb, question, topN, threshold)| > 0
    ensures var es := FindRelevantAnswers(kb, question, topN, threshold);
      Score(question, kb[j]) <= Score(question, es[|es| - 1])
  {
    var s := ScoreEntries(kb, question);
    var r := Rank(s, topN, threshold);
    assert FindRelevantAnswers(kb, question, topN, threshold) == Entries(r);
    RankedEntryLeavesLower(s, topN, threshold, j);
    LastRankedScore(kb, question, r);
  }

  lemma RankedEntryLeavesLower(s: seq<Scored>, topN: int, threshold: real, j: int)
    requires 0 <= j < |s| && s[j].score > threshold
    requires s[j].entry !in Entries(Rank(s, topN, threshold)) && |Rank(s, topN, threshold)| > 0
    ensures s[j].score <= Rank(s, topN, threshold)[|Rank(s, topN, threshold)| - 1].score
  {
    NotRanked(Rank(s, topN, threshold), s[j]);
    RankLeavesLower(s, topN, threshold, j);
  }

  /** An element whose entry is not among the entries of a list is not in the list. */
  lemma NotRanked(r: seq<Scored>, x: Scored)
    requires x.entry !in Entries(r)
    ensures x !in r
  {
    forall m | 0 <= m < |r|
      ensures r[m] != x
    {
      assert Entries(r)[m] in Entries(r);
    }
  }

  lemma LastRankedScore(kb: seq<KnowledgeEntry>, question: string, r: seq<Scored>)
    requires |r| > 0
    requires forall i :: 0 <= i < |r| ==> r[i] in ScoreEntries(kb, question)
    ensures r[|r| - 1].score == Score(question, Entries(r)[|r| - 1])
  {
    ScoredFromCatalog(kb, question, r);
  }



  /** An element of the scored catalog carries a catalog entry and that entry's score. */
  lemma ScoredFromCatalog(kb: seq<KnowledgeEntry>, question: string, r: seq<Scored>)
    requires forall i :: 0 <= i < |r| ==> r[i] in ScoreEntries(kb, question)
    ensures forall i :: 0 <= i < |r| ==> r[i].entry in kb && r[i].score == Score(question, r[i].entry)
  {
    var s := ScoreEntries(kb, question);
    forall i | 0 <= i < |r|
      ensures r[i].entry in kb && r[i].score == Score(question, r[i].entry)
    {
      assert r[i] in s;
      var j :| 0 <= j < |s| && s[j] == r[i];
    }
  }

  /** Raising the threshold can only cut the ranked list short: the list for the higher
      threshold is a prefix of the list for the lower one. */
  lemma RankMonotone(s: seq<Scored>, topN: int, t1: real, t2: real)
    requires t1 <= t2
    ensures Rank(s, topN, t2) <= Rank(s, topN, t1)
  {
    var p1 := Filter(s, Above(t1));
    FilterFilter(s, Above(t1), Above(t2), Above(t2));
    SortSplit(p1, t2);
    SliceToPrefix(SortByScore(Filter(s, Above(t2))), SortByScore(p1), topN);
  }

  lemma FindRelevantMonotone(kb: seq<KnowledgeEntry>, question: string, topN: int, t1: real, t2: real)
    requires t1 <= t2
    ensures FindRelevantAnswers(kb, question, topN, t2) <= FindRelevantAnswers(kb, question, topN, t1)
  {
    if |kb| > 0 {
      var s := ScoreEntries(kb, question);
      RankMonotone(s, topN, t1, t2);
      EntriesPrefix(Rank(s, topN, t2), Rank(s, topN, t1));
    }
  }

  /** Taking entries keeps a prefix a prefix. */
  lemma EntriesPrefix(a: seq<Scored>, b: seq<Scored>)
    requires a <= b
    ensures Entries(a) <= Entries(b)
  {
    assert Entries(a) == Entries(b)[..|a|];
  }

  /** Among elements of equal score above the threshold, the ranked list holds the first
      ones in their original order: ties keep catalog order. */
  lemma RankKeepsOrder(s: seq<Scored>, topN: int, threshold: real, v: real)
    requires v > threshold
    ensures Filter(Rank(s, topN, threshold), HasScore(v)) <= Filter(s, HasScore(v))
  {
    var passing := Filter(s, Above(threshold));
    var sorted := SortByScore(passing);
    FilterPrefix(SliceTo(sorted, topN), sorted, HasScore(v));
    SortStable(passing, v);
    FilterFilter(s, Above(threshold), HasScore(v), HasScore(v));
  }

  /** The element `BestOf` picks heads the ranked list for the same threshold. */
  lemma BestHeadsRank(s: seq<Scored>, topN: int, threshold: real, k: int)
    requires topN >= 1
    requires IsBest(s, threshold, k)
    ensures |Rank(s, topN, threshold)| >= 1 && Rank(s, topN, threshold)[0] == s[k]
  {
    var passing := Filter(s, Above(threshold));
    var sorted := SortByScore(passing);
    var m := s[k].score;
    FilterKeeps(s, Above(threshold), k);
    assert |passing| > 0;
    SortMember(passing, 0);
    assert sorted[0].score >= m by {
      var i0 :| 0 <= i0 < |passing| && passing[i0] == s[k];
      assert s[k] in multiset(passing);
      assert s[k] in multiset(sorted);
      var j0 :| 0 <= j0 < |sorted| && sorted[j0] == s[k];
    }
    assert sorted[0].score == m;
    FilterFirst(sorted, HasScore(m), 0);
    SortStable(passing, m);
    FilterFilter(s, Above(threshold), HasScore(m), HasScore(m));
    FilterFirst(s, HasScore(m), k);
  }

  /** The entry `findBestAnswer` returns heads `findRelevantAnswers` for the same threshold. */
  lemma BestHeadsRanking(kb: seq<KnowledgeEntry>, question: string, topN: int, threshold: real, k: int)
    requires topN >= 1
    requires IsBestIndex(kb, question, threshold, k)
    ensures |FindRelevantAnswers(kb, question, topN, threshold)| >= 1
    ensures FindRelevantAnswers(kb, question, topN, threshold)[0] == kb[k]
  {
    var s := ScoreEntries(kb, question);
    assert IsBest(s, threshold, k);
    BestHeadsRank(s, topN, threshold, k);
  }

  // ---------------------------------------------------------------------------
  // getContextForAI
  // ---------------------------------------------------------------------------

  const ContextHeading: string := "\n\nКонтекст из базы знаний F.O.C.U.S:\n"

  /** The heading of the n-th section, "Релевантная информация n:" and a line break. */
  function SectionHeading(n: nat): string
  {
    "Релевантная информация " + NatToString(n) + ":\n"
  }

  function Sections(entries: seq<KnowledgeEntry>): (parts: seq<string>)
    ensures |parts| == |entries|
    ensures forall i :: 0 <= i < |entries| ==> parts[i] == SectionHeading(i + 1) + entries[i].answer
  {
    seq(|entries|, i requires 0 <= i < |entries| => SectionHeading(i + 1) + entries[i].answer)
  }

  /** The context block for a non-empty list of matches. */
  function ContextBlock(matches: seq<KnowledgeEntry>): string
  {
    ContextHeading + Join(Sections(matches), "\n\n") + "\n"
  }

  /** `getContextForAI`: empty when nothing scores above 0.15; otherwise the heading and one
      numbered section per match (at most three), joined by blank lines. */
  function ContextForAI(kb: seq<KnowledgeEntry>, question: string): (r: string)
    ensures r == "" <==> forall j :: 0 <= j < |kb| ==> Score(question, kb[j]) <= ContextThreshold
  {
    var matches := FindRelevantAnswers(kb, question, ContextTopN, ContextThreshold);
    if |matches| == 0 then "" else ContextBlock(matches)
  }

  /** The block starts with the heading and holds, for every match i, the section
      "Релевантная информация i+1:" followed by that entry's answer. */
  lemma BlockSections(matches: seq<KnowledgeEntry>)
    ensures var r := ContextBlock(matches);
      && |r| >= |ContextHeading| && r[..|ContextHeading|] == ContextHeading
      && forall i :: 0 <= i < |matches| ==> Includes(r, SectionHeading(i + 1) + matches[i].answer)
  {
    var parts := Sections(matches);
    var body := Join(parts, "\n\n");
    var r := ContextBlock(matches);
    assert r == ContextHeading + (body + "\n");
    forall i | 0 <= i < |matches|
      ensures Includes(r, SectionHeading(i + 1) + matches[i].answer)
    {
      JoinIncludesPart(parts, "\n\n", i);
      IncludesInMiddle(ContextHeading, body, "\n", parts[i]);
    }
  }

  /** A non-empty context starts with the heading and holds, for every match i (1 to at
      most 3, in ranking order), the section "Релевантная информация i:" followed by that
      entry's answer. */
  lemma ContextSections(kb: seq<KnowledgeEntry>, question: string)
    ensures var r := ContextForAI(kb, question);
      var matches := FindRelevantAnswers(kb, question, ContextTopN, ContextThreshold);
      r != "" ==>
        && 1 <= |matches| <= 3
        && r[..|ContextHeading|] == ContextHeading
        && forall i :: 0 <= i < |matches| ==> Includes(r, SectionHeading(i + 1) + matches[i].answer)
  {
    var matches := FindRelevantAnswers(kb, question, ContextTopN, ContextThreshold);
    if |matches| > 0 {
      BlockSections(matches);
    }
  }
}

=== FILE: Optional.dfy ===
/** The `T | null` / `T | undefined` results of the modelled TypeScript code. */
module Optional {

  /** `None` stands for JavaScript's `null` or `undefined`; `Some(v)` for a present value. */
  datatype Option<+T> = None | Some(value: T)
}

=== FILE: Quiz.dfy ===
/** The answer state of `components/QuizSection.tsx` with the rendering, the theme and
    `localStorage` stripped away: selecting an option, submitting, resetting, moving
    between questions, counting the score and mapping an imported answer file back onto
    the quiz. */
module Quiz {
  import opened Optional
  import opened Seqs

  // ---------------------------------------------------------------------------
  // Questions and state
  // ---------------------------------------------------------------------------

  /** A `QuizQuestion`. */
  datatype Question = Question(
    question: string,
    options: seq<string>,
    correctAnswer: int,
    explanation: Option<string>)

  /** One entry of `selectedAnswers`: `null`, an option index, or `undefined` (the gap left
      when an answer is written beyond the end of a shorter, imported array; `every` and
      `reduce` treat a gap exactly like an `undefined` entry). */
  datatype Slot = Unanswered | Chosen(index: int) | Missing

  /** The component's state: the question on screen, the answers, whether the quiz was
      submitted, whether explanations are shown. */
  datatype QuizState = QuizState(
    current: int,
    answers: seq<Slot>,
    submitted: bool,
    showExplanation: bool)

  /** `n` unanswered slots: `new Array(n).fill(null)`. */
  function Blank(n: nat): (s: seq<Slot>)
    ensures |s| == n
    ensures forall i :: 0 <= i < n ==> s[i] == Unanswered
  {
    seq(n, _ => Unanswered)
  }

  /** The state a quiz of `n` questions starts in. */
  function Initial(n: nat): (st: QuizState)
    ensures st.current == 0 && !st.submitted && !st.showExplanation
    ensures |st.answers| == n && forall i :: 0 <= i < n ==> st.answers[i] == Unanswered
  {
    QuizState(0, Blank(n), false, false)
  }

  /** The on-screen index is a valid question index (0 for a quiz without questions). */
  predicate Valid(st: QuizState, n: nat)
  {
    0 <= st.current && (st.current < n || st.current == 0)
  }

  // ---------------------------------------------------------------------------
  // Transitions
  // ---------------------------------------------------------------------------

  /** `newAnswers[k] = v` on a copy: writing past the end lengthens the array, and the
      positions skipped are left `undefined`. */
  function Assign(s: seq<Slot>, k: nat, v: Slot): (r: seq<Slot>)
    ensures |r| == Max(|s|, k + 1)
    ensures r[k] == v
    ensures forall i :: 0 <= i < |s| && i != k ==> r[i] == s[i]
    ensures forall i :: |s| <= i < k ==> r[i] == Missing
  {
    if k < |s| then s[k := v] else s + seq(k - |s|, _ => Missing) + [v]
  }

  /** `handleAnswerSelect(answerIndex)`: ignored after submission, otherwise the slot of
      the current question is set. */
  function SelectAnswer(st: QuizState, answerIndex: int): (r: QuizState)
    requires 0 <= st.current
    ensures st.submitted ==> r == st
    ensures !st.submitted ==> r == st.(answers := r.answers)
    ensures !st.submitted ==> |r.answers| == Max(|st.answers|, st.current + 1)
    ensures !st.submitted ==> r.answers[st.current] == Chosen(answerIndex)
    ensures forall i :: 0 <= i < |st.answers| && i != st.current ==> r.answers[i] == st.answers[i]
  {
    if st.submitted then st
    else st.(answers := Assign(st.answers, st.current, Chosen(answerIndex)))
  }

  /** `reduce((acc, answer, idx) => acc + (answer === questions[idx].correctAnswer ? 1 : 0), 0)`
      when every answer has a question. */
  function Correct(answers: seq<Slot>, questions: seq<Question>): (count: nat)
    requires |answers| <= |questions|
    ensures count <= |answers|
    decreases |answers|
  {
    if |answers| == 0 then 0
    else
      var k := |answers| - 1;
      Correct(answers[..k], questions) + (if answers[k] == Chosen(questions[k].correctAnswer) then 1 else 0)
  }

  /** The indices whose answer is the question's correct option. */
  ghost function CorrectIndices(answers: seq<Slot>, questions: seq<Question>): set<nat>
    requires |answers| <= |questions|
  {
    set i: nat | i < |answers| && answers[i] == Chosen(questions[i].correctAnswer)
  }

  /** `calculateScore`: the count of correctly answered questions, or `None` when there
      are more answers than questions (`quiz.questions[idx]` is `undefined` there and the
      reduction throws). */
  function Score(answers: seq<Slot>, questions: seq<Question>): (r: Option<nat>)
    ensures r.None? <==> |answers| > |questions|
    ensures r.Some? ==> r.value == |CorrectIndices(answers, questions)|
    ensures r.Some? ==> r.value <= |answers| && r.value <= |questions|
  {
    if |answers| > |questions| then None
    else
      CorrectCountsIndices(answers, questions);
      Some(Correct(answers, questions))
  }

  lemma CorrectIndicesStep(answers: seq<Slot>, questions: seq<Question>)
    requires 0 < |answers| <= |questions|
    ensures var k := |answers| - 1;
      CorrectIndices(answers, questions)
        == CorrectIndices(answers[..k], questions)
          + (if answers[k] == Chosen(questions[k].correctAnswer) then {k} else {})
  {
  }

  /** The score is the number of indices whose answer equals that question's correct
      option. */
  lemma {:induction false} CorrectCountsIndices(answers: seq<Slot>, questions: seq<Question>)
    requires |answers| <= |questions|
    ensures Correct(answers, questions) == |CorrectIndices(answers, questions)|
    decreases |answers|
  {
    if |answers| > 0 {
      var k := |answers| - 1;
      CorrectCountsIndices(answers[..k], questions);
      CorrectIndicesStep(answers, questions);
      assert k !in CorrectIndices(answers[..k], questions);
    }
  }

  /** An unanswered or `undefined` slot never scores, and a fully correct sheet scores
      one per question. */
  lemma ScoreExtremes(answers: seq<Slot>, questions: seq<Question>)
    requires |answers| <= |questions|
    ensures forall i :: 0 <= i < |answers| && !answers[i].Chosen? ==> i !in CorrectIndices(answers, questions)
    ensures (forall i :: 0 <= i < |answers| ==> answers[i] == Chosen(questions[i].correctAnswer))
      ==> Score(answers, questions) == Some(|answers|)
  {
    if forall i :: 0 <= i < |answers| ==> answers[i] == Chosen(questions[i].correctAnswer) {
      AllCorrectCounted(answers, questions);
    }
  }

  lemma {:induction false} AllCorrectCounted(answers: seq<Slot>, questions: seq<Question>)
    requires |answers| <= |questions|
    requires forall i :: 0 <= i < |answers| ==> answers[i] == Chosen(questions[i].correctAnswer)
    ensures Correct(answers, questions) == |answers|
    decreases |answers|
  {
    if |answers| > 0 {
      AllCorrectCounted(answers[..|answers| - 1], questions);
    }
  }

  /** What `handleSubmit` produces: the next state and the score handed to `onComplete`. */
  datatype Submission = Submission(state: QuizState, score: Option<nat>)

  /** `handleSubmit`: marks the quiz submitted, shows explanations and scores the answers
      as they stand. */
  function Submit(st: QuizState, questions: seq<Question>): (r: Submission)
    ensures r.state.submitted && r.state.showExplanation
    ensures r.state.answers == st.answers && r.state.current == st.current
    ensures r.score.None? <==> |st.answers| > |questions|
    ensures r.score.Some? ==> r.score.value == |CorrectIndices(st.answers, questions)|
    ensures r.score.Some? ==> r.score.value <= |st.answers|
  {
    Submission(QuizState(st.current, st.answers, true, true), Score(st.answers, questions))
  }

  /** `handleReset`: every answer cleared (one slot per question), not submitted,
      explanations hidden, back at the first question. */
  function Reset(questions: seq<Question>): (st: QuizState)
    ensures st.current == 0 && !st.submitted && !st.showExplanation
    ensures |st.answers| == |questions|
    ensures forall i :: 0 <= i < |st.answers| ==> st.answers[i] == Unanswered
  {
    Initial(|questions|)
  }

  /** The "back" button: `Math.max(0, currentQuestionIndex - 1)`. */
  function Prev(st: QuizState): (r: QuizState)
    ensures r == st.(current := r.current)
    ensures r.current >= 0
    ensures st.current > 0 ==> r.current == st.current - 1
    ensures st.current <= 0 ==> r.current == 0
  {
    st.(current := Max(0, st.current - 1))
  }

  /** The "next" button: `Math.min(n - 1, currentQuestionIndex + 1)`. */
  function Next(st: QuizState, n: nat): (r: QuizState)
    ensures r == st.(current := r.current)
    ensures r.current <= n - 1
    ensures st.current < n - 1 ==> r.current == st.current + 1
    ensures st.current >= n - 1 ==> r.current == n - 1
  {
    st.(current := Min(n - 1, st.current + 1))
  }

  /** `selectedAnswers.every(a => a !== null)`. */
  predicate AllAnswered(answers: seq<Slot>)
  {
    forall i :: 0 <= i < |answers| ==> answers[i] != Unanswered
  }

  /** The submit button is enabled before submission once every slot is filled (it is
      shown only at the last question; that position condition is presentation). */
  predicate CanSubmit(st: QuizState)
  {
    !st.submitted && AllAnswered(st.answers)
  }

  /** Selecting an option before submission makes the submit button enabled exactly
      when every other slot is already filled: the current slot is the only one a
      selection can fill. */
  lemma SelectingCompletes(st: QuizState, answerIndex: int)
    requires !st.submitted && 0 <= st.current
    ensures CanSubmit(SelectAnswer(st, answerIndex))
      <==> forall i :: 0 <= i < |st.answers| && i != st.current ==> st.answers[i] != Unanswered
  {
    var r := SelectAnswer(st, answerIndex).answers;
    if forall i :: 0 <= i < |st.answers| && i != st.current ==> st.answers[i] != Unanswered {
      forall i | 0 <= i < |r|
        ensures r[i] != Unanswered
      {
        if i != st.current && i >= |st.answers| {
          assert r[i] == Missing;
        }
      }
    }
  }

  /** A fresh or reset sheet cannot be submitted unless the quiz has no questions. */
  lemma BlankCannotSubmit(questions: seq<Question>)
    ensures CanSubmit(Reset(questions)) <==> |questions| == 0
  {
    if |questions| > 0 {
      assert Reset(questions).answers[0] == Unanswered;
    }
  }

  /** Every transition keeps the on-screen index valid; "next" is only offered while the
      index is below the last question. */
  lemma TransitionsKeepValid(st: QuizState, questions: seq<Question>, answerIndex: int)
    requires Valid(st, |questions|)
    ensures Valid(SelectAnswer(st, answerIndex), |questions|)
    ensures Valid(Submit(st, questions).state, |questions|)
    ensures Valid(Reset(questions), |questions|)
    ensures Valid(Prev(st), |questions|)
    ensures st.current < |questions| - 1 ==> Valid(Next(st, |questions|), |questions|)
  {
  }

  /** Once submitted, nothing the user selects changes the answers, and submitting again
      scores the same sheet. */
  lemma SubmittedIsLocked(st: QuizState, questions: seq<Question>, answerIndex: int)
    requires st.submitted && 0 <= st.current
    ensures SelectAnswer(st, answerIndex).answers == st.answers
    ensures Submit(SelectAnswer(st, answerIndex), questions).score == Submit(st, questions).score
  {
  }

  // ---------------------------------------------------------------------------
  // Import
  // ---------------------------------------------------------------------------

  /** One entry of an imported file's `answers`: `question` and `selectedOption` may be
      absent; `null` entries make the whole import fail. */
  datatype ImportEntry = Entry(question: Option<string>, selectedOption: Option<string>) | NullEntry

  /** `quiz.questions.find(q => q.question === text)`. */
  function FindQuestion(questions: seq<Question>, text: string): (r: Option<nat>)
    ensures r.Some? ==> r.value < |questions| && questions[r.value].question == text
    ensures r.Some? ==> forall j :: 0 <= j < r.value ==> questions[j].question != text
    ensures r.None? <==> forall j :: 0 <= j < |questions| ==> questions[j].question != text
  {
    if |questions| == 0 then None
    else if questions[0].question == text then Some(0)
    else match FindQuestion(questions[1..], text)
      case Some(j) => Some(j + 1)
      case None => None
  }

  /** `options.indexOf(option)`. */
  function OptionIndex(options: seq<string>, option: string): (r: Option<nat>)
    ensures r.Some? ==> r.value < |options| && options[r.value] == option
    ensures r.Some? ==> forall j :: 0 <= j < r.value ==> options[j] != option
    ensures r.None? <==> option !in options
  {
    if option in options then Some(FirstIndex(options, option)) else None
  }

  /** The slot one imported entry becomes. */
  function ImportSlot(questions: seq<Question>, entry: ImportEntry): Slot
    requires entry.Entry?
  {
    if entry.question.None? || entry.selectedOption.None? then Unanswered
    else match FindQuestion(questions, entry.question.value)
      case None => Unanswered
      case Some(q) =>
        match OptionIndex(questions[q].options, entry.selectedOption.value)
        case None => Unanswered
        case Some(o) => Chosen(o)
  }

  /** The answer mapping of `handleImportAnswers` on a parsed file: `None` for a file
      without an `answers` array (nothing is changed), otherwise the new answers, or the
      old ones when a `null` entry makes the mapping throw. */
  function ImportAnswers(answers: seq<Slot>, entries: Option<seq<ImportEntry>>, questions: seq<Question>)
    : (r: seq<Slot>)
    ensures entries.None? ==> r == answers
    ensures entries.Some? && (exists i :: 0 <= i < |entries.value| && entries.value[i] == NullEntry) ==> r == answers
    ensures entries.Some? && (forall i :: 0 <= i < |entries.value| ==> entries.value[i].Entry?) ==>
      && |r| == |entries.value|
      && forall i :: 0 <= i < |r| ==> r[i] == ImportSlot(questions, entries.value[i])
  {
    match entries
    case None => answers
    case Some(es) =>
      if exists i :: 0 <= i < |es| && es[i] == NullEntry then answers
      else seq(|es|, i requires 0 <= i < |es| => ImportSlot(questions, es[i]))
  }

  /** An imported entry becomes option `o` exactly when its question text names a quiz
      question, the first such question lists its selected option, and `o` is the first
      position of that option there; otherwise it becomes `null`. */
  lemma ImportSlotMeaning(questions: seq<Question>, entry: ImportEntry, o: int)
    requires entry.Entry?
    ensures ImportSlot(questions, entry) == Chosen(o) <==>
      && entry.question.Some? && entry.selectedOption.Some?
      && (exists q :: 0 <= q < |questions| && questions[q].question == entry.question.value)
      && var q := FindQuestion(questions, entry.question.value).value;
         && 0 <= o < |questions[q].options|
         && questions[q].options[o] == entry.selectedOption.value
         && forall j :: 0 <= j < o ==> questions[q].options[j] != entry.selectedOption.value
    ensures ImportSlot(questions, entry).Chosen? || ImportSlot(questions, entry) == Unanswered
  {
  }

  /** Importing keeps the on-screen index valid and fills no slot with `undefined`. */
  lemma ImportKeepsValid(st: QuizState, entries: Option<seq<ImportEntry>>, questions: seq<Question>)
    requires Valid(st, |questions|)
    requires forall i :: 0 <= i < |st.answers| ==> st.answers[i] != Missing
    ensures var r := ImportAnswers(st.answers, entries, questions);
      Valid(st.(answers := r), |questions|) && forall i :: 0 <= i < |r| ==> r[i] != Missing
  {
    var r := ImportAnswers(st.answers, entries, questions);
    if entries.Some? && forall i :: 0 <= i < |entries.value| ==> entries.value[i].Entry? {
      forall i | 0 <= i < |r|
        ensures r[i] != Missing
      {
        ImportSlotMeaning(questions, entries.value[i], 0);
      }
    }
  }
}

=== FILE: Resources.dfy ===
/** The resource selector of `lib/resourcesHelper.ts`: a profession is resolved to catalog
    directions, the direction's resources are narrowed by a difficulty policy, a
    type-diversified selection is padded to five, and the selection is cut into numbered
    topics. The catalog is a parameter; a catalog that fails to load is the empty one. */
module Resources {
  import opened Optional
  import opened Seqs
  import opened Text

  // ---------------------------------------------------------------------------
  // Directions and the profession table
  // ---------------------------------------------------------------------------

  /** The learning directions the catalog is organised by. */
  datatype Direction =
    | Python | Frontend | DataAnalyst | QA | Design | Prompt | DevOps
    | Mobile | GameDev | Architect | Fullstack | Blockchain | MachineLearning | IOS

  /** The direction as it is spelled in a catalog record's `direction` field. */
  function DirectionName(d: Direction): string
  {
    match d
    case Python => "Python-разработчик"
    case Frontend => "Frontend-разработчик"
    case DataAnalyst => "Data Analyst"
    case QA => "QA-инженер"
    case Design => "UI/UX Designer"
    case Prompt => "Prompt Engineer"
    case DevOps => "DevOps Engineer"
    case Mobile => "Mobile Developer (Kotlin)"
    case GameDev => "Game Developer (Unity/C#)"
    case Architect => "System Architect"
    case Fullstack => "Fullstack-разработчик"
    case Blockchain => "Blockchain Developer"
    case MachineLearning => "Machine Learning Engineer"
    case IOS => "iOS Developer (Swift)"
  }

  /** A table value: one direction, or two for titles that span both. */
  datatype Target = One(d: Direction) | Two(d1: Direction, d2: Direction)

  /** The array literal a table value stands for. */
  function TargetList(t: Target): (ds: seq<Direction>)
    ensures |ds| >= 1
  {
    match t
    case One(d) => [d]
    case Two(d1, d2) => [d1, d2]
  }

  /** `PROFESSION_MAPPING`: profession titles as a language model phrases them, mapped to
      catalog directions. */
  const ProfessionMapping: map<string, Target> := map[
    "Python-разработчик" := One(Python),
    "Backend-разработчик" := One(Python),
    "Django разработчик" := One(Python),
    "Flask разработчик" := One(Python),
    "Frontend-разработчик" := One(Frontend),
    "React-разработчик" := One(Frontend),
    "Vue-разработчик" := One(Frontend),
    "JavaScript-разработчик" := One(Frontend),
    "Web-разработчик" := Two(Frontend, Fullstack),
    "Data Analyst" := One(DataAnalyst),
    "Аналитик данных" := One(DataAnalyst),
    "Дата-аналитик" := One(DataAnalyst),
    "Бизнес-аналитик" := One(DataAnalyst),
    "QA-инженер" := One(QA),
    "Тестировщик" := One(QA),
    "QA Engineer" := One(QA),
    "Инженер по тестированию" := One(QA),
    "UI/UX Designer" := One(Design),
    "UI/UX дизайнер" := One(Design),
    "Дизайнер интерфейсов" := One(Design),
    "Продуктовый дизайнер" := One(Design),
    "Prompt Engineer" := One(Prompt),
    "Prompt-инженер" := One(Prompt),
    "AI-специалист" := Two(Prompt, MachineLearning),
    "DevOps Engineer" := One(DevOps),
    "DevOps-инженер" := One(DevOps),
    "Системный администратор" := One(DevOps),
    "Mobile Developer (Kotlin)" := One(Mobile),
    "Android-разработчик" := One(Mobile),
    "Kotlin-разработчик" := One(Mobile),
    "Game Developer (Unity/C#)" := One(GameDev),
    "Разработчик игр" := One(GameDev),
    "Unity-разработчик" := One(GameDev),
    "System Architect" := One(Architect),
    "Системный архитектор" := One(Architect),
    "Архитектор ПО" := One(Architect),
    "Software Architect" := One(Architect),
    "Fullstack-разработчик" := One(Fullstack),
    "Full-stack Developer" := One(Fullstack),
    "Full Stack разработчик" := One(Fullstack),
    "Blockchain Developer" := One(Blockchain),
    "Blockchain-разработчик" := One(Blockchain),
    "Web3-разработчик" := One(Blockchain),
    "Machine Learning Engineer" := One(MachineLearning),
    "ML-инженер" := One(MachineLearning),
    "Инженер машинного обучения" := One(MachineLearning),
    "Data Scientist" := Two(MachineLearning, DataAnalyst),
    "iOS Developer (Swift)" := One(IOS),
    "iOS-разработчик" := One(IOS),
    "Swift-разработчик" := One(IOS)
  ]

  // ---------------------------------------------------------------------------
  // Keyword fallback
  // ---------------------------------------------------------------------------

  /** A keyword test of the fallback chain: if the lower-cased profession contains any of
      the keywords, the profession resolves to the direction. */
  datatype KeywordRule = KeywordRule(keywords: seq<string>, direction: Direction)

  /** The fallback chain of `getDirectionsForProfession`, in source order. */
  const KeywordRules: seq<KeywordRule> := [
    KeywordRule(["python", "backend"], Python),
    KeywordRule(["frontend", "react", "javascript"], Frontend),
    KeywordRule(["дата", "data", "аналит"], DataAnalyst),
    KeywordRule(["qa", "тест"], QA),
    KeywordRule(["дизайн", "design", "ui", "ux"], Design),
    KeywordRule(["prompt", "ai"], Prompt),
    KeywordRule(["devops"], DevOps),
    KeywordRule(["android", "kotlin"], Mobile),
    KeywordRule(["игр", "game", "unity"], GameDev),
    KeywordRule(["архитект"], Architect),
    KeywordRule(["fullstack", "full stack"], Fullstack),
    KeywordRule(["blockchain", "web3"], Blockchain),
    KeywordRule(["machine learning", "ml", "машинн"], MachineLearning),
    KeywordRule(["ios", "swift"], IOS)
  ]

  /** `s.includes(k1) || s.includes(k2) || ...`. */
  predicate Mentions(s: string, keywords: seq<string>)
  {
    exists k :: 0 <= k < |keywords| && Includes(s, keywords[k])
  }

  /** The direction of the first rule whose keywords `lower` mentions. */
  function FirstMatch(lower: string, rules: seq<KeywordRule>): (r: Option<Direction>)
    ensures r.None? <==> forall i :: 0 <= i < |rules| ==> !Mentions(lower, rules[i].keywords)
  {
    if |rules| == 0 then None
    else if Mentions(lower, rules[0].keywords) then Some(rules[0].direction)
    else
      assert forall i :: 1 <= i < |rules| ==> rules[i] == rules[1..][i - 1];
      FirstMatch(lower, rules[1..])
  }

  /** The first mentioned rule decides, whatever later rules would say. */
  lemma {:induction false} FirstMatchIs(lower: string, rules: seq<KeywordRule>, k: int)
    requires 0 <= k < |rules| && Mentions(lower, rules[k].keywords)
    requires forall j :: 0 <= j < k ==> !Mentions(lower, rules[j].keywords)
    ensures FirstMatch(lower, rules) == Some(rules[k].direction)
    decreases k
  {
    if k > 0 {
      assert !Mentions(lower, rules[0].keywords);
      assert rules[k] == rules[1..][k - 1];
      forall j | 0 <= j < k - 1
        ensures !Mentions(lower, rules[1..][j].keywords)
      {
        assert rules[1..][j] == rules[j + 1];
      }
      FirstMatchIs(lower, rules[1..], k - 1);
    }
  }

  /** The keyword chain applied to a lower-cased profession; `Frontend` when nothing matches. */
  function KeywordDirections(lower: string): (r: seq<Direction>)
    ensures |r| == 1
  {
    match FirstMatch(lower, KeywordRules)
    case Some(d) => [d]
    case None => [Frontend]
  }

  /** `getDirectionsForProfession`: the table entry for a title that is one of the table's
      own keys (compared case-sensitively), otherwise the keyword chain on the lower-cased
      title. Never empty. */
  function DirectionsFor(profession: string): (r: seq<Direction>)
    ensures |r| >= 1
    ensures profession in ProfessionMapping ==> r == TargetList(ProfessionMapping[profession])
    ensures profession !in ProfessionMapping ==> |r| == 1
  {
    if profession in ProfessionMapping then TargetList(ProfessionMapping[profession])
    else KeywordDirections(Lower(profession))
  }

  /** Without a table hit, the first rule in source order that the lower-cased title
      mentions decides. */
  lemma FirstKeywordWins(profession: string, k: int)
    requires profession !in ProfessionMapping
    requires 0 <= k < |KeywordRules| && Mentions(Lower(profession), KeywordRules[k].keywords)
    requires forall j :: 0 <= j < k ==> !Mentions(Lower(profession), KeywordRules[j].keywords)
    ensures DirectionsFor(profession) == [KeywordRules[k].direction]
  {
    FirstMatchIs(Lower(profession), KeywordRules, k);
  }

  /** A title that mentions no keyword at all falls back to `Frontend`. */
  lemma NoKeywordIsFrontend(profession: string)
    requires profession !in ProfessionMapping
    requires forall j :: 0 <= j < |KeywordRules| ==> !Mentions(Lower(profession), KeywordRules[j].keywords)
    ensures DirectionsFor(profession) == [Frontend]
  {
  }

  /** "python" is the first keyword checked: a title mentioning both Python and React is a Python title. */
  lemma PythonOutranksReact(profession: string)
    requires profession !in ProfessionMapping
    requires Includes(Lower(profession), "python")
    ensures DirectionsFor(profession) == [Python]
  {
    assert KeywordRules[0].keywords[0] == "python";
    assert Mentions(Lower(profession), KeywordRules[0].keywords);
    FirstKeywordWins(profession, 0);
  }

  // ---------------------------------------------------------------------------
  // Catalog records
  // ---------------------------------------------------------------------------

  /** `duration_minutes: number | string`. */
  datatype Duration = Minutes(minutes: real) | TextDuration(text: string)

  /** A `LearningResource` of the catalog. Content type and difficulty are the catalog's
      strings ('video' | 'article' | 'book' | 'course', 'beginner' | 'intermediate' |
      'advanced'), compared as strings by the code. */
  datatype Resource = Resource(
    id: int,
    direction: string,
    title: string,
    url: string,
    contentType: string,
    difficulty: string,
    duration: Duration,
    tags: seq<string>,
    description: string)

  /** A catalog record and its position. The code compares records by object identity
      (`selectedResources.includes(r)`); every record of the parsed catalog is a distinct
      object, so identity is equality of positions. */
  datatype Ref = Ref(at: nat, res: Resource)

  function Indexed(catalog: seq<Resource>): (refs: seq<Ref>)
    ensures |refs| == |catalog|
    ensures forall i :: 0 <= i < |catalog| ==> refs[i] == Ref(i, catalog[i])
    ensures NoDup(refs)
  {
    seq(|catalog|, i requires 0 <= i < |catalog| => Ref(i, catalog[i]))
  }

  // ---------------------------------------------------------------------------
  // Direction filter and difficulty policy
  // ---------------------------------------------------------------------------

  function Names(ds: seq<Direction>): (names: seq<string>)
    ensures |names| == |ds|
    ensures forall i :: 0 <= i < |ds| ==> names[i] == DirectionName(ds[i])
  {
    seq(|ds|, i requires 0 <= i < |ds| => DirectionName(ds[i]))
  }

  function InDirections(ds: seq<Direction>): Ref -> bool
  {
    (r: Ref) => r.res.direction in Names(ds)
  }

  /** `allResources.filter(resource => directions.includes(resource.direction))`. */
  function Matching(catalog: seq<Resource>, ds: seq<Direction>): (matched: seq<Ref>)
    ensures NoDup(matched)
    ensures forall i :: 0 <= i < |matched| ==>
      matched[i] in Indexed(catalog) && matched[i].res.direction in Names(ds)
  {
    FilterNoDup(Indexed(catalog), InDirections(ds));
    Filter(Indexed(catalog), InDirections(ds))
  }

  /** Every catalog record of one of the directions is matched. */
  lemma MatchingComplete(catalog: seq<Resource>, ds: seq<Direction>, i: int)
    requires 0 <= i < |catalog| && catalog[i].direction in Names(ds)
    ensures Ref(i, catalog[i]) in Matching(catalog, ds)
  {
    FilterKeeps(Indexed(catalog), InDirections(ds), i);
  }

  /** The difficulty levels admitted for a knowledge level. */
  function DifficultyLevels(knowledgeLevel: string): seq<string>
  {
    if knowledgeLevel == "начинающий" || knowledgeLevel == "базовый" then ["beginner", "intermediate"]
    else if knowledgeLevel == "средний" then ["beginner", "intermediate", "advanced"]
    else if knowledgeLevel == "продвинутый" then ["intermediate", "advanced"]
    else ["beginner"]
  }

  /** The policy level by level: beginner material for everyone but the advanced, advanced
      material only from the middle level up, intermediate material for the four named
      levels, and beginner material alone for any other level. */
  lemma DifficultyPolicy(knowledgeLevel: string)
    ensures "beginner" in DifficultyLevels(knowledgeLevel) <==> knowledgeLevel != "продвинутый"
    ensures "advanced" in DifficultyLevels(knowledgeLevel)
      <==> knowledgeLevel == "средний" || knowledgeLevel == "продвинутый"
    ensures "intermediate" in DifficultyLevels(knowledgeLevel)
      <==> knowledgeLevel in ["начинающий", "базовый", "средний", "продвинутый"]
    ensures |DifficultyLevels(knowledgeLevel)| >= 1
  {
  }

  function AtLevels(levels: seq<string>): Ref -> bool
  {
    (r: Ref) => r.res.difficulty in levels
  }

  /** `levelFiltered.length > 0 ? levelFiltered : filteredResources`. */
  function Pool(matched: seq<Ref>, levels: seq<string>): (pool: seq<Ref>)
    ensures |pool| == 0 <==> |matched| == 0
    ensures forall i :: 0 <= i < |pool| ==> pool[i] in matched
    ensures forall i :: 0 <= i < |matched| && matched[i].res.difficulty in levels ==> matched[i] in pool
  {
    var levelled := Filter(matched, AtLevels(levels));
    PoolKeepsAdmitted(matched, levels);
    if |levelled| > 0 then levelled else matched
  }

  lemma PoolKeepsAdmitted(matched: seq<Ref>, levels: seq<string>)
    ensures forall i :: 0 <= i < |matched| && matched[i].res.difficulty in levels ==>
      matched[i] in Filter(matched, AtLevels(levels))
  {
    forall i | 0 <= i < |matched| && matched[i].res.difficulty in levels
      ensures matched[i] in Filter(matched, AtLevels(levels))
    {
      FilterKeeps(matched, AtLevels(levels), i);
    }
  }

  /** The level filter is used whenever it keeps something, and then the pool is every
      admitted record, in order; only otherwise does the whole direction-matched list stand
      in for it. */
  lemma PoolPolicy(matched: seq<Ref>, levels: seq<string>)
    ensures (exists i :: 0 <= i < |matched| && matched[i].res.difficulty in levels) ==>
      forall i :: 0 <= i < |Pool(matched, levels)| ==> Pool(matched, levels)[i].res.difficulty in levels
    ensures (exists i :: 0 <= i < |matched| && matched[i].res.difficulty in levels) ==>
      Pool(matched, levels) == Filter(matched, AtLevels(levels))
    ensures (exists i :: 0 <= i < |matched| && matched[i].res.difficulty in levels) ==>
      forall i :: 0 <= i < |matched| && matched[i].res.difficulty in levels ==> matched[i] in Pool(matched, levels)
    ensures (forall i :: 0 <= i < |matched| ==> matched[i].res.difficulty !in levels) ==>
      Pool(matched, levels) == matched
    ensures NoDup(matched) ==> NoDup(Pool(matched, levels))
  {
    var levelled := Filter(matched, AtLevels(levels));
    if i :| 0 <= i < |matched| && matched[i].res.difficulty in levels {
      FilterKeeps(matched, AtLevels(levels), i);
      forall j | 0 <= j < |matched| && matched[j].res.difficulty in levels
        ensures matched[j] in Pool(matched, levels)
      {
        FilterKeeps(matched, AtLevels(levels), j);
      }
    }
    if forall i :: 0 <= i < |matched| ==> matched[i].res.difficulty !in levels {
      FilterNone(matched, AtLevels(levels));
    }
    if NoDup(matched) {
      FilterNoDup(matched, AtLevels(levels));
    }
  }

  // ---------------------------------------------------------------------------
  // Type-diversified selection
  // ---------------------------------------------------------------------------

  /** `Math.ceil(a / b)` for a positive `b`: the least `q` with `q * b >= a`. */
  function CeilDiv(a: nat, b: nat): (q: nat)
    requires b > 0
    ensures q * b >= a
    ensures q == 0 || (q - 1) * b < a
  {
    var q := (a + b - 1) / b;
    var r := (a + b - 1) % b;
    assert q * b + r == a + b - 1;
    assert q * b - b == (q - 1) * b;
    q
  }

  /** The four content types the selection distinguishes, and everything else. */
  datatype Kind = Video | Course | Article | Book | OtherKind

  /** Which kind a catalog `content_type` string is: `content_type === 'video'` and so on. */
  function KindOf(contentType: string): (k: Kind)
    ensures k == Video <==> contentType == "video"
    ensures k == Course <==> contentType == "course"
    ensures k == Article <==> contentType == "article"
    ensures k == Book <==> contentType == "book"
  {
    if contentType == "video" then Video
    else if contentType == "course" then Course
    else if contentType == "article" then Article
    else if contentType == "book" then Book
    else OtherKind
  }

  function IsType(k: Kind): Ref -> bool
  {
    (r: Ref) => KindOf(r.res.contentType) == k
  }

  /** `resourcesToUse.filter(r => r.content_type === t)` for the type of kind `k`. */
  function OfType(pool: seq<Ref>, k: Kind): (bucket: seq<Ref>)
    ensures forall i :: 0 <= i < |bucket| ==> bucket[i] in pool && KindOf(bucket[i].res.contentType) == k
  {
    Filter(pool, IsType(k))
  }

  /** The cap each content type gets in the typed selection: one book, `cap` of the rest. */
  function TypeCap(k: Kind, cap: nat): nat
  {
    if k == Book then 1 else cap
  }

  /** The typed buckets in selection order: videos, courses, articles, books. */
  function Buckets(pool: seq<Ref>, cap: nat): (parts: seq<seq<Ref>>)
    ensures |parts| == 4
    ensures forall i :: 0 <= i < 4 ==> parts[i] == Take(OfType(pool, KindAt(i)), TypeCap(KindAt(i), cap))
  {
    seq(4, i requires 0 <= i < 4 => Take(OfType(pool, KindAt(i)), TypeCap(KindAt(i), cap)))
  }

  /** The kind of the `i`-th bucket. */
  function KindAt(i: nat): Kind
  {
    if i == 0 then Video else if i == 1 then Course else if i == 2 then Article else Book
  }

  /** The bucket a kind goes into. */
  function SlotOf(k: Kind): (i: nat)
    requires k != OtherKind
    ensures i < 4 && KindAt(i) == k
  {
    match k
    case Video => 0
    case Course => 1
    case Article => 2
    case Book => 3
  }

  /** Up to `cap` videos, then up to `cap` courses, up to `cap` articles and one book: the
      bucket numbers never decrease along the selection, and nothing outside the four types
      is selected. */
  function TypedSelection(pool: seq<Ref>, cap: nat): (sel: seq<Ref>)
    ensures |sel| <= 3 * cap + 1
    ensures forall i, j :: 0 <= i < j < |sel| ==> BucketTag(sel[i]) <= BucketTag(sel[j])
    ensures forall i :: 0 <= i < |sel| ==> 0 <= BucketTag(sel[i]) < 4
  {
    var parts := Buckets(pool, cap);
    BucketTags(pool, cap);
    TaggedSorted(parts, BucketTag);
    parts[0] + parts[1] + parts[2] + parts[3]
  }

  /** Filtering a bucket of kind `u` by kind `k` keeps all of it or nothing. */
  lemma BucketOfType(pool: seq<Ref>, u: Kind, n: nat, k: Kind)
    ensures Filter(Take(OfType(pool, u), n), IsType(k)) == if u == k then Take(OfType(pool, u), n) else []
  {
    var b := Take(OfType(pool, u), n);
    if u == k {
      FilterAll(b, IsType(k));
    } else {
      FilterNone(b, IsType(k));
    }
  }

  /** Filtering the buckets by kind `k` keeps the bucket of `k` and nothing else. */
  lemma BucketsByType(pool: seq<Ref>, cap: nat, k: Kind)
    requires k != OtherKind
    ensures forall i :: 0 <= i < 4 ==>
      Filter(Buckets(pool, cap)[i], IsType(k)) == if i == SlotOf(k) then Buckets(pool, cap)[SlotOf(k)] else []
  {
    var parts := Buckets(pool, cap);
    forall i | 0 <= i < 4
      ensures Filter(parts[i], IsType(k)) == if i == SlotOf(k) then parts[SlotOf(k)] else []
    {
      BucketOfType(pool, KindAt(i), TypeCap(KindAt(i), cap), k);
    }
  }

  /** Each content type's share of the selection is the first `cap` resources of that type
      in pool order (the first one, for books). */
  lemma TypedSelectionBuckets(pool: seq<Ref>, cap: nat, k: Kind)
    requires k != OtherKind
    ensures Filter(TypedSelection(pool, cap), IsType(k)) == Take(OfType(pool, k), TypeCap(k, cap))
  {
    BucketsByType(pool, cap, k);
    FilterOneOfFour(Buckets(pool, cap), IsType(k), SlotOf(k));
  }

  /** Every record of the `b`-th bucket is of that bucket's kind. */
  lemma BucketKind(pool: seq<Ref>, cap: nat, b: nat)
    requires b < 4
    ensures forall i :: 0 <= i < |Buckets(pool, cap)[b]| ==>
      KindOf(Buckets(pool, cap)[b][i].res.contentType) == KindAt(b)
  {
    var bucket := OfType(pool, KindAt(b));
    assert Buckets(pool, cap)[b] <= bucket;
  }

  /** The bucket a record goes into, 4 for a type outside the four. */
  function BucketTag(r: Ref): int
  {
    match KindOf(r.res.contentType)
    case Video => 0
    case Course => 1
    case Article => 2
    case Book => 3
    case OtherKind => 4
  }

  lemma BucketTags(pool: seq<Ref>, cap: nat)
    ensures forall b, i :: 0 <= b < 4 && 0 <= i < |Buckets(pool, cap)[b]| ==> BucketTag(Buckets(pool, cap)[b][i]) == b
  {
    forall b | 0 <= b < 4
      ensures forall i :: 0 <= i < |Buckets(pool, cap)[b]| ==> BucketTag(Buckets(pool, cap)[b][i]) == b
    {
      BucketKind(pool, cap, b);
    }
  }

  /** A duplicate-free pool gives a duplicate-free typed selection. */
  lemma TypedSelectionNoDup(pool: seq<Ref>, cap: nat)
    requires NoDup(pool)
    ensures NoDup(TypedSelection(pool, cap))
  {
    var parts := Buckets(pool, cap);
    forall b | 0 <= b < 4
      ensures NoDup(parts[b])
    {
      BucketNoDup(pool, KindAt(b), TypeCap(KindAt(b), cap));
    }
    BucketTags(pool, cap);
    NoDupTagged(parts, BucketTag);
  }

  /** One bucket, duplicate-free and of a single type. */
  lemma BucketNoDup(pool: seq<Ref>, k: Kind, n: nat)
    requires NoDup(pool)
    ensures NoDup(Take(OfType(pool, k), n))
  {
    FilterNoDup(pool, IsType(k));
    NoDupPrefix(Take(OfType(pool, k), n), OfType(pool, k));
  }

  // ---------------------------------------------------------------------------
  // Padding
  // ---------------------------------------------------------------------------

  function NotIn(sel: seq<Ref>): Ref -> bool
  {
    (r: Ref) => r !in sel
  }

  function In(sel: seq<Ref>): Ref -> bool
  {
    (r: Ref) => r in sel
  }

  /** `if (selectedResources.length < 5)`: append pool resources not yet selected, in pool
      order, until there are five. */
  function Pad(pool: seq<Ref>, sel: seq<Ref>): (padded: seq<Ref>)
    ensures sel <= padded
    ensures |sel| >= 5 ==> padded == sel
    ensures |padded| <= Max(|sel|, 5)
    ensures forall i :: |sel| <= i < |padded| ==> padded[i] in pool && padded[i] !in sel
    ensures padded[|sel|..] <= Filter(pool, NotIn(sel))
  {
    if |sel| < 5 then sel + Take(Filter(pool, NotIn(sel)), 5 - |sel|) else sel
  }

  /** As many pool resources are left over as the pool has beyond the selection. */
  lemma LeftOverCount(pool: seq<Ref>, sel: seq<Ref>)
    requires NoDup(pool) && NoDup(sel)
    requires forall i :: 0 <= i < |sel| ==> sel[i] in pool
    ensures |Filter(pool, NotIn(sel))| == |pool| - |sel|
  {
    var chosen := Filter(pool, In(sel));
    FilterComplementLength(pool, In(sel), NotIn(sel));
    FilterNoDup(pool, In(sel));
    forall x | x in sel
      ensures x in chosen
    {
      var j :| 0 <= j < |pool| && pool[j] == x;
      FilterKeeps(pool, In(sel), j);
    }
    SameElementsSameLength(chosen, sel);
  }

  /** After padding, a selection of fewer than five holds `min(5, |pool|)` resources, and
      stays duplicate-free. */
  lemma PadFills(pool: seq<Ref>, sel: seq<Ref>)
    requires NoDup(pool) && NoDup(sel)
    requires forall i :: 0 <= i < |sel| ==> sel[i] in pool
    requires |sel| < 5
    ensures |Pad(pool, sel)| == Min(5, |pool|)
    ensures NoDup(Pad(pool, sel))
  {
    var rest := Filter(pool, NotIn(sel));
    LeftOverCount(pool, sel);
    FilterNoDup(pool, NotIn(sel));
    var extra := Take(rest, 5 - |sel|);
    NoDupPrefix(extra, rest);
    NoDupConcat(sel, extra);
  }

  // ---------------------------------------------------------------------------
  // Grouping into topics
  // ---------------------------------------------------------------------------

  /** One entry of the result: the topic's number and its items. The `topic` field the API
      returns is the label of that number. */
  datatype Topic<T> = Topic(number: nat, items: seq<T>)
  {
    function Label(): string
    {
      TopicLabel(number)
    }
  }

  /** The label of the n-th topic, "Тема n". */
  function TopicLabel(n: nat): string
  {
    "Тема " + NatToString(n)
  }

  /** Different numbers give different labels, and the number can be read back from the
      label's digits. */
  lemma TopicLabelsDistinct(n: nat, m: nat)
    ensures |TopicLabel(n)| > 5 && TopicLabel(n)[..5] == "Тема "
    ensures AllDigits(TopicLabel(n)[5..]) && DecimalValue(TopicLabel(n)[5..]) == n
    ensures TopicLabel(n) == TopicLabel(m) <==> n == m
  {
    var a, b := TopicLabel(n), TopicLabel(m);
    assert a[5..] == NatToString(n);
    assert b[5..] == NatToString(m);
    if a == b {
      assert NatToString(n) == NatToString(m);
    }
  }

  /** `s.slice(start, end)` for `0 <= start <= end`: both ends are clamped to the length. */
  function Slice<T>(s: seq<T>, start: nat, end: nat): (r: seq<T>)
    requires start <= end
    ensures r == s[Min(start, |s|)..Min(end, |s|)]
  {
    if start >= |s| then [] else s[start..Min(end, |s|)]
  }

  /** The loop `for (let i = 0; i < topicsCount; i++)` from iteration `n` on, with `left`
      iterations to go. The group of iteration `n` is `s.slice(start, start + per)`, where
      `start` is `n * per` carried along by addition; it is kept only when non-empty and
      labelled with `n + 1`. */
  function Partition<T>(s: seq<T>, per: nat, n: nat, start: nat, left: nat): (topics: seq<Topic<T>>)
    ensures |topics| <= left
    ensures forall k :: 0 <= k < |topics| ==> 0 < |topics[k].items| <= per
    decreases left
  {
    if left == 0 then []
    else
      var group := Slice(s, start, start + per);
      (if |group| > 0 then [Topic(n + 1, group)] else [])
        + Partition(s, per, n + 1, start + per, left - 1)
  }

  /** Where the loop's last group ends: `start + left * per`, by repeated addition. */
  function End(start: nat, per: nat, left: nat): nat
    decreases left
  {
    if left == 0 then start else End(start + per, per, left - 1)
  }

  lemma {:induction false} EndIsProduct(start: nat, per: nat, left: nat)
    ensures End(start, per, left) == start + left * per
    decreases left
  {
    if left > 0 {
      EndIsProduct(start + per, per, left - 1);
      assert (left - 1) * per + per == left * per;
    }
  }

  /** The items of all topics, in order. */
  function Flatten<T>(topics: seq<Topic<T>>): seq<T>
  {
    if |topics| == 0 then [] else topics[0].items + Flatten(topics[1..])
  }

  lemma {:induction false} FlattenConcat<T>(a: seq<Topic<T>>, b: seq<Topic<T>>)
    ensures Flatten(a + b) == Flatten(a) + Flatten(b)
    decreases |a|
  {
    if |a| > 0 {
      assert (a + b)[1..] == a[1..] + b;
      FlattenConcat(a[1..], b);
    } else {
      assert a + b == b;
    }
  }

  /** The topic produced by one iteration, if any, carries exactly that iteration's group. */
  lemma FlattenHead<T>(name: nat, group: seq<T>)
    ensures Flatten(if |group| > 0 then [Topic(name, group)] else []) == group
  {
    if |group| > 0 {
      assert Flatten([Topic(name, group)]) == group + Flatten([Topic(name, group)][1..]);
    }
  }

  lemma JoinSlices<T>(s: seq<T>, lo: nat, mid: nat, hi: nat)
    requires lo <= mid <= hi <= |s|
    ensures s[lo..mid] + s[mid..hi] == s[lo..hi]
  {
  }

  lemma {:induction false} EndMono(start: nat, per: nat, left: nat)
    ensures start <= End(start, per, left)
    decreases left
  {
    if left > 0 {
      EndMono(start + per, per, left - 1);
    }
  }

  /** One iteration's group followed by the stretch after it is the stretch from its start. */
  lemma CoverStep<T>(s: seq<T>, group: seq<T>, later: seq<T>, start: nat, per: nat, end: nat)
    requires start + per <= end
    requires group == Slice(s, start, start + per)
    requires later == s[Min(start + per, |s|)..Min(end, |s|)]
    ensures group + later == s[Min(start, |s|)..Min(end, |s|)]
  {
    JoinSlices(s, Min(start, |s|), Min(start + per, |s|), Min(end, |s|));
  }

  /** The groups from iteration `n` on cover exactly the stretch of `s` between `start`
      and the loop's end, both clamped to the length. */
  lemma {:induction false} PartitionCovers<T>(s: seq<T>, per: nat, n: nat, start: nat, left: nat)
    ensures start <= End(start, per, left)
    ensures Flatten(Partition(s, per, n, start, left)) == s[Min(start, |s|)..Min(End(start, per, left), |s|)]
    decreases left
  {
    EndMono(start, per, left);
    if left > 0 {
      var rest := Partition(s, per, n + 1, start + per, left - 1);
      PartitionStep(s, per, n, start, left);
      PartitionCovers(s, per, n + 1, start + per, left - 1);
      CoverStep(s, Slice(s, start, start + per), Flatten(rest), start, per, End(start + per, per, left - 1));
    }
  }

  /** One iteration contributes its group, and the later iterations the rest. */
  lemma PartitionStep<T>(s: seq<T>, per: nat, n: nat, start: nat, left: nat)
    requires left > 0
    ensures Flatten(Partition(s, per, n, start, left))
      == Slice(s, start, start + per) + Flatten(Partition(s, per, n + 1, start + per, left - 1))
  {
    var group := Slice(s, start, start + per);
    var head := if |group| > 0 then [Topic(n + 1, group)] else [];
    var rest := Partition(s, per, n + 1, start + per, left - 1);
    assert Partition(s, per, n, start, left) == head + rest;
    FlattenConcat(head, rest);
    FlattenHead(n + 1, group);
  }

  /** Once an iteration starts past the end, no further group is produced. */
  lemma {:induction false} PartitionPastEnd<T>(s: seq<T>, per: nat, n: nat, start: nat, left: nat)
    requires start >= |s|
    ensures Partition(s, per, n, start, left) == []
    decreases left
  {
    if left > 0 {
      PartitionPastEnd(s, per, n + 1, start + per, left - 1);
    }
  }

  lemma LabelsShift<T>(head: Topic<T>, rest: seq<Topic<T>>, n: nat)
    requires head.number == n + 1
    requires forall k :: 0 <= k < |rest| ==> rest[k].number == n + 1 + k + 1
    ensures forall k :: 0 <= k < |[head] + rest| ==> ([head] + rest)[k].number == n + k + 1
  {
    forall k | 0 < k < |[head] + rest|
      ensures ([head] + rest)[k].number == n + k + 1
    {
      assert ([head] + rest)[k] == rest[k - 1];
    }
  }

  /** An iteration that starts inside the list produces a topic. */
  lemma PartitionHead<T>(s: seq<T>, per: nat, n: nat, start: nat, left: nat)
    requires per >= 1 && start < |s| && left > 0
    ensures Partition(s, per, n, start, left)
      == [Topic(n + 1, Slice(s, start, start + per))] + Partition(s, per, n + 1, start + per, left - 1)
  {
    assert |Slice(s, start, start + per)| > 0;
  }

  /** The `k`-th topic holds the slice of `per` items that starts `k` groups after
      `start`. */
  ghost predicate GroupedFrom<T>(topics: seq<Topic<T>>, s: seq<T>, per: nat, start: nat)
  {
    forall k :: 0 <= k < |topics| ==> topics[k].items == Slice(s, End(start, per, k), End(start, per, k) + per)
  }

  /** With a positive group size the `k`-th topic produced holds the `k`-th group. */
  lemma {:induction false} PartitionItems<T>(s: seq<T>, per: nat, n: nat, start: nat, left: nat)
    requires per >= 1
    ensures GroupedFrom(Partition(s, per, n, start, left), s, per, start)
    decreases left
  {
    if left > 0 {
      if start < |s| {
        var rest := Partition(s, per, n + 1, start + per, left - 1);
        PartitionHead(s, per, n, start, left);
        PartitionItems(s, per, n + 1, start + per, left - 1);
        ItemsShift(s, per, Topic(n + 1, Slice(s, start, start + per)), rest, start, Partition(s, per, n, start, left));
      } else {
        PartitionPastEnd(s, per, n, start, left);
      }
    }
  }

  lemma ItemsShift<T>(s: seq<T>, per: nat, head: Topic<T>, rest: seq<Topic<T>>, start: nat, all: seq<Topic<T>>)
    requires all == [head] + rest
    requires head.items == Slice(s, start, start + per)
    requires GroupedFrom(rest, s, per, start + per)
    ensures GroupedFrom(all, s, per, start)
  {
    forall k | 0 <= k < |all|
      ensures all[k].items == Slice(s, End(start, per, k), End(start, per, k) + per)
    {
      if k == 0 {
        assert all[0] == head;
      } else {
        ShiftOne(s, per, start, k, all[k], rest[k - 1]);
      }
    }
  }

  lemma ShiftOne<T>(s: seq<T>, per: nat, start: nat, k: nat, t: Topic<T>, u: Topic<T>)
    requires k > 0 && t == u
    requires u.items == Slice(s, End(start + per, per, k - 1), End(start + per, per, k - 1) + per)
    ensures t.items == Slice(s, End(start, per, k), End(start, per, k) + per)
  {
    assert End(start, per, k) == End(start + per, per, k - 1);
  }

  /** With a positive group size the produced topics are numbered consecutively from
      `n + 1`: an empty group only occurs past the end, and nothing follows it. */
  lemma {:induction false} PartitionLabels<T>(s: seq<T>, per: nat, n: nat, start: nat, left: nat)
    requires per >= 1
    ensures forall k :: 0 <= k < |Partition(s, per, n, start, left)| ==>
      Partition(s, per, n, start, left)[k].number == n + k + 1
    decreases left
  {
    if left > 0 {
      if start < |s| {
        PartitionHead(s, per, n, start, left);
        PartitionLabels(s, per, n + 1, start + per, left - 1);
        LabelsShift(Topic(n + 1, Slice(s, start, start + per)), Partition(s, per, n + 1, start + per, left - 1), n);
      } else {
        PartitionPastEnd(s, per, n, start, left);
      }
    }
  }

  /** `Math.ceil(selectedResources.length / topicsCount)` items per group and `topicsCount`
      iterations starting at `i = 0`. */
  function Groups<T>(s: seq<T>, count: nat): (topics: seq<Topic<T>>)
    requires count >= 1
    ensures |topics| <= count
    ensures forall k :: 0 <= k < |topics| ==> 0 < |topics[k].items| <= CeilDiv(|s|, count)
  {
    Partition(s, CeilDiv(|s|, count), 0, 0, count)
  }

  /** The groups put back together are the selection, in order, and they are labelled
      "Тема 1", "Тема 2", ... without gaps. */
  lemma GroupsProperties<T>(s: seq<T>, count: nat)
    requires count >= 1
    ensures Flatten(Groups(s, count)) == s
    ensures forall k :: 0 <= k < |Groups(s, count)| ==> Groups(s, count)[k].number == k + 1
  {
    var per := CeilDiv(|s|, count);
    PartitionCovers(s, per, 0, 0, count);
    EndIsProduct(0, per, count);
    assert s[0..|s|] == s;
    if |s| == 0 {
      PartitionPastEnd(s, per, 0, 0, count);
    } else {
      PartitionLabels(s, per, 0, 0, count);
    }
  }

  // ---------------------------------------------------------------------------
  // Output records and the whole pipeline
  // ---------------------------------------------------------------------------

  /** The readable label of a content type: the four catalog types get their display
      names, anything else is shown as it is. */
  function TypeLabel(contentType: string): (shown: string)
  {
    if contentType == "video" then "YouTube"
    else if contentType == "article" then "Статья"
    else if contentType == "book" then "Книга"
    else if contentType == "course" then "Курс"
    else contentType
  }

  /** The label is the content type itself exactly when the type is none of the four, and
      the four types get four different labels. */
  lemma TypeLabelPassThrough(contentType: string)
    ensures TypeLabel(contentType) == contentType
      <==> contentType !in ["video", "article", "book", "course"]
    ensures TypeLabel(contentType) in ["YouTube", "Статья", "Книга", "Курс"]
      <==> contentType in ["video", "article", "book", "course"] || contentType in ["YouTube", "Статья", "Книга", "Курс"]
    ensures TypeLabel("video") == "YouTube" && TypeLabel("article") == "Статья"
    ensures TypeLabel("book") == "Книга" && TypeLabel("course") == "Курс"
  {
  }

  /** No two of the four catalog types share a label. */
  lemma TypeLabelsDistinct(a: string, b: string)
    requires a in ["video", "article", "book", "course"] && b in ["video", "article", "book", "course"]
    ensures TypeLabel(a) == TypeLabel(b) <==> a == b
  {
  }

  /** One item of a topic as the API returns it. */
  datatype Item = Item(
    title: string,
    url: string,
    kind: string,
    description: string,
    difficulty: string,
    duration: Duration,
    tags: seq<string>)

  /** The fields the API passes on for one record, with the type shown by its label. */
  function ToItem(r: Resource): Item
  {
    Item(r.title, r.url, TypeLabel(r.contentType), r.description, r.difficulty, r.duration, r.tags)
  }

  function ItemsOf(refs: seq<Ref>): (items: seq<Item>)
    ensures |items| == |refs|
    ensures forall i :: 0 <= i < |refs| ==> items[i] == ToItem(refs[i].res)
  {
    seq(|refs|, i requires 0 <= i < |refs| => ToItem(refs[i].res))
  }

  lemma TakeIn<T>(s: seq<T>, n: nat, x: T)
    requires x in Take(s, n)
    ensures x in s
  {
    var i :| 0 <= i < |Take(s, n)| && Take(s, n)[i] == x;
    assert s[i] == x;
  }

  lemma InOneOfFour<T>(a: seq<T>, b: seq<T>, c: seq<T>, d: seq<T>, x: T)
    requires x in a + b + c + d
    ensures x in a || x in b || x in c || x in d
  {
  }

  /** Every typed pick comes from the pool. */
  lemma TypedSelectionInPool(pool: seq<Ref>, cap: nat)
    ensures forall i :: 0 <= i < |TypedSelection(pool, cap)| ==> TypedSelection(pool, cap)[i] in pool
  {
    var parts := Buckets(pool, cap);
    var sel := TypedSelection(pool, cap);
    forall i | 0 <= i < |sel|
      ensures sel[i] in pool
    {
      var x := sel[i];
      InOneOfFour(parts[0], parts[1], parts[2], parts[3], x);
      var b :| 0 <= b < 4 && x in parts[b];
      TakeIn(OfType(pool, KindAt(b)), TypeCap(KindAt(b), cap), x);
    }
  }

  /** The records the code selects before grouping (`selectedResources`), for at least one
      topic: the direction match, narrowed by level when possible, diversified by type with
      `Math.ceil(5 / topicsCount)` per type, padded up to five. */
  function Selection(catalog: seq<Resource>, ds: seq<Direction>, knowledgeLevel: string, topicsCount: nat): (sel: seq<Ref>)
    requires topicsCount >= 1
    ensures NoDup(sel)
    ensures forall i :: 0 <= i < |sel| ==> sel[i] in Indexed(catalog) && sel[i].res.direction in Names(ds)
    ensures |sel| == 0 <==> |Matching(catalog, ds)| == 0
  {
    var levels := DifficultyLevels(knowledgeLevel);
    var pool := Pool(Matching(catalog, ds), levels);
    var typed := TypedSelection(pool, CeilDiv(5, topicsCount));
    SelectionSpec(catalog, ds, levels, pool, typed);
    Pad(pool, typed)
  }

  /** The selection's guarantees, whatever the levels and the per-type cap. */
  lemma SelectionSpec(catalog: seq<Resource>, ds: seq<Direction>, levels: seq<string>, pool: seq<Ref>, typed: seq<Ref>)
    requires pool == Pool(Matching(catalog, ds), levels)
    requires exists cap: nat :: typed == TypedSelection(pool, cap)
    ensures NoDup(Pad(pool, typed))
    ensures forall i :: 0 <= i < |Pad(pool, typed)| ==>
      Pad(pool, typed)[i] in Indexed(catalog) && Pad(pool, typed)[i].res.direction in Names(ds)
    ensures |Pad(pool, typed)| == 0 <==> |Matching(catalog, ds)| == 0
  {
    var matched := Matching(catalog, ds);
    var cap: nat :| typed == TypedSelection(pool, cap);
    PoolNoDup(matched, levels);
    TypedSelectionNoDup(pool, cap);
    TypedSelectionInPool(pool, cap);
    SelectionFacts(pool, typed, matched);
    FromMatching(catalog, ds, Pad(pool, typed));
  }

  /** A duplicate-free direction match gives a duplicate-free pool. */
  lemma PoolNoDup(matched: seq<Ref>, levels: seq<string>)
    requires NoDup(matched)
    ensures NoDup(Pool(matched, levels))
  {
    FilterNoDup(matched, AtLevels(levels));
  }

  /** Records drawn from the direction match are catalog records of the directions. */
  lemma FromMatching(catalog: seq<Resource>, ds: seq<Direction>, sel: seq<Ref>)
    requires forall i :: 0 <= i < |sel| ==> sel[i] in Matching(catalog, ds)
    ensures forall i :: 0 <= i < |sel| ==> sel[i] in Indexed(catalog) && sel[i].res.direction in Names(ds)
  {
    var matched := Matching(catalog, ds);
    forall i | 0 <= i < |sel|
      ensures sel[i] in Indexed(catalog) && sel[i].res.direction in Names(ds)
    {
      assert sel[i] in matched;
      var j :| 0 <= j < |matched| && matched[j] == sel[i];
    }
  }

  /** What the padded selection inherits from the pool and the typed picks. */
  lemma SelectionFacts(pool: seq<Ref>, typed: seq<Ref>, matched: seq<Ref>)
    requires NoDup(pool) && NoDup(typed)
    requires forall i :: 0 <= i < |typed| ==> typed[i] in pool
    requires forall i :: 0 <= i < |pool| ==> pool[i] in matched
    requires |pool| == 0 <==> |matched| == 0
    ensures NoDup(Pad(pool, typed))
    ensures forall i :: 0 <= i < |Pad(pool, typed)| ==> Pad(pool, typed)[i] in matched
    ensures |Pad(pool, typed)| == 0 <==> |matched| == 0
  {
    var padded := Pad(pool, typed);
    if |typed| < 5 {
      PadFills(pool, typed);
    }
    forall i | 0 <= i < |padded|
      ensures padded[i] in matched
    {
      if i < |typed| {
        assert padded[i] == typed[i];
      }
      var j :| 0 <= j < |pool| && pool[j] == padded[i];
    }
    if |typed| > 0 {
      var j :| 0 <= j < |pool| && pool[j] == typed[0];
    }
  }

  /** `getResourcesForProfession` once the directions are known: nothing when no record
      matches or when the loop does not run; otherwise the selection's items in
      `topicsCount` consecutive groups of `Math.ceil(|selection| / topicsCount)`, empty
      groups dropped. Turning each group's records into items is the same as grouping the
      items of the whole selection, which is what is done here. */
  function ResourcesFor(catalog: seq<Resource>, ds: seq<Direction>, knowledgeLevel: string, topicsCount: int)
    : (topics: seq<Topic<Item>>)
    ensures |topics| == 0 <==> |Matching(catalog, ds)| == 0 || topicsCount <= 0
    ensures topicsCount >= 1 ==> |topics| <= topicsCount
    ensures topicsCount >= 1 && |Matching(catalog, ds)| > 0 ==>
      var sel := Selection(catalog, ds, knowledgeLevel, topicsCount);
      && Flatten(topics) == ItemsOf(sel)
      && topics == GroupSelection(sel, topicsCount)
  {
    if |Matching(catalog, ds)| == 0 || topicsCount <= 0 then []
    else GroupSelection(Selection(catalog, ds, knowledgeLevel, topicsCount), topicsCount)
  }

  /** Where the `k`-th group of `per` items starts. */
  function GroupStart(k: nat, per: nat): nat
  {
    k * per
  }

  /** The `k`-th group is `s.slice(k * per, (k + 1) * per)` with
      `per = Math.ceil(|s| / count)`. */
  lemma GroupsItems<T>(s: seq<T>, count: nat)
    requires count >= 1
    ensures forall k :: 0 <= k < |Groups(s, count)| ==>
      Groups(s, count)[k].items == Slice(s, GroupStart(k, CeilDiv(|s|, count)), GroupStart(k, CeilDiv(|s|, count)) + CeilDiv(|s|, count))
  {
    var per := CeilDiv(|s|, count);
    var topics := Groups(s, count);
    if |s| == 0 {
      PartitionPastEnd(s, per, 0, 0, count);
    } else {
      PartitionItems(s, per, 0, 0, count);
      forall k | 0 <= k < |topics|
        ensures topics[k].items == Slice(s, GroupStart(k, per), GroupStart(k, per) + per)
      {
        EndIsProduct(0, per, k);
      }
    }
  }

  /** The loop over `topicsCount` groups applied to a selection: the items of the
      selection, in order, in consecutive non-empty groups of at most
      `Math.ceil(|sel| / count)`, numbered from 1. */
  function GroupSelection(sel: seq<Ref>, count: nat): (topics: seq<Topic<Item>>)
    requires count >= 1
    ensures |topics| <= count
    ensures |topics| == 0 <==> |sel| == 0
    ensures Flatten(topics) == ItemsOf(sel)
    ensures forall k :: 0 <= k < |topics| ==>
      && topics[k].number == k + 1
      && 0 < |topics[k].items| <= CeilDiv(|sel|, count)
  {
    var items := ItemsOf(sel);
    GroupsProperties(items, count);
    GroupsNonEmpty(items, count);
    Groups(items, count)
  }

  /** The `k`-th group holds the items of `sel.slice(k * per, (k + 1) * per)` with
      `per = Math.ceil(|sel| / count)`. */
  lemma GroupSelectionSlices(sel: seq<Ref>, count: nat)
    requires count >= 1
    ensures var topics := GroupSelection(sel, count);
      var per := CeilDiv(|sel|, count);
      forall k :: 0 <= k < |topics| ==> topics[k].items == ItemsOf(Slice(sel, GroupStart(k, per), GroupStart(k, per) + per))
  {
    var items := ItemsOf(sel);
    GroupsItems(items, count);
    SlicedItems(sel, CeilDiv(|sel|, count), Groups(items, count));
    assert ItemSlices(GroupSelection(sel, count), sel, CeilDiv(|sel|, count));
  }

  /** Topic `k` holds the items of the `k`-th run of `per` records. */
  ghost predicate ItemSlices(topics: seq<Topic<Item>>, sel: seq<Ref>, per: nat) {
    forall k :: 0 <= k < |topics| ==>
      topics[k].items == ItemsOf(Slice(sel, GroupStart(k, per), GroupStart(k, per) + per))
  }

  lemma SlicedItems(sel: seq<Ref>, per: nat, topics: seq<Topic<Item>>)
    requires forall k :: 0 <= k < |topics| ==>
      topics[k].items == Slice(ItemsOf(sel), GroupStart(k, per), GroupStart(k, per) + per)
    ensures ItemSlices(topics, sel, per)
  {
    forall k | 0 <= k < |topics|
      ensures topics[k].items == ItemsOf(Slice(sel, GroupStart(k, per), GroupStart(k, per) + per))
    {
      ItemsOfSlice(sel, GroupStart(k, per), GroupStart(k, per) + per);
    }
  }

  /** Slicing the items is turning a slice of the records into items. */
  lemma ItemsOfSlice(refs: seq<Ref>, start: nat, end: nat)
    requires start <= end
    ensures Slice(ItemsOf(refs), start, end) == ItemsOf(Slice(refs, start, end))
  {
  }

  /** A non-empty list gives at least one group. */
  lemma GroupsNonEmpty<T>(s: seq<T>, count: nat)
    requires count >= 1
    ensures |Groups(s, count)| > 0 <==> |s| > 0
  {
    GroupsProperties(s, count);
  }

  /** `getResourcesForProfession(profession, knowledgeLevel, topicsCount)` over the parsed
      catalog (loading the file is left to the caller). */
  function GetResourcesForProfession(catalog: seq<Resource>, profession: string, knowledgeLevel: string, topicsCount: int)
    : (topics: seq<Topic<Item>>)
    ensures topicsCount >= 1 ==> |topics| <= topicsCount
    ensures forall k :: 0 <= k < |topics| ==> |topics[k].items| > 0
  {
    ResourcesFor(catalog, DirectionsFor(profession), knowledgeLevel, topicsCount)
  }

  /** `getResourcesForProfession(profession)`: the defaults `knowledgeLevel = 'начинающий'`
      and `topicsCount = 3`. */
  function GetResourcesByDefault(catalog: seq<Resource>, profession: string): (topics: seq<Topic<Item>>)
    ensures |topics| <= 3
    ensures forall k :: 0 <= k < |topics| ==> |topics[k].items| > 0
    ensures |topics| == 0 <==> |Matching(catalog, DirectionsFor(profession))| == 0
  {
    GetResourcesForProfession(catalog, profession, "начинающий", 3)
  }

  /** Some catalog record belongs to one of the directions exactly when the direction
      match is non-empty. */
  lemma MatchingEmpty(catalog: seq<Resource>, ds: seq<Direction>)
    ensures |Matching(catalog, ds)| == 0
      <==> forall i :: 0 <= i < |catalog| ==> catalog[i].direction !in Names(ds)
  {
    if i :| 0 <= i < |catalog| && catalog[i].direction in Names(ds) {
      MatchingComplete(catalog, ds, i);
    }
    if |Matching(catalog, ds)| > 0 {
      var r := Matching(catalog, ds)[0];
      var j :| 0 <= j < |catalog| && Indexed(catalog)[j] == r;
    }
  }

  /** The result is empty exactly when the loop does not run or no catalog record belongs
      to one of the profession's directions. */
  lemma ResultEmpty(catalog: seq<Resource>, profession: string, knowledgeLevel: string, topicsCount: int)
    ensures |GetResourcesForProfession(catalog, profession, knowledgeLevel, topicsCount)| == 0
      <==> (topicsCount <= 0
        || forall i :: 0 <= i < |catalog| ==> catalog[i].direction !in Names(DirectionsFor(profession)))
  {
    MatchingEmpty(catalog, DirectionsFor(profession));
  }

  /** The items of records taken from the catalog describe catalog records. */
  lemma ItemsOfCatalogRefs(catalog: seq<Resource>, ds: seq<Direction>, sel: seq<Ref>)
    requires forall i :: 0 <= i < |sel| ==> sel[i] in Indexed(catalog) && sel[i].res.direction in Names(ds)
    ensures forall x :: x in ItemsOf(sel) ==>
      exists j :: 0 <= j < |catalog| && catalog[j].direction in Names(ds) && x == ToItem(catalog[j])
  {
    forall x | x in ItemsOf(sel)
      ensures exists j :: 0 <= j < |catalog| && catalog[j].direction in Names(ds) && x == ToItem(catalog[j])
    {
      var i :| 0 <= i < |sel| && ItemsOf(sel)[i] == x;
      var j :| 0 <= j < |catalog| && Indexed(catalog)[j] == sel[i];
      assert catalog[j] == sel[i].res;
    }
  }

  /** Every item of the grouped result describes a catalog record of one of the
      directions. */
  lemma ItemsFromCatalog(catalog: seq<Resource>, ds: seq<Direction>, knowledgeLevel: string, topicsCount: int)
    ensures forall x :: x in Flatten(ResourcesFor(catalog, ds, knowledgeLevel, topicsCount)) ==>
      exists j :: 0 <= j < |catalog| && catalog[j].direction in Names(ds) && x == ToItem(catalog[j])
  {
    if topicsCount >= 1 && |Matching(catalog, ds)| > 0 {
      ItemsOfCatalogRefs(catalog, ds, Selection(catalog, ds, knowledgeLevel, topicsCount));
    } else {
      assert Flatten(ResourcesFor(catalog, ds, knowledgeLevel, topicsCount)) == [];
    }
  }

  /** Every item returned describes a catalog record of one of the profession's
      directions. */
  lemma ResultFromCatalog(catalog: seq<Resource>, profession: string, knowledgeLevel: string, topicsCount: int)
    ensures forall x :: x in Flatten(GetResourcesForProfession(catalog, profession, knowledgeLevel, topicsCount)) ==>
      exists j :: 0 <= j < |catalog| && catalog[j].direction in Names(DirectionsFor(profession))
        && x == ToItem(catalog[j])
  {
    ItemsFromCatalog(catalog, DirectionsFor(profession), knowledgeLevel, topicsCount);
  }

  // ---------------------------------------------------------------------------
  // All directions
  // ---------------------------------------------------------------------------

  function DirectionsOf(catalog: seq<Resource>): (names: seq<string>)
    ensures |names| == |catalog|
    ensures forall i :: 0 <= i < |catalog| ==> names[i] == catalog[i].direction
  {
    seq(|catalog|, i requires 0 <= i < |catalog| => catalog[i].direction)
  }

  /** `getAllDirections`: each direction of the catalog once, in order of first
      occurrence. */
  function AllDirections(catalog: seq<Resource>): (names: seq<string>)
    ensures NoDup(names)
    ensures forall i :: 0 <= i < |names| ==> exists j :: 0 <= j < |catalog| && catalog[j].direction == names[i]
    ensures forall i, k :: 0 <= i < k < |names| ==>
      FirstIndex(DirectionsOf(catalog), names[i]) < FirstIndex(DirectionsOf(catalog), names[k])
  {
    Dedup(DirectionsOf(catalog))
  }

  /** No direction of the catalog is missing. */
  lemma AllDirectionsComplete(catalog: seq<Resource>, j: int)
    requires 0 <= j < |catalog|
    ensures catalog[j].direction in AllDirections(catalog)
  {
    DedupComplete(DirectionsOf(catalog), j);
  }

  // ---------------------------------------------------------------------------
  // The lookup as written
  // ---------------------------------------------------------------------------

  /** Names every plain object inherits from `Object.prototype`. */
  const InheritedNames: seq<string> := [
    "constructor", "__proto__", "toString", "toLocaleString", "valueOf", "hasOwnProperty",
    "isPrototypeOf", "propertyIsEnumerable", "__defineGetter__", "__defineSetter__",
    "__lookupGetter__", "__lookupSetter__"]

  /** Either a value or a thrown exception. */
  datatype Outcome<T> = Returned(value: T) | Threw

  /** `getResourcesForProfession` with `PROFESSION_MAPPING[profession]` read the way the
      code reads it: an inherited member is truthy, so it is returned as the "directions";
      it has no `includes`, so the filter throws as soon as it looks at a record. */
  function ResourcesAsWritten(catalog: seq<Resource>, profession: string, knowledgeLevel: string, topicsCount: int)
    : (r: Outcome<seq<Topic<Item>>>)
    ensures profession !in InheritedNames ==>
      r == Returned(GetResourcesForProfession(catalog, profession, knowledgeLevel, topicsCount))
    ensures |catalog| == 0 ==> r == Returned([])
  {
    if profession in InheritedNames && profession !in ProfessionMapping then
      if |catalog| == 0 then Returned([]) else Threw
    else
      if |catalog| == 0 then
        EmptyCatalog(profession, knowledgeLevel, topicsCount);
        Returned([])
      else
        Returned(GetResourcesForProfession(catalog, profession, knowledgeLevel, topicsCount))
  }

  lemma EmptyCatalog(profession: string, knowledgeLevel: string, topicsCount: int)
    ensures GetResourcesForProfession([], profession, knowledgeLevel, topicsCount) == []
  {
    ResultEmpty([], profession, knowledgeLevel, topicsCount);
  }

  /** A profession named like an inherited member and not in the table makes the code
      throw on any non-empty catalog, where the own-key lookup instead falls through to the
      keyword rules and returns normally. */
  lemma InheritedNameThrows(catalog: seq<Resource>, profession: string, knowledgeLevel: string, topicsCount: int)
    requires profession in InheritedNames && profession !in ProfessionMapping
    requires |catalog| > 0
    ensures ResourcesAsWritten(catalog, profession, knowledgeLevel, topicsCount) == Threw
    ensures DirectionsFor(profession) == KeywordDirections(Lower(profession))
  {
  }
}

=== FILE: Seqs.dfy ===
/** Sequence operations shared by the matcher, the resource selector and the quiz:
    the `Array.prototype` methods `filter`, `slice`, and the `Array.from(new Set(...))`
    de-duplication, with the lemmas the other modules need about them. */
module Seqs {

  function Min(a: int, b: int): int { if a <= b then a else b }
  function Max(a: int, b: int): int { if a >= b then a else b }

  /** A non-empty sequence is its prefix followed by its last element. */
  lemma Snoc<T>(s: seq<T>)
    requires |s| > 0
    ensures s == s[..|s| - 1] + [s[|s| - 1]]
  {
  }

  /** `s.map(f)`: `f` applied to each element, in order. */
  function Map<A, B>(s: seq<A>, f: A -> B): (r: seq<B>)
    ensures |r| == |s|
    ensures forall i :: 0 <= i < |s| ==> r[i] == f(s[i])
  {
    seq(|s|, i requires 0 <= i < |s| => f(s[i]))
  }

  lemma MapSingle<A, B>(x: A, f: A -> B)
    ensures Map([x], f) == [f(x)]
  {
  }

  /** Mapping a non-empty sequence maps its prefix, then its last element. */
  lemma MapSnoc<A, B>(s: seq<A>, f: A -> B)
    requires |s| > 0
    ensures Map(s, f) == Map(s[..|s| - 1], f) + [f(s[|s| - 1])]
  {
    var init := s[..|s| - 1];
    forall i | 0 <= i < |init|
      ensures Map(s, f)[i] == Map(init, f)[i]
    {
      assert init[i] == s[i];
    }
  }

  /** Splitting off the head of a non-empty left operand of a concatenation. */
  lemma ConcatHead<T>(w: seq<T>, y: seq<T>)
    requires |w| > 0
    ensures (w + y)[0] == w[0] && (w + y)[1..] == w[1..] + y
    ensures w + y == [w[0]] + (w[1..] + y)
  {
    assert w == [w[0]] + w[1..];
  }

  /** Regrouping a concatenation of three or four parts, dropping an empty one. */
  lemma Regroup<T>(a: seq<T>, b: seq<T>, c: seq<T>, d: seq<T>)
    ensures a + (b + c + d) == a + b + c + d
    ensures |b| == 0 ==> b + c + d == c + d
  {
    if |b| == 0 {
      assert b + c == c;
    }
  }

  /** A property of the head and of every element of the tail holds for every element. */
  lemma AllCons<T>(x: T, xs: seq<T>, p: T -> bool)
    requires p(x) && forall k :: 0 <= k < |xs| ==> p(xs[k])
    ensures forall k :: 0 <= k < |[x] + xs| ==> p(([x] + xs)[k])
  {
  }

  /** `s.filter(p)`: the elements of `s` that satisfy `p`, in their original order. */
  function Filter<T>(s: seq<T>, p: T -> bool): (r: seq<T>)
    ensures |r| <= |s|
    ensures forall i :: 0 <= i < |r| ==> r[i] in s && p(r[i])
  {
    if |s| == 0 then []
    else
      var init := s[..|s| - 1];
      assert s == init + [s[|s| - 1]];
      Filter(init, p) + (if p(s[|s| - 1]) then [s[|s| - 1]] else [])
  }

  /** Every element that satisfies the predicate survives the filter. */
  lemma {:induction false} FilterKeeps<T>(s: seq<T>, p: T -> bool, i: int)
    requires 0 <= i < |s| && p(s[i])
    ensures s[i] in Filter(s, p)
    decreases |s|
  {
    if i < |s| - 1 {
      FilterKeeps(s[..|s| - 1], p, i);
    }
  }

  lemma FilterSnoc<T>(s: seq<T>, x: T, p: T -> bool)
    ensures Filter(s + [x], p) == Filter(s, p) + (if p(x) then [x] else [])
  {
    assert (s + [x])[..|s|] == s;
  }

  lemma {:induction false} FilterConcat<T>(a: seq<T>, b: seq<T>, p: T -> bool)
    ensures Filter(a + b, p) == Filter(a, p) + Filter(b, p)
    decreases |b|
  {
    if |b| == 0 {
      assert a + b == a;
    } else {
      var init := b[..|b| - 1];
      var x := b[|b| - 1];
      assert b == init + [x];
      assert a + b == (a + init) + [x];
      FilterSnoc(a + init, x, p);
      FilterSnoc(init, x, p);
      FilterConcat(a, init, p);
    }
  }

  lemma FilterConcat4<T>(a: seq<T>, b: seq<T>, c: seq<T>, d: seq<T>, p: T -> bool)
    ensures Filter(a + b + c + d, p) == Filter(a, p) + Filter(b, p) + Filter(c, p) + Filter(d, p)
  {
    FilterConcat(a + b + c, d, p);
    FilterConcat(a + b, c, p);
    FilterConcat(a, b, p);
  }

  /** A concatenation of four parts, three of them empty, is the remaining part. */
  lemma ConcatOneOfFour<T>(a: seq<T>, b: seq<T>, c: seq<T>, d: seq<T>)
    ensures b == [] && c == [] && d == [] ==> a + b + c + d == a
    ensures a == [] && c == [] && d == [] ==> a + b + c + d == b
    ensures a == [] && b == [] && d == [] ==> a + b + c + d == c
    ensures a == [] && b == [] && c == [] ==> a + b + c + d == d
  {
  }

  /** Filtering four parts of which the filter keeps the `k`-th whole and nothing of the
      others leaves that part. */
  lemma FilterOneOfFour<T>(parts: seq<seq<T>>, p: T -> bool, k: nat)
    requires |parts| == 4 && k < 4
    requires forall i :: 0 <= i < 4 ==> Filter(parts[i], p) == if i == k then parts[k] else []
    ensures Filter(parts[0] + parts[1] + parts[2] + parts[3], p) == parts[k]
  {
    FilterConcat4(parts[0], parts[1], parts[2], parts[3], p);
    var f0, f1, f2, f3 := Filter(parts[0], p), Filter(parts[1], p), Filter(parts[2], p), Filter(parts[3], p);
    ConcatOneOfFour(f0, f1, f2, f3);
  }

  lemma FilterSingleton<T>(y: T, p: T -> bool)
    ensures Filter([y], p) == if p(y) then [y] else []
  {
    FilterSnoc([], y, p);
    assert [] + [y] == [y];
  }

  /** Filtering distributes over putting one element in front. */
  lemma FilterCons<T>(y: T, s: seq<T>, p: T -> bool)
    ensures Filter([y] + s, p) == (if p(y) then [y] else []) + Filter(s, p)
  {
    FilterConcat([y], s, p);
    FilterSingleton(y, p);
  }

  /** Putting the same element in front of two sequences keeps a relation between their
      filtered forms of the shape "the one is the other followed by `tail`". */
  lemma FilterConsShift<T>(y: T, a: seq<T>, b: seq<T>, tail: seq<T>, p: T -> bool)
    requires Filter(a, p) == Filter(b, p) + tail
    ensures Filter([y] + a, p) == Filter([y] + b, p) + tail
  {
    FilterCons(y, a, p);
    FilterCons(y, b, p);
    ConcatAssoc(if p(y) then [y] else [], Filter(b, p), tail);
  }

  lemma ConcatAssoc<T>(a: seq<T>, b: seq<T>, c: seq<T>)
    ensures a + (b + c) == (a + b) + c
  {
  }

  /** Filtering with a predicate every element satisfies changes nothing. */
  lemma {:induction false} FilterAll<T>(s: seq<T>, p: T -> bool)
    requires forall i :: 0 <= i < |s| ==> p(s[i])
    ensures Filter(s, p) == s
    decreases |s|
  {
    if |s| > 0 {
      assert s == s[..|s| - 1] + [s[|s| - 1]];
      FilterAll(s[..|s| - 1], p);
    }
  }

  /** Every element that satisfies the predicate survives the filter (all positions at once). */
  lemma FilterKeepsAll<T>(s: seq<T>, p: T -> bool)
    ensures forall i :: 0 <= i < |s| && p(s[i]) ==> s[i] in Filter(s, p)
  {
    forall i | 0 <= i < |s| && p(s[i])
      ensures s[i] in Filter(s, p)
    {
      FilterKeeps(s, p, i);
    }
  }

  /** Filtering with a predicate no element satisfies leaves nothing. */
  lemma FilterNone<T>(s: seq<T>, p: T -> bool)
    requires forall i :: 0 <= i < |s| ==> !p(s[i])
    ensures Filter(s, p) == []
  {
  }

  /** Filtering twice keeps exactly what satisfies both predicates. */
  lemma {:induction false} FilterFilter<T>(s: seq<T>, p: T -> bool, q: T -> bool, pq: T -> bool)
    requires forall x :: pq(x) == (p(x) && q(x))
    ensures Filter(Filter(s, p), q) == Filter(s, pq)
    decreases |s|
  {
    if |s| > 0 {
      var init := s[..|s| - 1];
      var x := s[|s| - 1];
      FilterFilter(init, p, q, pq);
      var fp := Filter(init, p);
      assert Filter(s, pq) == Filter(init, pq) + (if pq(x) then [x] else []);
      if p(x) {
        assert Filter(s, p) == fp + [x];
        FilterSnoc(fp, x, q);
      } else {
        assert Filter(s, p) == fp;
      }
    }
  }

  /** An element that fails the predicate makes the filtered sequence strictly shorter. */
  lemma {:induction false} FilterDropsFailing<T>(s: seq<T>, p: T -> bool, i: int)
    requires 0 <= i < |s| && !p(s[i])
    ensures |Filter(s, p)| < |s|
    decreases |s|
  {
    if i < |s| - 1 {
      FilterDropsFailing(s[..|s| - 1], p, i);
    }
  }

  /** The first element kept by a filter is the first element satisfying the predicate. */
  lemma FilterFirst<T>(s: seq<T>, p: T -> bool, k: int)
    requires 0 <= k < |s| && p(s[k])
    requires forall j :: 0 <= j < k ==> !p(s[j])
    ensures |Filter(s, p)| > 0 && Filter(s, p)[0] == s[k]
  {
    assert s == s[..k] + ([s[k]] + s[k + 1..]);
    FilterNone(s[..k], p);
    FilterConcat(s[..k], [s[k]] + s[k + 1..], p);
    FilterConcat([s[k]], s[k + 1..], p);
    FilterSnoc([], s[k], p);
    assert [] + [s[k]] == [s[k]];
  }

  /** Filtering a prefix gives a prefix of the filtered whole. */
  lemma FilterPrefix<T>(a: seq<T>, b: seq<T>, p: T -> bool)
    requires a <= b
    ensures Filter(a, p) <= Filter(b, p)
  {
    assert b == a + b[|a|..];
    FilterConcat(a, b[|a|..], p);
  }

  /** A predicate and its complement split a sequence's length between them. */
  lemma {:induction false} FilterComplementLength<T>(s: seq<T>, p: T -> bool, q: T -> bool)
    requires forall x :: q(x) == !p(x)
    ensures |Filter(s, p)| + |Filter(s, q)| == |s|
    decreases |s|
  {
    if |s| > 0 {
      FilterComplementLength(s[..|s| - 1], p, q);
    }
  }

  /** Two lists that agree position by position on whether an element passes keep
      equally many elements. */
  lemma {:induction false} FilterLengthAlike<A, B>(a: seq<A>, b: seq<B>, p: A -> bool, q: B -> bool)
    requires |a| == |b|
    requires forall i :: 0 <= i < |a| ==> p(a[i]) == q(b[i])
    ensures |Filter(a, p)| == |Filter(b, q)|
    decreases |a|
  {
    if |a| > 0 {
      FilterLengthAlike(a[..|a| - 1], b[..|b| - 1], p, q);
    }
  }

  /** `s.slice(0, n)` for a non-negative `n`. */
  function Take<T>(s: seq<T>, n: nat): (r: seq<T>)
    ensures |r| == Min(n, |s|)
    ensures r <= s
  {
    if n <= |s| then s[..n] else s
  }

  /** `s.slice(0, end)` for any integer `end`: a negative end counts back from the end of `s`. */
  function SliceTo<T>(s: seq<T>, end: int): (r: seq<T>)
    ensures end >= 0 ==> |r| == Min(end, |s|)
    ensures end < 0 ==> |r| == Max(|s| + end, 0)
    ensures r <= s
  {
    if end >= 0 then Take(s, end) else Take(s, Max(|s| + end, 0))
  }

  /** Slicing a prefix of `b` takes a prefix of what slicing `b` takes. */
  lemma SliceToPrefix<T>(a: seq<T>, b: seq<T>, end: int)
    requires a <= b
    ensures SliceTo(a, end) <= SliceTo(b, end)
  {
  }

  /** `x` occurs in `s` at most once. */
  ghost predicate NoDup<T>(s: seq<T>)
  {
    forall i, j :: 0 <= i < j < |s| ==> s[i] != s[j]
  }

  lemma FilterNoDup<T>(s: seq<T>, p: T -> bool)
    requires NoDup(s)
    ensures NoDup(Filter(s, p))
    decreases |s|
  {
    if |s| > 0 {
      var init := s[..|s| - 1];
      FilterNoDup(init, p);
      assert s[|s| - 1] !in init;
    }
  }

  /** Two duplicate-free sequences with no element in common concatenate without duplicates. */
  lemma NoDupConcat<T>(a: seq<T>, b: seq<T>)
    requires NoDup(a) && NoDup(b)
    requires forall i, j :: 0 <= i < |a| && 0 <= j < |b| ==> a[i] != b[j]
    ensures NoDup(a + b)
  {
    var c := a + b;
    forall i, j | 0 <= i < j < |c|
      ensures c[i] != c[j]
    {
      if j < |a| {
        assert c[i] == a[i] && c[j] == a[j];
      } else if i >= |a| {
        assert c[i] == b[i - |a|] && c[j] == b[j - |a|];
      } else {
        assert c[i] == a[i] && c[j] == b[j - |a|];
      }
    }
  }

  /** Appending a duplicate-free part whose elements all carry tag `n` to elements tagged
      below `n` repeats nothing. */
  lemma NoDupAppendTagged<T>(x: seq<T>, y: seq<T>, tag: T -> int, n: int)
    requires NoDup(x) && NoDup(y)
    requires forall i :: 0 <= i < |x| ==> tag(x[i]) < n
    requires forall j :: 0 <= j < |y| ==> tag(y[j]) == n
    ensures NoDup(x + y)
    ensures forall i :: 0 <= i < |x + y| ==> tag((x + y)[i]) <= n
  {
    NoDupConcat(x, y);
  }

  /** Four duplicate-free parts, the `b`-th tagged `b`, concatenate without repeats. */
  lemma NoDupTagged<T>(parts: seq<seq<T>>, tag: T -> int)
    requires |parts| == 4
    requires forall b :: 0 <= b < 4 ==> NoDup(parts[b])
    requires forall b, i :: 0 <= b < 4 && 0 <= i < |parts[b]| ==> tag(parts[b][i]) == b
    ensures NoDup(parts[0] + parts[1] + parts[2] + parts[3])
  {
    var p0, p1, p2, p3 := parts[0], parts[1], parts[2], parts[3];
    assert NoDup(p0) && NoDup(p1) && NoDup(p2) && NoDup(p3);
    NoDupAppendTagged(p0, p1, tag, 1);
    NoDupAppendTagged(p0 + p1, p2, tag, 2);
    NoDupAppendTagged(p0 + p1 + p2, p3, tag, 3);
  }

  /** Appending a part whose elements all carry tag `n` to elements tagged from 0 to `n`
      in non-decreasing order keeps the tags in order. */
  lemma SortedAppendTagged<T>(x: seq<T>, y: seq<T>, tag: T -> int, n: int)
    requires forall i, j :: 0 <= i < j < |x| ==> tag(x[i]) <= tag(x[j])
    requires forall i :: 0 <= i < |x| ==> 0 <= tag(x[i]) <= n
    requires forall j :: 0 <= j < |y| ==> tag(y[j]) == n
    requires 0 <= n
    ensures forall i, j :: 0 <= i < j < |x + y| ==> tag((x + y)[i]) <= tag((x + y)[j])
    ensures forall i :: 0 <= i < |x + y| ==> 0 <= tag((x + y)[i]) <= n
  {
    var c := x + y;
    forall i | 0 <= i < |c|
      ensures 0 <= tag(c[i]) <= n
    {
      if i < |x| {
        assert c[i] == x[i];
      } else {
        assert c[i] == y[i - |x|];
      }
    }
    forall i, j | 0 <= i < j < |c|
      ensures tag(c[i]) <= tag(c[j])
    {
      if j < |x| {
        assert c[i] == x[i] && c[j] == x[j];
      } else {
        assert c[j] == y[j - |x|];
      }
    }
  }

  /** Four parts, the `b`-th tagged `b`, concatenate into a sequence whose tags never
      decrease and stay below 4. */
  lemma TaggedSorted<T>(parts: seq<seq<T>>, tag: T -> int)
    requires |parts| == 4
    requires forall b, i :: 0 <= b < 4 && 0 <= i < |parts[b]| ==> tag(parts[b][i]) == b
    ensures forall i, j :: 0 <= i < j < |parts[0] + parts[1] + parts[2] + parts[3]| ==>
      tag((parts[0] + parts[1] + parts[2] + parts[3])[i]) <= tag((parts[0] + parts[1] + parts[2] + parts[3])[j])
    ensures forall i :: 0 <= i < |parts[0] + parts[1] + parts[2] + parts[3]| ==>
      0 <= tag((parts[0] + parts[1] + parts[2] + parts[3])[i]) < 4
  {
    var p0, p1, p2, p3 := parts[0], parts[1], parts[2], parts[3];
    assert forall i :: 0 <= i < |p0| ==> tag(p0[i]) == 0;
    assert forall i :: 0 <= i < |p1| ==> tag(p1[i]) == 1;
    assert forall i :: 0 <= i < |p2| ==> tag(p2[i]) == 2;
    assert forall i :: 0 <= i < |p3| ==> tag(p3[i]) == 3;
    SortedAppendTagged(p0, p1, tag, 1);
    SortedAppendTagged(p0 + p1, p2, tag, 2);
    SortedAppendTagged(p0 + p1 + p2, p3, tag, 3);
  }

  /** A prefix of a duplicate-free sequence is duplicate-free. */
  lemma NoDupPrefix<T>(a: seq<T>, b: seq<T>)
    requires a <= b && NoDup(b)
    ensures NoDup(a)
  {
    assert forall i :: 0 <= i < |a| ==> a[i] == b[i];
  }

  /** A duplicate-free sequence has as many elements as its set of elements. */
  lemma {:induction false} NoDupCard<T>(s: seq<T>)
    requires NoDup(s)
    ensures |set x | x in s| == |s|
    decreases |s|
  {
    if |s| > 0 {
      var init := s[..|s| - 1];
      var x := s[|s| - 1];
      assert s == init + [x];
      NoDupCard(init);
      assert x !in init;
      assert (set y | y in s) == (set y | y in init) + {x};
    }
  }

  /** Two duplicate-free sequences over the same elements have the same length. */
  lemma SameElementsSameLength<T>(a: seq<T>, b: seq<T>)
    requires NoDup(a) && NoDup(b)
    requires forall x :: x in a <==> x in b
    ensures |a| == |b|
  {
    NoDupCard(a);
    NoDupCard(b);
    assert (set x | x in a) == (set x | x in b);
  }

  /** Position of the first occurrence of `x` in `s` (`s.indexOf(x)` when `x` is present). */
  function FirstIndex<T(==)>(s: seq<T>, x: T): (i: nat)
    requires x in s
    ensures i < |s| && s[i] == x
    ensures forall j :: 0 <= j < i ==> s[j] != x
  {
    if s[0] == x then 0 else 1 + FirstIndex(s[1..], x)
  }

  lemma {:induction false} FirstIndexExtend<T>(s: seq<T>, y: T, x: T)
    requires x in s
    ensures FirstIndex(s + [y], x) == FirstIndex(s, x)
  {
    var i := FirstIndex(s, x);
    var k := FirstIndex(s + [y], x);
    assert (s + [y])[i] == x;
  }

  lemma FirstIndexExtendAll<T>(s: seq<T>, y: T)
    ensures forall x :: x in s ==> FirstIndex(s + [y], x) == FirstIndex(s, x)
  {
    forall x | x in s
      ensures FirstIndex(s + [y], x) == FirstIndex(s, x)
    {
      FirstIndexExtend(s, y, x);
    }
  }

  /** `Array.from(new Set(s))`: each value of `s` once, in order of first occurrence. */
  function Dedup<T(==)>(s: seq<T>): (r: seq<T>)
    ensures NoDup(r)
    ensures forall i :: 0 <= i < |r| ==> r[i] in s
    ensures forall i, j :: 0 <= i < j < |r| ==> FirstIndex(s, r[i]) < FirstIndex(s, r[j])
  {
    if |s| == 0 then []
    else
      var init := s[..|s| - 1];
      var x := s[|s| - 1];
      assert s == init + [x];
      var d := Dedup(init);
      FirstIndexExtendAll(init, x);
      if x in init then d
      else
        assert FirstIndex(s, x) == |init|;
        d + [x]
  }

  /** Every value of `s` appears in its de-duplication. */
  lemma {:induction false} DedupComplete<T>(s: seq<T>, i: int)
    requires 0 <= i < |s|
    ensures s[i] in Dedup(s)
    decreases |s|
  {
    var init := s[..|s| - 1];
    if i < |s| - 1 {
      DedupComplete(init, i);
    } else if s[i] in init {
      DedupComplete(init, FirstIndex(init, s[i]));
    }
  }
}

=== FILE: Text.dfy ===
/** The JavaScript string operations the modelled code relies on: `toLowerCase`, `trim`,
    the regular-expression replacements of `normalizeText`, `split`, `join`, `includes`,
    `indexOf`, `replace` with a string pattern, and decimal rendering of counters. */
module Text {
  import opened Optional
  import opened Seqs

  // ---------------------------------------------------------------------------
  // Characters
  // ---------------------------------------------------------------------------

  /** Capital letters of the modelled alphabet: Latin A-Z and Cyrillic U+0400..U+042F. */
  predicate IsUpper(c: char)
  {
    'A' <= c <= 'Z' || 0x0400 <= c as int <= 0x042F
  }

  /** `toLowerCase` on one character: Latin and Cyrillic capitals map to their small letters
      (U+0410..U+042F shift by 0x20, U+0400..U+040F by 0x50); every other character is kept. */
  function ToLower(c: char): (d: char)
    ensures !IsUpper(d)
    ensures !IsUpper(c) ==> d == c
    ensures IsUpper(c) ==> d != c
  {
    if 'A' <= c <= 'Z' then (c as int + 0x20) as char
    else if 0x0410 <= c as int <= 0x042F then (c as int + 0x20) as char
    else if 0x0400 <= c as int <= 0x040F then (c as int + 0x50) as char
    else c
  }

  /** `String.prototype.toLowerCase`, character by character. */
  function Lower(s: string): (r: string)
    ensures |r| == |s|
    ensures forall i :: 0 <= i < |r| ==> !IsUpper(r[i])
    ensures forall i :: 0 <= i < |s| && !IsUpper(s[i]) ==> r[i] == s[i]
  {
    seq(|s|, i requires 0 <= i < |s| => ToLower(s[i]))
  }

  /** `length` of a JavaScript string: the number of UTF-16 code units, so that a code point
      above U+FFFF (a surrogate pair) counts twice. */
  function Utf16Length(s: string): (n: nat)
    ensures |s| <= n <= 2 * |s|
    ensures (forall i :: 0 <= i < |s| ==> s[i] as int <= 0xFFFF) ==> n == |s|
  {
    if |s| == 0 then 0
    else (if s[0] as int > 0xFFFF then 2 else 1) + Utf16Length(s[1..])
  }

  /** The UTF-16 length of a concatenation is the sum of the lengths. */
  lemma {:induction false} Utf16LengthConcat(a: string, b: string)
    ensures Utf16Length(a + b) == Utf16Length(a) + Utf16Length(b)
    decreases |a|
  {
    if |a| == 0 {
      assert a + b == b;
    } else {
      assert (a + b)[1..] == a[1..] + b;
      Utf16LengthConcat(a[1..], b);
    }
  }

  /** One emoji is a two-unit string, so a word of two emoji is longer than two units. */
  lemma Utf16LengthExample()
    ensures Utf16Length("\U{1F600}") == 2
    ensures Utf16Length("\U{1F600}\U{1F600}") == 4
  {
    assert "\U{1F600}\U{1F600}"[1..] == "\U{1F600}";
  }

  /** ECMAScript WhiteSpace and LineTerminator code points: the class `\s` and what `trim` removes. */
  predicate IsSpace(c: char)
  {
    || 0x09 <= c as int <= 0x0D
    || c == ' '
    || c as int == 0xA0
    || c as int == 0x1680
    || 0x2000 <= c as int <= 0x200A
    || c as int == 0x2028 || c as int == 0x2029 || c as int == 0x202F
    || c as int == 0x205F || c as int == 0x3000 || c as int == 0xFEFF
  }

  /** The characters of the class `[.,\/#!$%\^&\*;:{}=\-_`~()]` in `normalizeText`. */
  predicate IsStripped(c: char)
  {
    || c == '.' || c == ',' || c == '/' || c == '#' || c == '!' || c == '$' || c == '%'
    || c == '^' || c == '&' || c == '*' || c == ';' || c == ':' || c == '{' || c == '}'
    || c == '=' || c == '-' || c == '_' || c == '`' || c == '~' || c == '(' || c == ')'
  }

  predicate Kept(c: char)
  {
    !IsStripped(c)
  }

  predicate NotSpace(c: char)
  {
    !IsSpace(c)
  }

  /** A character that survives `normalizeText` as part of a word. */
  predicate WordChar(c: char)
  {
    !IsSpace(c) && Kept(c)
  }


  // ---------------------------------------------------------------------------
  // trim
  // ---------------------------------------------------------------------------

  function TrimStart(s: string): (r: string)
    ensures |r| <= |s| && r == s[|s| - |r|..]
    ensures |r| > 0 ==> !IsSpace(r[0])
    ensures forall i :: 0 <= i < |s| - |r| ==> IsSpace(s[i])
  {
    if |s| > 0 && IsSpace(s[0]) then TrimStart(s[1..]) else s
  }

  function TrimEnd(s: string): (r: string)
    ensures |r| <= |s| && r == s[..|r|]
    ensures |r| > 0 ==> !IsSpace(r[|r| - 1])
    ensures forall i :: |r| <= i < |s| ==> IsSpace(s[i])
  {
    if |s| > 0 && IsSpace(s[|s| - 1]) then TrimEnd(s[..|s| - 1]) else s
  }

  /** `String.prototype.trim`: the result neither starts nor ends with white space, and a
      string that already does neither is returned as it is. */
  function Trim(s: string): (r: string)
    ensures |r| > 0 ==> !IsSpace(r[0]) && !IsSpace(r[|r| - 1])
    ensures (|s| == 0 || (!IsSpace(s[0]) && !IsSpace(s[|s| - 1]))) ==> r == s
  {
    TrimEnd(TrimStart(s))
  }

  /** What `trim` leaves is one piece of the string with only white space before and
      after it. */
  lemma TrimPiece(s: string)
    ensures exists a :: (0 <= a <= |s| - |Trim(s)| && Trim(s) <= s[a..]
      && (forall i :: 0 <= i < a ==> IsSpace(s[i]))
      && (forall i :: a + |Trim(s)| <= i < |s| ==> IsSpace(s[i])))
  {
    var t := TrimStart(s);
    var a := |s| - |t|;
    TrimTrailing(s, a, t, |TrimEnd(t)|);
    assert Trim(s) <= s[a..];
  }

  lemma TrimTrailing(s: string, a: nat, t: string, n: nat)
    requires a <= |s| && t == s[a..] && n <= |t|
    requires forall i :: n <= i < |t| ==> IsSpace(t[i])
    ensures forall i :: a + n <= i < |s| ==> IsSpace(s[i])
  {
    forall i | a + n <= i < |s|
      ensures IsSpace(s[i])
    {
      assert s[i] == t[i - a];
    }
  }


  /** Trimming removes only white space, so it does not change what a filter that rejects
      white space keeps. */
  lemma TrimFilter(s: string, p: char -> bool)
    requires forall c :: IsSpace(c) ==> !p(c)
    ensures Filter(Trim(s), p) == Filter(s, p)
  {
    TrimStartFilter(s, p);
    var t := TrimStart(s);
    var r := TrimEnd(t);
    DropSpacesFilter(r, t[|r|..], p);
    assert t == r + t[|r|..];
  }

  lemma TrimStartFilter(s: string, p: char -> bool)
    requires forall c :: IsSpace(c) ==> !p(c)
    ensures Filter(TrimStart(s), p) == Filter(s, p)
  {
    var t := TrimStart(s);
    var k := |s| - |t|;
    assert s == s[..k] + t;
    forall i | 0 <= i < k
      ensures !p(s[..k][i])
    {
      assert s[..k][i] == s[i];
    }
    DropSpacesFilter(t, s[..k], p);
  }

  /** Filtering a piece preceded or followed by rejected characters. */
  lemma DropSpacesFilter(keep: string, drop: string, p: char -> bool)
    requires forall i :: 0 <= i < |drop| ==> !p(drop[i])
    ensures Filter(keep + drop, p) == Filter(keep, p)
    ensures Filter(drop + keep, p) == Filter(keep, p)
  {
    FilterConcat(keep, drop, p);
    FilterConcat(drop, keep, p);
    FilterNone(drop, p);
    assert Filter(drop, p) == [];
  }


  /** Trimming only removes characters: what is left was already in the string. */
  lemma TrimChars(s: string)
    ensures forall i :: 0 <= i < |Trim(s)| ==> Trim(s)[i] in s
  {
    var a := TrimStart(s);
    assert forall i :: 0 <= i < |a| ==> a[i] == s[|s| - |a| + i];
  }

  lemma TrimIdempotent(s: string)
    ensures Trim(Trim(s)) == Trim(s)
  {
  }

  // ---------------------------------------------------------------------------
  // normalizeText
  // ---------------------------------------------------------------------------

  /** No two neighbouring characters are both white space. */
  ghost predicate SingleSpaced(s: string)
  {
    forall i :: 0 <= i < |s| - 1 ==> !(IsSpace(s[i]) && IsSpace(s[i + 1]))
  }

  /** Every white-space character is the plain space U+0020. */
  ghost predicate PlainSpaces(s: string)
  {
    forall i :: 0 <= i < |s| && IsSpace(s[i]) ==> s[i] == ' '
  }

  /** `.replace(/[.,\/#!$%\^&\*;:{}=\-_`~()]/g, '')`. */
  function StripPunctuation(s: string): (r: string)
    ensures forall i :: 0 <= i < |r| ==> !IsStripped(r[i]) && r[i] in s
    ensures forall i :: 0 <= i < |s| && !IsStripped(s[i]) ==> s[i] in r
  {
    FilterKeepsAll(s, Kept);
    Filter(s, Kept)
  }

  /** Stripping works character by character and keeps the order: a text is stripped by
      stripping its parts, and one character is either kept or dropped. */
  lemma StripPunctuationChars(a: string, b: string, c: char)
    ensures StripPunctuation(a + b) == StripPunctuation(a) + StripPunctuation(b)
    ensures StripPunctuation([c]) == if IsStripped(c) then [] else [c]
  {
    FilterConcat(a, b, Kept);
    FilterSingleton(c, Kept);
  }

  /** `.replace(/\s+/g, ' ')`: every maximal run of white space becomes one plain space. */
  function CollapseSpaces(s: string): (r: string)
    ensures |r| == 0 <==> |s| == 0
    ensures |s| > 0 ==> (IsSpace(r[0]) <==> IsSpace(s[0]))
    ensures SingleSpaced(r)
    ensures PlainSpaces(r)
    ensures Filter(r, NotSpace) == Filter(s, NotSpace)
    decreases |s|
  {
    if |s| == 0 then []
    else if IsSpace(s[0]) then
      var rest := CollapseSpaces(TrimStart(s[1..]));
      CollapseWordsStep(s, ' ', TrimStart(s[1..]), rest);
      [' '] + rest
    else
      var rest := CollapseSpaces(s[1..]);
      CollapseWordsStep(s, s[0], s[1..], rest);
      [s[0]] + rest
  }

  /** One step of collapsing keeps the non-space characters: the head is copied or a space
      stands for a space, and the tail loses only leading spaces. */
  lemma CollapseWordsStep(s: string, c: char, tail: string, rest: string)
    requires |s| > 0
    requires IsSpace(c) == IsSpace(s[0]) && (!IsSpace(c) ==> c == s[0])
    requires tail == s[1..] || tail == TrimStart(s[1..])
    requires Filter(rest, NotSpace) == Filter(tail, NotSpace)
    ensures Filter([c] + rest, NotSpace) == Filter(s, NotSpace)
  {
    assert s == [s[0]] + s[1..];
    FilterCons(s[0], s[1..], NotSpace);
    FilterCons(c, rest, NotSpace);
    TrimStartFilter(s[1..], NotSpace);
  }

  /** Collapsing only writes plain spaces and copies non-space characters of its input. */
  lemma {:induction false} CollapseChars(s: string)
    ensures forall i :: 0 <= i < |CollapseSpaces(s)| ==>
      CollapseSpaces(s)[i] == ' ' || (CollapseSpaces(s)[i] in s && !IsSpace(CollapseSpaces(s)[i]))
    decreases |s|
  {
    if |s| > 0 {
      if IsSpace(s[0]) {
        var rest := TrimStart(s[1..]);
        assert forall i :: 0 <= i < |rest| ==> rest[i] in s;
        CollapseChars(rest);
      } else {
        CollapseChars(s[1..]);
      }
    }
  }

  /** Length of the leading run of non-space characters. */
  function WordEnd(s: string): (n: nat)
    ensures n <= |s|
    ensures forall i :: 0 <= i < n ==> !IsSpace(s[i])
    ensures n < |s| ==> IsSpace(s[n])
    decreases |s|
  {
    if |s| == 0 || IsSpace(s[0]) then 0 else 1 + WordEnd(s[1..])
  }

  /** The words of a text: its maximal runs of non-space characters, in order. This is the
      reference the white-space collapse is measured against. */
  function Words(s: string): seq<string>
    decreases |s|
  {
    var t := TrimStart(s);
    if |t| == 0 then []
    else
      var n := WordEnd(t);
      [t[..n]] + Words(t[n..])
  }

  /** Every word is a non-empty run of non-space characters. */
  lemma {:induction false} WordsAreWords(s: string)
    ensures forall k :: 0 <= k < |Words(s)| ==> IsWord(Words(s)[k])
    decreases |s|
  {
    var t := TrimStart(s);
    if |t| > 0 {
      var n := WordEnd(t);
      WordsAreWords(t[n..]);
      assert IsWord(t[..n]);
      AllCons(t[..n], Words(t[n..]), IsWord);
    }
  }

  /** A non-empty run of non-space characters. */
  predicate IsWord(w: string)
  {
    |w| > 0 && forall i :: 0 <= i < |w| ==> !IsSpace(w[i])
  }

  /** A leading white-space character does not change the words. */
  lemma WordsSpaceHead(s: string)
    requires |s| > 0 && IsSpace(s[0])
    ensures Words(s) == Words(s[1..])
  {
  }

  /** A non-empty word followed by nothing or by white space is the first word. */
  lemma WordsWordHead(w: string, y: string)
    requires |w| > 0 && forall i :: 0 <= i < |w| ==> !IsSpace(w[i])
    requires |y| == 0 || IsSpace(y[0])
    ensures Words(w + y) == [w] + Words(y)
  {
    var s := w + y;
    assert TrimStart(s) == s;
    var n := WordEnd(s);
    assert forall i :: 0 <= i < |w| ==> s[i] == w[i];
    assert |y| > 0 ==> s[|w|] == y[0];
    assert n == |w|;
    assert s[..n] == w && s[n..] == y;
  }

  /** Leading white space does not change the words. */
  lemma WordsTrimStart(s: string)
    ensures Words(TrimStart(s)) == Words(s)
  {
    assert TrimStart(TrimStart(s)) == TrimStart(s);
  }

  /** Collapsing copies a leading word unchanged. */
  lemma {:induction false} CollapseWord(w: string, y: string)
    requires forall i :: 0 <= i < |w| ==> !IsSpace(w[i])
    ensures CollapseSpaces(w + y) == w + CollapseSpaces(y)
    decreases |w|
  {
    if |w| == 0 {
      assert w + y == y;
    } else {
      CollapseWord(w[1..], y);
      ConcatHead(w, y);
      CollapseHead(w + y);
      ConcatHead(w, CollapseSpaces(y));
    }
  }

  /** A non-space character in front is copied, and the rest is collapsed on its own. */
  lemma CollapseHead(s: string)
    requires |s| > 0 && !IsSpace(s[0])
    ensures CollapseSpaces(s) == [s[0]] + CollapseSpaces(s[1..])
  {
  }

  function LeadSpace(s: string): string
  {
    if |s| > 0 && IsSpace(s[0]) then " " else ""
  }

  /** One space for trailing white space, when some word precedes it. */
  function TrailSpace(s: string): string
  {
    if |s| > 0 && IsSpace(s[|s| - 1]) && |TrimStart(s)| > 0 then " " else ""
  }

  /** A text has words exactly when something is left after its leading white space. */
  lemma HasWords(s: string)
    ensures Words(s) != [] <==> |TrimStart(s)| > 0
  {
  }

  /** The reference for collapsing white space, built from the words: one space for
      leading white space, the words separated by single spaces, and one space for
      trailing white space after the last word. */
  function SpacedWords(s: string): string
  {
    LeadSpace(s) + Join(Words(s), " ") + TrailSpace(s)
  }

  /** `.replace(/\s+/g, ' ')` is the reference: every white-space run, wherever it is,
      becomes exactly one space between, before or after the words. */
  lemma {:induction false} CollapseIsJoin(s: string)
    ensures CollapseSpaces(s) == SpacedWords(s)
    decreases |s|
  {
    if |s| == 0 {
      assert Words(s) == [];
    } else if IsSpace(s[0]) {
      var t := TrimStart(s[1..]);
      CollapseIsJoin(t);
      CollapseSpaceHead(s);
      SpacedWordsSpace(s);
    } else {
      var n := WordEnd(s);
      WordSplit(s);
      CollapseIsJoin(s[n..]);
      CollapseWord(s[..n], s[n..]);
      SpacedWordsWord(s[..n], s[n..]);
    }
  }

  /** A text with a leading white-space character collapses to one space and the rest
      after the run. */
  lemma CollapseSpaceHead(s: string)
    requires |s| > 0 && IsSpace(s[0])
    ensures CollapseSpaces(s) == " " + CollapseSpaces(TrimStart(s[1..]))
  {
  }

  /** A text with a leading non-space character is its first word followed by a rest
      that is empty or starts with white space. */
  lemma WordSplit(s: string)
    requires |s| > 0 && !IsSpace(s[0])
    ensures var n := WordEnd(s);
      && IsWord(s[..n]) && (|s[n..]| == 0 || IsSpace(s[n..][0]))
      && s == s[..n] + s[n..] && |s[n..]| < |s|
  {
  }

  /** Leading white space contributes one space in front of the rest. */
  lemma SpacedWordsSpace(s: string)
    requires |s| > 0 && IsSpace(s[0])
    ensures SpacedWords(s) == " " + SpacedWords(TrimStart(s[1..]))
  {
    var t := TrimStart(s[1..]);
    WordsSpaceHead(s);
    WordsTrimStart(s[1..]);
    SpaceTrail(s);
    Glue(" ", LeadSpace(t), Join(Words(t), " "), TrailSpace(t), Join(Words(s), " "), TrailSpace(s));
  }

  lemma SpaceTrail(s: string)
    requires |s| > 0 && IsSpace(s[0])
    ensures TrailSpace(TrimStart(s[1..])) == TrailSpace(s)
  {
    var t := TrimStart(s[1..]);
    assert TrimStart(s) == t;
    if |t| > 0 {
      assert TrimStart(t) == t;
      assert t[|t| - 1] == s[|s| - 1];
    }
  }

  lemma Glue(a: string, b: string, j1: string, tr1: string, j: string, tr: string)
    requires |b| == 0 && j1 == j && tr1 == tr
    ensures a + j + tr == a + (b + j1 + tr1)
  {
    assert b + j1 == j1;
  }

  /** A leading word is copied in front of the rest. */
  lemma SpacedWordsWord(w: string, rest: string)
    requires IsWord(w) && (|rest| == 0 || IsSpace(rest[0]))
    ensures SpacedWords(w + rest) == w + SpacedWords(rest)
  {
    WordsWordHead(w, rest);
    WordEdges(w, rest);
    HasWords(rest);
    if |TrimStart(rest)| > 0 {
      WordBeforeWords(w, rest);
    } else {
      WordBeforeSpace(w, rest);
    }
  }

  lemma WordBeforeWords(w: string, rest: string)
    requires Words(rest) != [] && Words(w + rest) == [w] + Words(rest)
    requires LeadSpace(w + rest) == "" && LeadSpace(rest) == " " && TrailSpace(w + rest) == TrailSpace(rest)
    ensures SpacedWords(w + rest) == w + SpacedWords(rest)
  {
    var jr, tr := Join(Words(rest), " "), TrailSpace(rest);
    JoinCons(w, Words(rest), " ");
    assert SpacedWords(w + rest) == "" + (w + " " + jr) + tr;
    Regroup("", "", w + " " + jr, tr);
    assert SpacedWords(rest) == " " + jr + tr;
    Regroup(w, " ", jr, tr);
  }

  lemma WordBeforeSpace(w: string, rest: string)
    requires Words(rest) == [] && Words(w + rest) == [w] + Words(rest)
    requires LeadSpace(w + rest) == "" && TrailSpace(w + rest) == LeadSpace(rest) && TrailSpace(rest) == ""
    ensures SpacedWords(w + rest) == w + SpacedWords(rest)
  {
    var l := LeadSpace(rest);
    assert Words(w + rest) == [w];
    assert SpacedWords(w + rest) == "" + w + l;
    Regroup("", "", w, l);
    assert SpacedWords(rest) == l + "" + "";
    Regroup(l, "", "", "");
    assert l + "" == l;
  }

  /** With a leading word, the text has no leading space, and a trailing space exactly when
      the rest ends in white space. */
  lemma WordEdges(w: string, rest: string)
    requires IsWord(w) && (|rest| == 0 || IsSpace(rest[0]))
    ensures LeadSpace(w + rest) == ""
    ensures TrailSpace(w + rest) == if |rest| > 0 && IsSpace(rest[|rest| - 1]) then " " else ""
    ensures |TrimStart(rest)| == 0 ==> LeadSpace(rest) == (if |rest| > 0 && IsSpace(rest[|rest| - 1]) then " " else "")
  {
    var s := w + rest;
    assert s[0] == w[0];
    assert TrimStart(s) == s;
    if |rest| > 0 {
      assert s[|s| - 1] == rest[|rest| - 1];
    } else {
      assert s[|s| - 1] == w[|w| - 1];
    }
  }

  lemma JoinCons(w: string, ws: seq<string>, sep: string)
    requires |ws| > 0
    ensures Join([w] + ws, sep) == w + sep + Join(ws, sep)
  {
    assert ([w] + ws)[1..] == ws;
  }

  /** Collapsing white space keeps the words. */
  lemma {:induction false} CollapseKeepsWords(s: string)
    ensures Words(CollapseSpaces(s)) == Words(s)
    decreases |s|
  {
    if |s| > 0 {
      if IsSpace(s[0]) {
        var t := TrimStart(s[1..]);
        WordsSpaceHead(s);
        WordsTrimStart(s[1..]);
        WordsSpaceHead(CollapseSpaces(s));
        assert CollapseSpaces(s)[1..] == CollapseSpaces(t);
        CollapseKeepsWords(t);
      } else {
        var n := WordEnd(s);
        var w, rest := s[..n], s[n..];
        assert s == w + rest;
        WordsWordHead(w, rest);
        CollapseWord(w, rest);
        WordsWordHead(w, CollapseSpaces(rest));
        CollapseKeepsWords(rest);
      }
    }
  }

  /** The normalized text is the words left after lower-casing, trimming and stripping
      punctuation, each white-space run between them replaced by one space. */
  lemma NormalizeIsJoin(text: string)
    ensures Normalize(text) == SpacedWords(StripPunctuation(Trim(Lower(text))))
  {
    CollapseIsJoin(StripPunctuation(Trim(Lower(text))));
  }

  /** `normalizeText`: lower-case, `trim`, strip the punctuation class, collapse white space
      (in this order, so that a result may still begin or end with a space). */
  function Normalize(text: string): (r: string)
    ensures forall i :: 0 <= i < |r| ==> !IsUpper(r[i])
    ensures forall i :: 0 <= i < |r| ==> !IsStripped(r[i])
    ensures SingleSpaced(r)
    ensures PlainSpaces(r)
    ensures Filter(r, NotSpace) == Filter(Lower(text), WordChar)
    ensures Words(r) == Words(StripPunctuation(Trim(Lower(text))))
  {
    var stripped := StripPunctuation(Trim(Lower(text)));
    CleanBeforeCollapse(text);
    CollapseKeepsClean(stripped);
    NormalizeWords(text);
    CollapseKeepsWords(stripped);
    CollapseSpaces(stripped)
  }

  /** The non-space characters left after normalizing are those of the lower-cased text
      that are neither white space nor stripped punctuation, in their order. */
  lemma NormalizeWords(text: string)
    ensures Filter(CollapseSpaces(StripPunctuation(Trim(Lower(text)))), NotSpace) == Filter(Lower(text), WordChar)
  {
    var trimmed := Trim(Lower(text));
    FilterFilter(trimmed, Kept, NotSpace, WordChar);
    TrimFilter(Lower(text), WordChar);
  }

  /** Neither a capital letter nor a stripped punctuation character. */
  ghost predicate Clean(s: string)
  {
    forall i :: 0 <= i < |s| ==> !IsUpper(s[i]) && !IsStripped(s[i])
  }

  lemma CleanBeforeCollapse(text: string)
    ensures Clean(StripPunctuation(Trim(Lower(text))))
  {
    var lowered := Lower(text);
    var trimmed := Trim(lowered);
    TrimChars(lowered);
    forall i | 0 <= i < |trimmed|
      ensures !IsUpper(trimmed[i])
    {
      var j :| 0 <= j < |lowered| && lowered[j] == trimmed[i];
    }
    var stripped := StripPunctuation(trimmed);
    forall i | 0 <= i < |stripped|
      ensures !IsUpper(stripped[i])
    {
      var j :| 0 <= j < |trimmed| && trimmed[j] == stripped[i];
    }
  }

  lemma CollapseKeepsClean(s: string)
    requires Clean(s)
    ensures Clean(CollapseSpaces(s))
  {
    var r := CollapseSpaces(s);
    CollapseChars(s);
    forall i | 0 <= i < |r|
      ensures !IsUpper(r[i]) && !IsStripped(r[i])
    {
      if r[i] != ' ' {
        var j :| 0 <= j < |s| && s[j] == r[i];
      }
    }
  }

  /** Because `trim` runs before punctuation is stripped, a question ending in " !" keeps
      a trailing space after normalization. */
  lemma NormalizeKeepsTrailingSpace()
    ensures Normalize("ok !") == "ok "
  {
    var s := "ok !";
    LowerFixed(s);
    assert !IsSpace(s[0]) && !IsSpace(s[3]);
    assert Trim(s) == s;
    StripExample();
    CollapseExample();
  }

  lemma StripExample()
    ensures StripPunctuation("ok !") == "ok "
  {
    assert "ok !" == "ok " + "!";
    FilterSnoc("ok ", '!', Kept);
    FilterAll("ok ", Kept);
  }

  lemma CollapseExample()
    ensures CollapseSpaces("ok ") == "ok "
  {
    var s := "ok ";
    assert !IsSpace(s[0]) && !IsSpace(s[1]);
    CollapseFixed(s);
  }

  lemma LowerFixed(s: string)
    requires forall i :: 0 <= i < |s| ==> !IsUpper(s[i])
    ensures Lower(s) == s
  {
  }

  lemma {:induction false} CollapseFixed(s: string)
    requires SingleSpaced(s) && PlainSpaces(s)
    ensures CollapseSpaces(s) == s
    decreases |s|
  {
    if |s| > 0 {
      if IsSpace(s[0]) {
        assert |s| > 1 ==> !IsSpace(s[1]);
        assert TrimStart(s[1..]) == s[1..];
      }
      CollapseFixed(s[1..]);
    }
  }

  lemma TrimStartKeepsSpacing(s: string)
    requires SingleSpaced(s) && PlainSpaces(s)
    ensures SingleSpaced(TrimStart(s)) && PlainSpaces(TrimStart(s))
    ensures Clean(s) ==> Clean(TrimStart(s))
  {
    SliceKeepsSpacing(s, |s| - |TrimStart(s)|, |s|);
  }

  lemma TrimEndKeepsSpacing(s: string)
    requires SingleSpaced(s) && PlainSpaces(s)
    ensures SingleSpaced(TrimEnd(s)) && PlainSpaces(TrimEnd(s))
    ensures Clean(s) ==> Clean(TrimEnd(s))
  {
    SliceKeepsSpacing(s, 0, |TrimEnd(s)|);
  }

  /** A slice of a single-spaced, plain-spaced (clean) string is again so. */
  lemma SliceKeepsSpacing(s: string, lo: int, hi: int)
    requires 0 <= lo <= hi <= |s|
    requires SingleSpaced(s) && PlainSpaces(s)
    ensures SingleSpaced(s[lo..hi]) && PlainSpaces(s[lo..hi])
    ensures Clean(s) ==> Clean(s[lo..hi])
  {
    var a := s[lo..hi];
    assert forall i :: 0 <= i < |a| ==> a[i] == s[lo + i];
  }

  /** Normalizing twice equals trimming the first result: `normalizeText` is idempotent
      except for the one leading or trailing space its step order can leave behind. */
  lemma NormalizeTwice(text: string)
    ensures Normalize(Normalize(text)) == Trim(Normalize(text))
  {
    var n := Normalize(text);
    assert Clean(n);
    NormalizeClean(n);
  }

  /** On a clean, single-spaced, plain-spaced string normalization only trims. */
  lemma NormalizeClean(n: string)
    requires Clean(n) && SingleSpaced(n) && PlainSpaces(n)
    ensures Normalize(n) == Trim(n)
  {
    LowerFixed(n);
    TrimStartKeepsSpacing(n);
    TrimEndKeepsSpacing(TrimStart(n));
    var t := Trim(n);
    assert Clean(t);
    FilterAll(t, Kept);
    assert StripPunctuation(Trim(Lower(n))) == t;
    CollapseFixed(t);
  }

  // ---------------------------------------------------------------------------
  // split and join
  // ---------------------------------------------------------------------------

  /** `parts.join(sep)`; the join of no parts is the empty string. */
  function Join(parts: seq<string>, sep: string): string
  {
    if |parts| == 0 then ""
    else if |parts| == 1 then parts[0]
    else parts[0] + sep + Join(parts[1..], sep)
  }

  /** Every part of a join is included in it. */
  lemma {:induction false} JoinIncludesPart(parts: seq<string>, sep: string, i: int)
    requires 0 <= i < |parts|
    ensures Includes(Join(parts, sep), parts[i])
    decreases |parts|
  {
    var j := Join(parts, sep);
    if |parts| == 1 {
      assert OccursAt(j, parts[0], 0);
    } else if i == 0 {
      assert j[..|parts[0]|] == parts[0];
      assert OccursAt(j, parts[0], 0);
    } else {
      JoinIncludesPart(parts[1..], sep, i - 1);
      var rest := Join(parts[1..], sep);
      var k :| OccursAt(rest, parts[i], k);
      var off := |parts[0]| + |sep|;
      assert j == (parts[0] + sep) + rest;
      assert j[off + k..off + k + |parts[i]|] == rest[k..k + |parts[i]|];
      assert OccursAt(j, parts[i], off + k);
    }
  }

  /** `s.split(sep)` for a one-character separator: the pieces between separators, always at
      least one (`"".split(".")` is `[""]`); joining them back with the separator gives `s`. */
  function Split(s: string, sep: char): (parts: seq<string>)
    ensures |parts| >= 1
    ensures forall i :: 0 <= i < |parts| ==> sep !in parts[i]
    ensures Join(parts, [sep]) == s
    decreases |s|
  {
    if |s| == 0 then [""]
    else
      var rest := Split(s[1..], sep);
      assert s == [s[0]] + s[1..];
      if s[0] == sep then
        assert ([""] + rest)[1..] == rest;
        [""] + rest
      else
        var parts := [[s[0]] + rest[0]] + rest[1..];
        JoinExtendHead(s[0], rest, [sep]);
        parts
  }

  /** Prepending a character to the first part prepends it to the join. */
  lemma JoinExtendHead(c: char, parts: seq<string>, sep: string)
    requires |parts| >= 1
    ensures Join([[c] + parts[0]] + parts[1..], sep) == [c] + Join(parts, sep)
  {
    var ext := [[c] + parts[0]] + parts[1..];
    assert ext[1..] == parts[1..];
    if |parts| > 1 {
      assert Join(ext, sep) == ([c] + parts[0]) + sep + Join(parts[1..], sep);
    }
  }

  lemma {:induction false} SplitPrefix(p: string, t: string, sep: char)
    requires sep !in p
    ensures Split(p + t, sep) == [p + Split(t, sep)[0]] + Split(t, sep)[1..]
    decreases |p|
  {
    if |p| > 0 {
      assert (p + t)[1..] == p[1..] + t;
      assert (p + t)[0] == p[0];
      SplitPrefix(p[1..], t, sep);
      assert [p[0]] + (p[1..] + Split(t, sep)[0]) == p + Split(t, sep)[0];
    } else {
      assert p + t == t;
      assert p + Split(t, sep)[0] == Split(t, sep)[0];
      assert Split(t, sep) == [Split(t, sep)[0]] + Split(t, sep)[1..];
    }
  }

  /** The other half of the round trip: splitting a join of separator-free pieces gives
      the pieces back. */
  lemma {:induction false} SplitJoin(parts: seq<string>, sep: char)
    requires |parts| >= 1
    requires forall i :: 0 <= i < |parts| ==> sep !in parts[i]
    ensures Split(Join(parts, [sep]), sep) == parts
    decreases |parts|
  {
    if |parts| == 1 {
      SplitPrefix(parts[0], "", sep);
      assert parts[0] + "" == parts[0];
    } else {
      var tail := Join(parts[1..], [sep]);
      SplitJoin(parts[1..], sep);
      assert Join(parts, [sep]) == parts[0] + ([sep] + tail);
      SplitPrefix(parts[0], [sep] + tail, sep);
      assert ([sep] + tail)[1..] == tail;
      assert Split([sep] + tail, sep) == [""] + parts[1..];
      assert parts[0] + "" == parts[0];
      assert parts == [parts[0]] + parts[1..];
    }
  }

  // ---------------------------------------------------------------------------
  // indexOf, includes and replace
  // ---------------------------------------------------------------------------

  /** `pat` occurs in `s` starting at position `i`. */
  ghost predicate OccursAt(s: string, pat: string, i: int)
  {
    0 <= i && i + |pat| <= |s| && s[i..i + |pat|] == pat
  }

  function IndexOfFrom(s: string, pat: string, k: nat): (r: Option<nat>)
    ensures r.Some? ==> k <= r.value && OccursAt(s, pat, r.value)
    ensures r.Some? ==> forall j :: k <= j < r.value ==> !OccursAt(s, pat, j)
    ensures r.None? ==> forall j :: k <= j ==> !OccursAt(s, pat, j)
    decreases |s| - k
  {
    if k + |pat| > |s| then None
    else if s[k..k + |pat|] == pat then Some(k)
    else IndexOfFrom(s, pat, k + 1)
  }

  /** `s.indexOf(pat)`: the first position where `pat` occurs, `None` for -1. */
  function IndexOf(s: string, pat: string): (r: Option<nat>)
    ensures r.Some? ==> OccursAt(s, pat, r.value)
    ensures r.Some? ==> forall j :: 0 <= j < r.value ==> !OccursAt(s, pat, j)
    ensures r.None? <==> forall j :: !OccursAt(s, pat, j)
  {
    IndexOfFrom(s, pat, 0)
  }

  /** `s.includes(pat)`. */
  function Includes(s: string, pat: string): (b: bool)
    ensures b <==> exists j :: OccursAt(s, pat, j)
  {
    IndexOf(s, pat).Some?
  }

  /** Every string includes the empty string. */
  lemma IncludesEmpty(s: string)
    ensures Includes(s, "")
  {
    assert OccursAt(s, "", 0);
  }

  /** Text found in the middle part is found in the whole. */
  lemma IncludesInMiddle(a: string, b: string, c: string, pat: string)
    requires Includes(b, pat)
    ensures Includes(a + b + c, pat)
  {
    var k :| OccursAt(b, pat, k);
    var s := a + b + c;
    assert s[|a| + k..|a| + k + |pat|] == b[k..k + |pat|];
    assert OccursAt(s, pat, |a| + k);
  }

  /** ECMAScript GetSubstitution for a string pattern (no capture groups): `$$` gives `$`,
      `$&` the matched text, `` $` `` the text before the match, `$'` the text after it,
      and every other `$` is kept literally. */
  function Substitute(rep: string, matched: string, before: string, after: string): (r: string)
    ensures '$' !in rep ==> r == rep
    decreases |rep|
  {
    if |rep| == 0 then ""
    else if rep[0] == '$' && |rep| >= 2 && rep[1] == '$' then "$" + Substitute(rep[2..], matched, before, after)
    else if rep[0] == '$' && |rep| >= 2 && rep[1] == '&' then matched + Substitute(rep[2..], matched, before, after)
    else if rep[0] == '$' && |rep| >= 2 && rep[1] == '`' then before + Substitute(rep[2..], matched, before, after)
    else if rep[0] == '$' && |rep| >= 2 && rep[1] == '\'' then after + Substitute(rep[2..], matched, before, after)
    else
      assert rep == [rep[0]] + rep[1..];
      [rep[0]] + Substitute(rep[1..], matched, before, after)
  }

  /** A replacement text without `$` is copied as it is, whatever follows it. */
  lemma {:induction false} SubstituteLiteral(a: string, b: string, matched: string, before: string, after: string)
    requires forall i :: 0 <= i < |a| ==> a[i] != '$'
    ensures Substitute(a + b, matched, before, after) == a + Substitute(b, matched, before, after)
    decreases |a|
  {
    if |a| == 0 {
      assert a + b == b;
    } else {
      var rest := a[1..];
      assert a + b == [a[0]] + (rest + b);
      SubstituteChar(a[0], rest + b, matched, before, after);
      SubstituteLiteral(rest, b, matched, before, after);
      ConcatAssoc([a[0]], rest, Substitute(b, matched, before, after));
      assert a == [a[0]] + rest;
    }
  }

  lemma SubstituteChar(c: char, b: string, matched: string, before: string, after: string)
    requires c != '$'
    ensures Substitute([c] + b, matched, before, after) == [c] + Substitute(b, matched, before, after)
  {
    assert ([c] + b)[1..] == b;
  }

  /** The four two-character patterns at the head of a replacement text. */
  lemma SubstitutePatterns(b: string, matched: string, before: string, after: string)
    ensures Substitute("$$" + b, matched, before, after) == "$" + Substitute(b, matched, before, after)
    ensures Substitute("$&" + b, matched, before, after) == matched + Substitute(b, matched, before, after)
    ensures Substitute("$`" + b, matched, before, after) == before + Substitute(b, matched, before, after)
    ensures Substitute("$'" + b, matched, before, after) == after + Substitute(b, matched, before, after)
  {
    assert ("$$" + b)[2..] == b && ("$&" + b)[2..] == b;
    assert ("$`" + b)[2..] == b && ("$'" + b)[2..] == b;
  }

  /** A `$` that starts none of the four patterns, including one at the very end, is kept. */
  lemma SubstituteLoneDollar(c: char, b: string, matched: string, before: string, after: string)
    requires c != '$' && c != '&' && c != '`' && c != '\''
    ensures Substitute(['$', c] + b, matched, before, after) == "$" + Substitute([c] + b, matched, before, after)
    ensures Substitute("$", matched, before, after) == "$"
  {
    assert (['$', c] + b)[1..] == [c] + b;
    assert "$"[1..] == "";
  }

  /** `"a{x}b".replace("{x}", "[$&]")` gives `"a[{x}]b"`. */
  lemma ReplaceFirstExample()
    ensures ReplaceFirst("a{x}b", "{x}", "[$&]") == "a[{x}]b"
  {
    var s, pat := "a{x}b", "{x}";
    assert OccursAt(s, pat, 1);
    assert s[0..3][0] != pat[0];
    assert IndexOf(s, pat) == Some(1);
    SubstituteLiteral("[", "$&]", pat, s[..1], s[4..]);
    SubstitutePatterns("]", pat, s[..1], s[4..]);
    assert "[$&]" == "[" + ("$&" + "]");
    assert "$&]" == "$&" + "]";
  }

  /** `s.replace(pat, rep)` with a string pattern: only the first occurrence is replaced. */
  function ReplaceFirst(s: string, pat: string, rep: string): (r: string)
    ensures !Includes(s, pat) ==> r == s
    ensures IndexOf(s, pat).Some? && '$' !in rep ==>
      var i := IndexOf(s, pat).value;
      r == s[..i] + rep + s[i + |pat|..]
  {
    match IndexOf(s, pat)
    case None => s
    case Some(i) => s[..i] + Substitute(rep, pat, s[..i], s[i + |pat|..]) + s[i + |pat|..]
  }

  /** A `$&` between two `$`-free parts stands for the matched text. */
  lemma SubstituteMatched(a: string, b: string, matched: string, before: string, after: string)
    requires forall k :: 0 <= k < |a| ==> a[k] != '$'
    requires forall k :: 0 <= k < |b| ==> b[k] != '$'
    ensures Substitute(a + "$&" + b, matched, before, after) == a + matched + b
  {
    assert a + "$&" + b == a + ("$&" + b);
    SubstituteLiteral(a, "$&" + b, matched, before, after);
    SubstitutePatterns(b, matched, before, after);
    assert '$' !in b;
  }

  /** A `$&` in the replacement text stands for the matched text, which is the pattern
      itself: the first occurrence is wrapped in the literal parts around the `$&`. */
  lemma ReplaceFirstMatched(s: string, pat: string, a: string, b: string)
    requires forall k :: 0 <= k < |a| ==> a[k] != '$'
    requires forall k :: 0 <= k < |b| ==> b[k] != '$'
    requires IndexOf(s, pat).Some?
    ensures var i := IndexOf(s, pat).value;
      ReplaceFirst(s, pat, a + "$&" + b) == s[..i] + (a + pat + b) + s[i + |pat|..]
  {
    var i := IndexOf(s, pat).value;
    SubstituteMatched(a, b, pat, s[..i], s[i + |pat|..]);
  }

  /** Replacing the first occurrence leaves a later, non-overlapping occurrence in place
      (shifted by the difference in length), so a placeholder that appears twice is
      substituted once. */
  lemma ReplaceFirstKeepsLater(s: string, pat: string, rep: string, j: nat)
    requires '$' !in rep
    requires IndexOf(s, pat).Some? && IndexOf(s, pat).value + |pat| <= j
    requires OccursAt(s, pat, j)
    ensures OccursAt(ReplaceFirst(s, pat, rep), pat, j - |pat| + |rep|)
  {
    var i := IndexOf(s, pat).value;
    var r := ReplaceFirst(s, pat, rep);
    var tail := s[i + |pat|..];
    assert r == (s[..i] + rep) + tail;
    var k := j - i - |pat|;
    assert tail[k..k + |pat|] == s[j..j + |pat|];
    assert r[j - |pat| + |rep|..j + |rep|] == tail[k..k + |pat|];
  }

  // ---------------------------------------------------------------------------
  // decimal numbers
  // ---------------------------------------------------------------------------

  predicate IsDigit(c: char)
  {
    '0' <= c <= '9'
  }

  ghost predicate AllDigits(s: string)
  {
    forall i :: 0 <= i < |s| ==> IsDigit(s[i])
  }

  /** The value of a string of decimal digits. */
  function DecimalValue(s: string): nat
    requires forall i :: 0 <= i < |s| ==> IsDigit(s[i])
  {
    if |s| == 0 then 0
    else
      assert IsDigit(s[|s| - 1]);
      DecimalValue(s[..|s| - 1]) * 10 + (s[|s| - 1] as int - '0' as int)
  }

  function DigitChar(d: nat): (c: char)
    requires d < 10
    ensures IsDigit(c) && c as int - '0' as int == d
  {
    ('0' as int + d) as char
  }

  /** The decimal rendering of a counter (template-literal `${n}`): digits only, no leading
      zero, and reading the digits back gives `n`. */
  function NatToString(n: nat): (r: string)
    ensures |r| >= 1
    ensures AllDigits(r)
    ensures |r| == 1 || r[0] != '0'
    ensures n > 0 ==> r[0] != '0'
    ensures DecimalValue(r) == n
  {
    if n < 10 then [DigitChar(n)]
    else
      var hi := NatToString(n / 10);
      var r := hi + [DigitChar(n % 10)];
      assert r[..|r| - 1] == hi;
      r
  }
}

=== FILE: Translation.dfy ===
/** The translation helpers of `hooks/useTranslation.ts`: `t` walks a dotted key through the
    current language's parsed locale file and falls back to the key itself; `tf` then
    fills `{name}` placeholders, the first occurrence of each. The locale trees are
    parameters (the JSON files are data, not logic). */
module Translation {
  import opened Optional
  import opened Seqs
  import opened Text

  // ---------------------------------------------------------------------------
  // Locale trees
  // ---------------------------------------------------------------------------

  /** A parsed JSON value. */
  datatype Json =
    | Str(s: string)
    | Num(n: real)
    | Bool(b: bool)
    | Null
    | Arr(items: seq<Json>)
    | Obj(fields: map<string, Json>)

  /** The three interface languages of the language store. */
  datatype Language = Ru | UzCyrl | UzLatn

  /** The `translations` table: one parsed locale file per language. */
  datatype Translations = Translations(ru: Json, uzCyrl: Json, uzLatn: Json)

  function TreeFor(table: Translations, language: Language): (tree: Json)
    ensures language == Ru ==> tree == table.ru
    ensures language == UzCyrl ==> tree == table.uzCyrl
    ensures language == UzLatn ==> tree == table.uzLatn
  {
    match language
    case Ru => table.ru
    case UzCyrl => table.uzCyrl
    case UzLatn => table.uzLatn
  }

  /** A property name that addresses an array element: a canonical decimal numeral. */
  predicate IsIndexKey(k: string)
  {
    && |k| >= 1
    && (|k| == 1 || k[0] != '0')
    && forall i :: 0 <= i < |k| ==> IsDigit(k[i])
  }

  /** `value[k]` on an object or an array, `None` for `undefined` and for anything that is
      not JSON data (an inherited method, an array's `length`): none of those is an object
      or a string, so the lookup treats them all alike. */
  function Member(value: Json, k: string): (r: Option<Json>)
    requires value.Obj? || value.Arr?
    ensures value.Obj? ==> (r.Some? <==> k in value.fields)
    ensures r.Some? && value.Obj? ==> r.value == value.fields[k]
    ensures r.Some? && value.Arr? ==> r.value in value.items
  {
    match value
    case Obj(fields) => if k in fields then Some(fields[k]) else None
    case Arr(items) =>
      if IsIndexKey(k) && DecimalValue(k) < |items| then Some(items[DecimalValue(k)]) else None
  }

  /** The loop over the key's segments: descend while the current value is an object
      (`value && typeof value === 'object'`, so `null` stops it), otherwise give up. */
  function Resolve(value: Option<Json>, path: seq<string>): Option<Json>
    decreases |path|
  {
    if |path| == 0 then value
    else match value
      case Some(v) =>
        if v.Obj? || v.Arr? then Resolve(Member(v, path[0]), path[1..]) else None
      case None => None
  }

  // ---------------------------------------------------------------------------
  // t
  // ---------------------------------------------------------------------------

  /** `t(key)`: the string at the dotted path, or the key itself. */
  function T(tree: Json, key: string): string
  {
    match Resolve(Some(tree), Split(key, '.'))
    case Some(Str(s)) => s
    case _ => key
  }

  /** `s` is a string stored in `tree` under `path`: every step before the last goes into
      an object (or an array, by a canonical index) and the last lands on the string. */
  ghost predicate LeafAt(tree: Json, path: seq<string>, s: string)
    decreases |path|
  {
    if |path| == 0 then tree == Str(s)
    else match tree
      case Obj(fields) => path[0] in fields && LeafAt(fields[path[0]], path[1..], s)
      case Arr(items) =>
        IsIndexKey(path[0]) && DecimalValue(path[0]) < |items| && LeafAt(items[DecimalValue(path[0])], path[1..], s)
      case _ => false
  }

  /** The walk ends on a string exactly when that string is a leaf of the tree at the path. */
  lemma {:induction false} ResolveLeaf(tree: Json, path: seq<string>, s: string)
    ensures Resolve(Some(tree), path) == Some(Str(s)) <==> LeafAt(tree, path, s)
    decreases |path|
  {
    if |path| > 0 && (tree.Obj? || tree.Arr?) {
      var next := Member(tree, path[0]);
      if next.Some? {
        ResolveLeaf(next.value, path[1..], s);
      } else {
        NothingPastMissing(path[1..]);
      }
    }
  }

  lemma NothingPastMissing(path: seq<string>)
    ensures Resolve(None, path) == None
  {
  }

  /** When the dotted path leads to a string, `t` returns that string. */
  lemma TFindsLeaf(tree: Json, key: string, s: string)
    requires LeafAt(tree, Split(key, '.'), s)
    ensures T(tree, key) == s
  {
    ResolveLeaf(tree, Split(key, '.'), s);
  }

  /** When the dotted path leads to no string (a missing segment, a step into a non-object,
      or a final value that is not a string), `t` returns the key unchanged. */
  lemma TFallsBack(tree: Json, key: string)
    requires forall s :: !LeafAt(tree, Split(key, '.'), s)
    ensures T(tree, key) == key
  {
    var r := Resolve(Some(tree), Split(key, '.'));
    if r.Some? && r.value.Str? {
      ResolveLeaf(tree, Split(key, '.'), r.value.s);
    }
  }

  /** `t` returns either the key or a string of the tree, found under the key's path. */
  lemma TKeyOrLeaf(tree: Json, key: string)
    ensures T(tree, key) == key || LeafAt(tree, Split(key, '.'), T(tree, key))
  {
    var r := Resolve(Some(tree), Split(key, '.'));
    if r.Some? && r.value.Str? {
      ResolveLeaf(tree, Split(key, '.'), r.value.s);
    }
  }

  /** The hook's `t` for the current language. */
  function Translate(table: Translations, language: Language, key: string): (r: string)
    ensures r == key || LeafAt(TreeFor(table, language), Split(key, '.'), r)
  {
    TKeyOrLeaf(TreeFor(table, language), key);
    T(TreeFor(table, language), key)
  }

  // ---------------------------------------------------------------------------
  // tf
  // ---------------------------------------------------------------------------

  /** A parameter value: `string | number`. Numbers are modelled as integers. */
  datatype ParamValue = TextValue(text: string) | Number(n: int)

  /** `String(value)`. */
  function ParamString(v: ParamValue): (r: string)
    ensures v.TextValue? ==> r == v.text
    ensures v.Number? && v.n >= 0 ==> AllDigits(r) && DecimalValue(r) == v.n
    ensures v.Number? && v.n < 0 ==> |r| >= 2 && r[0] == '-' && AllDigits(r[1..]) && DecimalValue(r[1..]) == -v.n
    ensures v.Number? ==> '$' !in r
  {
    match v
    case TextValue(s) => s
    case Number(n) =>
      var digits := NatToString(if n < 0 then -n else n);
      assert '$' !in digits by {
        assert forall i :: 0 <= i < |digits| ==> IsDigit(digits[i]);
      }
      if n < 0 then
        assert ("-" + digits)[1..] == digits;
        "-" + digits
      else digits
  }

  /** `{name}`. */
  function Placeholder(name: string): (p: string)
    ensures |p| == |name| + 2 && p[0] == '{' && p[|p| - 1] == '}'
    ensures p[1..|p| - 1] == name
  {
    "{" + name + "}"
  }

  /** One parameter, as `Object.keys(params)` lists it with its value. */
  datatype Param = Param(name: string, value: ParamValue)

  /** The `forEach` over the parameters, in `Object.keys` order: each replaces the first
      occurrence of its placeholder in the text produced so far. */
  function Fill(s: string, params: seq<Param>): string
    decreases |params|
  {
    if |params| == 0 then s
    else Fill(ReplaceFirst(s, Placeholder(params[0].name), ParamString(params[0].value)), params[1..])
  }

  /** `tf(key, params)`. */
  function Tf(tree: Json, key: string, params: seq<Param>): string
  {
    Fill(T(tree, key), params)
  }

  /** Without parameters `tf` is `t`; more generally, parameters whose placeholders never
      occur change nothing. */
  lemma {:induction false} FillAbsent(s: string, params: seq<Param>)
    requires forall i :: 0 <= i < |params| ==> !Includes(s, Placeholder(params[i].name))
    ensures Fill(s, params) == s
    decreases |params|
  {
    if |params| > 0 {
      FillAbsent(s, params[1..]);
    }
  }

  lemma TfNoParams(tree: Json, key: string)
    ensures Tf(tree, key, []) == T(tree, key)
  {
  }

  /** One parameter with a plain value: the first `{name}` is cut out and the value put in
      its place. */
  lemma FillOne(s: string, name: string, value: ParamValue)
    requires '$' !in ParamString(value)
    requires IndexOf(s, Placeholder(name)).Some?
    ensures var i := IndexOf(s, Placeholder(name)).value;
      Fill(s, [Param(name, value)])
        == s[..i] + ParamString(value) + s[i + |Placeholder(name)|..]
  {
    FillSingle(s, name, value);
  }

  /** Only the first occurrence is replaced: a later `{name}` survives, shifted by the
      difference in length. */
  lemma FillKeepsSecond(s: string, name: string, value: ParamValue, j: nat)
    requires '$' !in ParamString(value)
    requires IndexOf(s, Placeholder(name)).Some?
    requires IndexOf(s, Placeholder(name)).value + |Placeholder(name)| <= j
    requires OccursAt(s, Placeholder(name), j)
    ensures OccursAt(Fill(s, [Param(name, value)]), Placeholder(name),
      j - |Placeholder(name)| + |ParamString(value)|)
  {
    FillSingle(s, name, value);
    ReplaceFirstKeepsLater(s, Placeholder(name), ParamString(value), j);
  }

  lemma FillSingle(s: string, name: string, value: ParamValue)
    ensures Fill(s, [Param(name, value)]) == ReplaceFirst(s, Placeholder(name), ParamString(value))
  {
    assert [Param(name, value)][1..] == [];
  }
}
